=== FILE: README.md ===
# Breakout-strategy backtest engines in Dafny

The repository simulates one daily breakout strategy on Bitcoin bars and re-implements it about ten times. Each copy is a fold over an ordered bar series. Per bar:

- the previous-window highest high and lowest low give the boundaries `open ± range·range_mult`;
- `high > upper` is a long breakout and `low < lower` a short breakout;
- an ATR-based stop-loss closes losing positions;
- entries are sized at 99% of equity and pay a flat 0.1% commission on entry and on exit;
- an opposite breakout reverses the position, which is logged as a close record followed by an entry record;
- any position still open when the series ends is closed.

The variants differ in three things:

- where they fill: next bar's open, this bar's close, or the boundary price;
- how they fill a stop: at its level, at the bar's extreme, or at the open;
- how they seed the ATR.

This project models all of them, with one shared layer and one module per engine:

| file | module | what it models |
|---|---|---|
| market.dfy | `Market` | `Bar`, `Option` (pandas NaN / Python `None`), `Config` and the constructor defaults, `abs`/`max`/`min` |
| indicators.dfy | `Indicators` | window extremes, boundaries, true range, the four ATR variants, the prepared dataframe rows |
| ledger.dfy | `PositionLedger` | the signed-size ledger, entry/close equations, trade records, equity bookkeeping, the numbered trade journal |
| correcttiming.dfy | `CorrectTiming` | `CorrectTimingStrategy`: signals detected on bar N fill at bar N+1's open |
| exactpine.dfy | `ExactPine` | `ExactPineScriptStrategy` (root copy and the byte-identical `btc-strategy-web/backend` copy): fills at the bar's close |
| fixedpine.dfy | `FixedPine` | `FixedPineScriptStrategy`: fills at the boundary, stop at its level |
| detailedlogger.dfy | `DetailedLogger` | `DetailedBTCStrategy`: boundary fills, stop at the bar's extreme, same-direction replacement |
| correctedstrategy.dfy | `CorrectedStrategy` | `CorrectedBTCStrategy`: reversal sized before the opposite close |
| pinescript.dfy | `PineScript` | `backtest_pine_script` and `calculate_metrics` |
| correctpine.dfy | `CorrectPine` | the trading loop of `backtest_tradingview_logic` |
| btcstrategy.dfy | `BtcStrategy` | `BTCTradingStrategy` with its cash/equity split |
| simplepine.dfy | `SimplePine` | the loop of `run_simple_backtest` (percentage equity updates) |

Modelling choices:

- **Prices and numbers.** Prices and amounts are `real`, and pandas NaN is `Option.None`. A comparison with NaN is false. The engines divide by bar prices without a guard, so every run requires positive OHLC values (`PositiveBars`).
- **Indicators.** `rolling(...).max().shift(1)` and `ewm(alpha = 1/period, adjust = False)` are restated as explicit window maxima and recurrences. pandas' row-wise `max` skips the NaN previous close, so the pandas true range of bar 0 is `high - low`. The numpy engines instead leave `tr[0] = 0`.
- **Inputs.** Timestamps are integer day numbers. Free-text reasons and comments are reduced to the `Reason` enum. The input is an already-filtered bar sequence.
- **Cash in `btc_strategy_backtest.py`.** Its cash column is kept as written, with two consequences (`BtcStrategy.StopCash`, `BtcStrategy.LongEntryCurveShowsCash`). A short entry receives the trade value into cash, and a short stop then adds the entry notional back a second time. The equity curve is cash plus unrealised PnL, and a long entry took the whole trade value out of cash, so while long the curve shows about 1% of equity plus the unrealised PnL. Realised `equity` and the trade rows are unaffected.
- **Constants.** Each engine's own constants are `DefaultConfig`. `commission_value = 0.1` in the percent-based engines is the same rate as `commission_rate = 0.001` in the others.

Two points on which the engines differ:

- **Double breach.** Most engines give the long breakout priority when a bar breaks both boundaries; `Detect` and `Logic` model that.
  - `pine_script_backtest.py` instead compares the distance of each boundary from the open. The two distances are always equal, so it always queues SHORT (`PineScript.DoubleBreachGoesShort`).
- **Pending signal at the end.** `correct_timing_backtest.py` executes a signal still pending when the series ends at the final close, and `CorrectTiming.Finish` models that. `pine_script_backtest.py` drops such a signal and only closes the open position.

## Model

| member | source | states |
|---|---|---|
| Indicators.WindowHigh | correct_timing_backtest.py:76 | the rolling maximum is an upper bound of every high in the window and is attained by one of them |
| Indicators.WindowLow | correct_timing_backtest.py:77 | the rolling minimum is a lower bound of every low in the window and is attained by one of them |
| Indicators.WindowLocal | exact_pine_script_implementation.py:60-66 | `ta_highest`/`ta_lowest` read nothing outside their window: series that agree on the window give the same extremes |
| Indicators.BoundsOver | correct_timing_backtest.py:76-80 | highest/lowest bound every bar of the window, are attained in it, and both boundaries lie range·range_mult from the bar's open |
| Indicators.ShiftedBounds | exact_pine_script_implementation.py:86-98 | boundaries exist exactly from bar `lookback` on, and then come from the window of the `lookback` bars before bar i |
| Indicators.BoundsNoLookahead | correct_timing_backtest.py:76-80 | bar i's boundaries depend only on bars before i and on bar i's open, never on its own high, low or close |
| Indicators.ShortBreakoutPricePositive | detailed_backtest_logger.py:320-322 | on a positive bar that breaks its lower boundary, the fill `min(open, lower)` is positive, so sizing by it is defined |
| Indicators.TrueRange | correct_timing_backtest.py:48-54 | true range is at least high-low and both gaps to the previous close, and equals one of them; bar 0 has high-low |
| Indicators.TrSeries | pine_script_backtest.py:30-43 | the true-range column has one value per bar, 0 at bar 0 in the numpy engines, the pandas true range otherwise |
| Indicators.RmaPineForm | correct_timing_backtest.py:55-56 | the ewm(alpha = 1/period, adjust = False) recurrence is Pine's RMA step (prev·(period-1) + tr)/period |
| Indicators.RmaBetween | exact_pine_script_implementation.py:53-56 | the ewm ATR is a weighted average: it stays within any interval containing every true range so far |
| Indicators.SeededRmaBetween | pine_script_backtest.py:45-51 | the SMA-seeded RMA ATR from bar `period` on stays within any interval containing tr[1..i] |
| Indicators.TrailingMeanBetween | simple_pine_backtest.py:22-25 | `simple_atr` is the mean of the last `period` true ranges and lies within their range |
| Indicators.AtrSma | btc_strategy_backtest.py:52-53 | the rolling-mean ATR is defined (not NaN) exactly from bar period-1 on |
| Indicators.PandasRows | correct_timing_backtest.py:72-84 | one row per bar carrying the bar; its boundaries exist exactly from bar `lookback` on, their extremes bound and are attained in the `lookback` bars before it, and they lie range·range_mult either side of its open; the ATR column is the ewm ATR (`AtrRma`), defined from bar 0, or the rolling-mean ATR (`AtrSma`), defined exactly from bar period-1 |
| Indicators.NoSignalBeforeLookback | correct_timing_backtest.py:76-84 | no breakout fires before bar `lookback`, where the boundaries are NaN |
| PositionLedger.EntryQty | correct_timing_backtest.py:89-92 | the entry quantity's notional at the fill price is exactly qty_value% of equity |
| PositionLedger.Open | correct_timing_backtest.py:130-156 | an entry sets avg to the price, signs the size by direction, sizes it at qty_value% of equity, and takes size·price·rate out of equity with pnl 0 |
| PositionLedger.Close | correct_timing_backtest.py:98-128 | a close books (price-avg)·size (the direction-signed PnL), charges abs(size)·price·rate, and resets size and avg to 0 |
| PositionLedger.CloseRealisesUnrealized | detailed_backtest_logger.py:89-97 | the PnL a close realises at a price is the unrealised PnL marked at that price |
| PositionLedger.RoundTrip | exact_pine_script_implementation.py:136-181 | entry at p then close at q changes equity by the signed move less both commissions |
| PositionLedger.RoundTripSamePrice | btc-strategy-web/backend/exact_pine_script_implementation.py:136-181 | a round trip at one price changes equity by exactly -(entry commission + exit commission), which is negative |
| PositionLedger.SideStop | simple_pine_backtest.py:96-104 | the stop fixed from the side entered sits atr·mult below a long's entry price and atr·mult above a short's |
| PositionLedger.StopLevel | correct_timing_backtest.py:165-176 | keyed on the sign of the size, the stop sits atr·mult below a long's average price and atr·mult above a short's |
| PositionLedger.BookedAppend | correct_timing_backtest.py:107-110 | appending a record whose net PnL equals the equity change keeps equity = initial + sum of net PnL over the log |
| PositionLedger.NumberedAppend | fixed_pine_script_backtest.py:95-96 | each logged trade takes the next trade_id, keeping ids consecutive from 1 |
| PositionLedger.Mark | correct_timing_backtest.py:284-294 | the daily row: unrealised PnL at the close is 0 when flat, and total equity is equity plus unrealised PnL |
| PositionLedger.LogEntry | correct_timing_backtest.py:130-156 | an entry logs one record with the next id, pnl 0, net_pnl = -commission, and keeps the bookkeeping |
| PositionLedger.LogClose | correct_timing_backtest.py:98-128 | a close logs one CLOSE_LONG/CLOSE_SHORT record with the next id and the booked PnL, and leaves the ledger flat |
| PositionLedger.CheckStop | fixed_pine_script_backtest.py:159-182 | the stop fires iff a position is open, ATR is defined and the bar reaches the stop level; the fill is at exactly the level |
| PositionLedger.CloseOut | exact_pine_script_implementation.py:164-198 | `strategy.close` is a no-op when flat; otherwise it books the signed PnL less exit commission and leaves the position flat |
| PositionLedger.CloseAtEnd | btc_strategy_corrected.py:261-264 | the end of a run: nothing without bars or when flat; otherwise exactly one End-of-Series close record of the side held, at the last bar's close and date, with the ledger closed there |
| PositionLedger.JournalCloseAtEnd | fixed_pine_script_backtest.py:283-286 | the same for a journal, whose close record takes the next trade id |
| PositionLedger.StopFillsAtExtreme | detailed_backtest_logger.py:292-309 | when a stop fires, `min(stop, low)` is the low for a long and `max(stop, high)` the high for a short |
| CorrectTiming.Detect | correct_timing_backtest.py:181-204 | a signal is queued iff a breakout is not in the held direction; long beats short; it is a reversal iff a position is open; NaN boundaries queue nothing |
| CorrectTiming.ExecutePending | correct_timing_backtest.py:206-238 | a queued signal closes the opposite position at the open, then enters at the open; with nothing queued nothing changes |
| CorrectTiming.Step | correct_timing_backtest.py:244-296 | the pending order runs first, then the stop check on the resulting journal, then detection; the new queue is what detection saw on the post-stop position; one daily row marks the bar |
| CorrectTiming.Run | correct_timing_backtest.py:240-296 | one daily row per bar, row k dated with bar k; the queue stays consistent with the position; equity = initial + net PnL of the log |
| CorrectTiming.Finish | correct_timing_backtest.py:298-306 | a signal still pending fills at the final close, and then any open position is closed at the final close |
| CorrectTiming.Backtest | correct_timing_backtest.py:240-306 | the daily rows are the loop's and the journal is the loop's settled by `Finish` at the last bar (the initial journal without bars); the run ends flat, with one daily row per bar and final equity = initial capital + net PnL of all trades |
| CorrectTiming.StepFillsPending | correct_timing_backtest.py:247-261 | the trades a bar appends are exactly the queued order's fills at the bar's open, then at most one stop close dated the bar; without a queued order at most that stop close |
| CorrectTiming.QueuedIsDetected | correct_timing_backtest.py:258-261 | the order queued after bar n is the signal detected on bar n |
| CorrectTiming.SignalFillsNextOpen | correct_timing_backtest.py:206-238 | a signal detected on bar n fills at bar n+1's open, dated bar n+1 |
| CorrectTiming.QuietBeforeLookback | correct_timing_backtest.py:181-184 | before bar `lookback` nothing is ever queued and nothing traded |
| CorrectTiming.NoTradesBeforeIndicators | correct_timing_backtest.py:247-261 | no trade happens on any bar up to and including bar `lookback` |
| ExactPine.StrategyEntry | exact_pine_script_implementation.py:122-162 | an entry in the direction already held changes nothing; otherwise the new position is sized at 99% of equity at the close and pays entry commission |
| ExactPine.StrategyExit | exact_pine_script_implementation.py:200-219 | no exit when flat or without a stop; a long exits iff low ≤ stop, a short iff high ≥ stop, closing at exactly the stop |
| ExactPine.StopFor | exact_pine_script_implementation.py:241-250 | a stop is handed over iff ATR is defined and a position is open, at avg ∓ atr·stop_loss_mult |
| ExactPine.Signals | exact_pine_script_implementation.py:252-270 | long beats short; a breakout while held against closes and enters at the close; one in the held direction changes nothing |
| ExactPine.Step | exact_pine_script_implementation.py:225-295 | bars with NaN boundaries are skipped entirely; otherwise the account is the stop's close when the stop fires and the signal block's result otherwise, then one daily row |
| ExactPine.Run | exact_pine_script_implementation.py:221-295 | one daily row per bar with boundaries; equity moves only by logged entries and closes |
| ExactPine.Backtest | exact_pine_script_implementation.py:221-299 | the log is the loop's log, plus exactly one End-of-Series close of the open position at the last bar's close and date (unchanged when flat); it ends flat with equity = initial + net PnL of the log and one daily row for each bar from `lookback` on |
| ExactPine.RunDailyCount | exact_pine_script_implementation.py:233-235 | the whole loop writes |bars| - lookback daily rows (none for at most lookback bars) |
| Indicators.CountDefined | exact_pine_script_implementation.py:233-235 | the count of rows with boundaries is 0 iff no row has them and the row count iff every row has them |
| Indicators.CountFrom | exact_pine_script_implementation.py:233-235 | rows with boundaries exactly from index lookback on have n - lookback of them among the first n |
| Indicators.DefinedFromLookback | exact_pine_script_implementation.py:83-90 | the prepared rows have boundaries exactly from bar lookback on, so n - lookback of the first n do |
| ExactPine.Quiet | exact_pine_script_implementation.py:233-235 | over the first `lookback` bars the engine state does not change at all |
| ExactPine.ShortSeriesNoTrades | exact_pine_script_implementation.py:233-235 | a series no longer than the lookback produces no trades, no daily rows, and returns the initial capital |
| ExactPine.ReversalAppendsCloseThenEntry | btc-strategy-web/backend/exact_pine_script_implementation.py:259-270 | a reversal appends exactly two records, the close then the entry, both on the bar's date and at its close |
| ExactPine.StopBarNoEntry | btc-strategy-web/backend/exact_pine_script_implementation.py:240-253 | on a bar where the stop fires exactly one record (the stop close, at avg ∓ atr·mult and dated the bar) is appended, and the engine ends flat |
| FixedPine.Logic | fixed_pine_script_backtest.py:184-227 | NaN boundaries give NO_DATA; a breakout in the held direction gives HOLD; otherwise close and entry at max(open, upper) / min(open, lower), long first |
| FixedPine.Step | fixed_pine_script_backtest.py:233-281 | stop first, strategy logic only if no stop fired; exactly one daily row per bar |
| FixedPine.StepLogged | fixed_pine_script_backtest.py:233-281 | a step appends exactly one daily row and one action for the bar just processed |
| FixedPine.Run | fixed_pine_script_backtest.py:229-281 | one daily row and one action per bar, in bar order, with sound bookkeeping |
| FixedPine.Backtest | fixed_pine_script_backtest.py:283-286 | the daily rows and actions are the loop's; the journal is the loop's plus exactly one End-of-Series close at the last bar's close and date with the next trade id (unchanged when flat); it ends flat with sound bookkeeping |
| FixedPine.ReversalAtBoundary | fixed_pine_script_backtest.py:203-213 | a long breakout while short logs the close and then the long entry, both at max(open, upper), with consecutive ids |
| DetailedLogger.StopPrice | detailed_backtest_logger.py:99-107 | undefined iff flat or ATR is NaN; otherwise avg - atr·mult for a long, avg + atr·mult for a short |
| DetailedLogger.ExecuteTrade | detailed_backtest_logger.py:109-242 | CLOSE when flat only advances trade_id; otherwise it closes; LONG/SHORT close an opposite position first and replace any position |
| DetailedLogger.EnterSide | detailed_backtest_logger.py:117-162 | an entry first closes an opposite position as its own record, then enters at the price with the next id |
| DetailedLogger.Trade | detailed_backtest_logger.py:290-325 | the stop fires as the source tests it and fills at the bar's extreme; without a stop a breakout enters at max(open, upper) / min(open, lower), long first |
| DetailedLogger.Step | detailed_backtest_logger.py:248-334 | one daily record per bar carrying the position before the bar; NaN boundaries give NO_DATA with no trade and no after mark; otherwise the after mark is the journal after the bar |
| DetailedLogger.Run | detailed_backtest_logger.py:244-334 | one daily record per bar, with sound bookkeeping |
| DetailedLogger.Backtest | detailed_backtest_logger.py:336-339 | the daily records are the loop's; the journal is the loop's plus exactly one End-of-Series close at the last bar's close and date with the next trade id (unchanged when flat); it ends flat |
| DetailedLogger.ReversalConsecutiveIds | detailed_backtest_logger.py:117-162 | BUY while short logs CLOSE_SHORT and then LONG with consecutive trade ids |
| DetailedLogger.SameDirectionReplaces | detailed_backtest_logger.py:117-162 | BUY while long replaces the position at the new price without realising PnL, and still charges entry commission |
| CorrectedStrategy.ExecuteEntry | btc_strategy_corrected.py:97-151 | the new size is qty_value% of equity BEFORE the opposite close; the entry record has pnl 0 and equity_before = equity_after + commission |
| CorrectedStrategy.EnterFresh | btc_strategy_corrected.py:108-126 | the fresh position replaces the ledger at the price and pays commission on its own notional |
| CorrectedStrategy.CheckStop | btc_strategy_corrected.py:188-211 | nothing when flat or ATR is NaN; a fired stop closes at min(stop, low) for a long and max(stop, high) for a short |
| CorrectedStrategy.UpdateEquityCurve | btc_strategy_corrected.py:213-230 | appends equity + unrealised PnL at the close and does not change the account |
| CorrectedStrategy.Step | btc_strategy_corrected.py:236-259 | exactly one equity point per bar, including bars with NaN boundaries; stop first, then entries at the boundary price, long first |
| CorrectedStrategy.Run | btc_strategy_corrected.py:232-259 | one equity point per bar, and equity = initial + net PnL of the log |
| CorrectedStrategy.Backtest | btc_strategy_corrected.py:261-264 | the equity curve is the loop's; the log is the loop's plus exactly one End-of-Series close at the last bar's close and date (unchanged when flat); it ends flat with equity = initial + net PnL of all trades |
| CorrectedStrategy.ReversalSizedBeforeClose | btc_strategy_corrected.py:100-131 | on a reversal the new size exceeds what post-close equity would give by exactly the closed leg's net loss times qty_value/100, over the price |
| PineScript.Window | pine_script_backtest.py:104-114 | the window spans the lookback + 1 bars i-lookback-1 .. i-1, and the boundaries lie range·mult from the open |
| PineScript.Settle | pine_script_backtest.py:127-141 | a close books the side's PnL less commission on the ENTRY notional abs(size)·avg and leaves the ledger flat; against the shared exit-priced close its pnl is lower by abs(size)·avg·rate and its equity higher by abs(size)·(price - avg)·rate |
| PineScript.ExecutePending | pine_script_backtest.py:124-203 | the queued signal closes an opposite position, enters at the open, fixes a stop order of the side entered at open ∓ atr·mult whatever the sign of the size, logs the unsigned size of a short, and clears the flags |
| PineScript.CheckStop | pine_script_backtest.py:205-249 | a reached stop order closes at exactly its level and is cancelled; otherwise nothing changes |
| PineScript.Detect | pine_script_backtest.py:251-275 | a single breakout is queued; on a double breach the boundary further from the open wins, and a tie goes to SHORT |
| PineScript.DoubleBreachGoesShort | pine_script_backtest.py:259-275 | both boundaries lie range·mult from the open, so a double breach always queues SHORT |
| PineScript.Step | pine_script_backtest.py:92-275 | an iteration's book, stop order and rows are those of the pending fill followed by the stop check; it only appends rows, and the equity column keeps tracking equity |
| PineScript.StopOrderChecked | pine_script_backtest.py:204-249 | with nothing pending, a stop order the bar reaches logs exactly one StopLoss row at its level, settles the book there and is cancelled; otherwise nothing changes |
| PineScript.GuardsAlwaysHold | pine_script_backtest.py:205-253 | the guards of the stop check and of detection are always true where they are checked |
| PineScript.Run | pine_script_backtest.py:92-275 | the last row's equity column always equals the running equity |
| PineScript.PendingFillsNextOpen | pine_script_backtest.py:124-163 | the signal pending after bar i is exactly what detection makes of bar i and its window; a queued signal enters at bar i+1's open, dated bar i+1, with a stop order of the queued side at that open ∓ bar i+1's atr·mult |
| PineScript.StepQueuesDetect | pine_script_backtest.py:251-275 | after any iteration the pending signal is detection on that bar and its window |
| PineScript.StepExecutes | pine_script_backtest.py:124-249 | an iteration with a pending signal logs, after the earlier records, a close of an opposite position at the open, then the entry at the open dated the bar, then either a stop order at open ∓ atr·mult or its stop-loss record at that level on the same bar |
| PineScript.QueuedFillsNextOpen | pine_script_backtest.py:124-275 | a breakout detected on bar i shows up in bar i+1's records as the entry of that side at bar i+1's open, followed by its stop order or its same-bar stop-loss |
| PineScript.FinalCloseAsWritten | pine_script_backtest.py:277-299 | as written, the final close credits equity with the entry notional on top of the row's pnl |
| PineScript.FinalClose | pine_script_backtest.py:277-299 | corrected: one End-of-Series close row of the held side at the last close and date is appended and the stop order dropped; equity moves by the row's pnl only, as in every other close of the script |
| PineScript.FinalCloseOverstatesEquity | pine_script_backtest.py:283-289 | the written final equity exceeds the corrected one by exactly abs(size)·avg |
| PineScript.FinalCloseCounterexample | pine_script_backtest.py:283-289 | 1 unit long at 100 with equity 50, closed at 100 without commission: 150 as written, 50 corrected |
| PineScript.Backtest | pine_script_backtest.py:55-301 | the rows and equity are those of the loop followed by the final close at the last bar; final equity is the initial capital without trades, else the last row's equity column |
| PineScript.WinLoseSplit | pine_script_backtest.py:312-314 | winning plus losing trades are exactly the closing (pnl ≠ 0) trades |
| PineScript.Profit | pine_script_backtest.py:316 | gross profit is non-negative and 0 iff no trade wins |
| PineScript.Loss | pine_script_backtest.py:317 | the sum of losing pnls is non-positive and 0 iff no trade loses |
| PineScript.NetIsPnlSum | pine_script_backtest.py:316-318 | gross profit minus gross loss is the sum of every row's pnl |
| PineScript.Drawdown | pine_script_backtest.py:324-334 | max drawdown never decreases along the rows and stays ≤ 100% while equity stays non-negative |
| PineScript.PeakOf | pine_script_backtest.py:324-330 | the running peak after n rows is the largest of the initial capital and the first n equities, and is attained by one of them |
| PineScript.DrawdownFrom | pine_script_backtest.py:324-334 | resuming the scan at row j from the running peak and the worst drawdown so far gives the largest per-row drawdown, attained at some row (or 0) |
| PineScript.MaxDrawdown | pine_script_backtest.py:324-334 | max drawdown is the largest over the rows of (running peak - equity)/running peak·100, attained at some row, or 0 |
| PineScript.ReturnPercent | pine_script_backtest.py:309 | the return times the initial capital is (final - initial)·100 |
| PineScript.WinRate | pine_script_backtest.py:320 | win rate is winners·100/closing, lies in [0, 100], and is 0 without closing trades |
| PineScript.Average | pine_script_backtest.py:322 | the average trade times the closing count is the net profit, and it is 0 without closing trades |
| PineScript.ProfitFactor | pine_script_backtest.py:321 | profit factor is profit/loss, non-negative, and 0 when nothing was lost |
| PineScript.Summary | pine_script_backtest.py:309-322 | the record's return, win rate, net profit, profit factor and average trade are derived from its counts and sums as the source defines them, win rate and average being 0 without closing trades |
| PineScript.CalculateMetrics | pine_script_backtest.py:303-350 | empty trade list gives no metrics; otherwise the counts and gross profit/loss are those of the pnl column, return, win rate, net profit, profit factor and average trade follow their definitions, net profit = sum of pnls, and max drawdown is the largest per-row drawdown from the running peak |
| CorrectPine.Mark | correct_pine_backtest.py:97-102 | current equity is cash when flat; as written it is cash + qty·close, and under realised booking cash + unrealised PnL |
| CorrectPine.CloseAt | correct_pine_backtest.py:205-247 | a close credits the signed PnL less exit commission (plus the exit notional as written) and leaves the position flat |
| CorrectPine.RowQuantity | correct_pine_backtest.py:150-197 | an entry row's quantity times the price is the notional, unsigned for a short |
| CorrectPine.Enter | correct_pine_backtest.py:148-164 | qty·next_open is 99% of current equity, entry = next_open, only the commission leaves cash, and the row shows cash plus the notional as written, cash alone under realised booking |
| CorrectPine.Detect | correct_pine_backtest.py:116-126 | long iff the high breaks the upper boundary; short iff only the low breaks the lower one |
| CorrectPine.Execute | correct_pine_backtest.py:128-203 | an opposite position is closed first (its row first, at the next open) and the new one entered at the next open with its sizing; under realised booking the last row still shows the cash |
| CorrectPine.CheckStop | correct_pine_backtest.py:205-247 | the stop fires iff the bar reaches entry ∓ atr·mult, and fills at exactly that level |
| CorrectPine.Window | correct_pine_backtest.py:104-114 | the window is exactly the lookback bars before i; the current bar is excluded |
| CorrectPine.Step | correct_pine_backtest.py:77-247 | on a bar without a breakout the iteration is the stop check against bar i's range; it only appends rows, and under realised booking the last row's equity column still shows the cash |
| CorrectPine.Iterate | correct_pine_backtest.py:96-247 | without a signal the result is the stop check of the state; with one it is the stop check after the execution at the next open, sized from the marked equity; rows are only appended and, under realised booking, the last one shows the cash |
| CorrectPine.Run | correct_pine_backtest.py:77-247 | before the loop starts the state is the initial one; under realised booking the last row shows the cash at every iteration, and nothing is held before the first row |
| CorrectPine.LoopEnd | correct_pine_backtest.py:77 | the loop stops at len-2, so its end index is one less than the number of bars |
| CorrectPine.FinalEquity | correct_pine_backtest.py:249-262 | final equity is cash when flat; otherwise the cash after closing at the last close, net of exit commission |
| CorrectPine.Backtest | correct_pine_backtest.py:39-279 | with no more than lookback + 1 bars there is no trade and the initial capital is returned |
| CorrectPine.FinalEquityShown | correct_pine_backtest.py:249-262 | under realised booking the final equity is the last row's equity column (the initial capital without rows) plus the open position's PnL at the last close less the exit commission |
| CorrectPine.BacktestFinalEquity | correct_pine_backtest.py:249-262 | the backtest's rows are the loop's rows, and its final equity is the last row's equity column plus what closing the open position at the last close adds |
| CorrectPine.IterateExecutes | correct_pine_backtest.py:116-247 | an iteration whose bar signals logs, after any opposite close at the next open, the entry at the next open, dated the next bar, sized from the marked equity, followed at most by the bar's stop row |
| CorrectPine.SignalExecutesAtNextOpen | correct_pine_backtest.py:116-203 | stated on the loop's iteration i: a signal on bar i is entered in that same iteration at bar i+1's open, dated bar i+1, with quantity·open = 99% of the equity marked at bar i's close; only bar i's stop row may follow |
| CorrectPine.StopUsesSignalBar | correct_pine_backtest.py:205-247 | iteration n-1 reads only bars before n and the open/date of bar n; the stop is judged on bar n-1's range |
| CorrectPine.WindowNoLookahead | correct_pine_backtest.py:104-114 | window i reads only the bars before i and bar i's open |
| CorrectPine.AtrSeededPrefix | correct_pine_backtest.py:15-37 | ATR at i depends only on bars 0..i |
| CorrectPine.RunAgrees | correct_pine_backtest.py:77-247 | the loop state before iteration n depends only on the bars before n and the open/date of bar n |
| CorrectPine.LastBarNeverSignals | correct_pine_backtest.py:77 | changing the last bar's high, low or close changes nothing the loop computes |
| CorrectPine.RoundTripAsWritten | correct_pine_backtest.py:148-173 | as written, a commission-free round trip at one price credits cash with the notional that entry never took out |
| CorrectPine.DoubleCountExample | correct_pine_backtest.py:148-173 | 100000 cash, a long at 100 closed at 100 with no commission: cash becomes 199000 as written |
| CorrectPine.RoundTripRealised | correct_pine_backtest.py:148-173 | under realised booking, a round trip moves cash by exactly the signed move less both commissions |
| BtcStrategy.TrackedAppend | btc_strategy_backtest.py:93-159 | appending a row whose pnl moved equity keeps equity = initial + sum of the pnl column |
| BtcStrategy.ExecuteTrade | btc_strategy_backtest.py:93-159 | the new position is sized at 99% of the equity before the trade; a closed opposite leg books its signed move less the new trade value's commission; entries log pnl 0; a same-direction signal re-enters without moving equity |
| BtcStrategy.ExecuteTradeCash | btc_strategy_backtest.py:103-150 | a long entry pays the trade value out of cash, a short entry adds it; a reversal first returns the closed leg's pnl plus its entry notional |
| BtcStrategy.CheckStop | btc_strategy_backtest.py:161-216 | fires iff a position is open, ATR is defined and the bar reaches the stop; a long fills at min(open, stop), a short at max(open, stop); the position resets |
| BtcStrategy.StopFillNoBetter | btc_strategy_backtest.py:174-197 | the stop fill is never better than the stop level: at or below it for a long, at or above it for a short |
| BtcStrategy.StopCash | btc_strategy_backtest.py:174-199 | a long stop adds the shares' value at the fill to cash; a short stop adds back the entry notional abs(size)·entry |
| BtcStrategy.UpdateEquity | btc_strategy_backtest.py:218-228 | cash when flat, cash + unrealised PnL otherwise |
| BtcStrategy.LongEntryCurveShowsCash | btc_strategy_backtest.py:115-120 | right after a long entry from a flat account whose cash is its equity, the curve at the entry price shows only the equity not invested |
| BtcStrategy.Trade | btc_strategy_backtest.py:239-250 | stop first; without a stop a long breakout enters at the close, else a short one; no breakout changes nothing |
| BtcStrategy.Step | btc_strategy_backtest.py:234-258 | NaN-boundary rows are skipped with no equity point; other rows append exactly one point valued by update_equity at the close |
| BtcStrategy.StopBlocksSignal | btc_strategy_backtest.py:240-250 | on a row whose stop fires no entry is made |
| BtcStrategy.LongFirst | btc_strategy_backtest.py:245-250 | a row breaking both boundaries without a stop enters long |
| BtcStrategy.Run | btc_strategy_backtest.py:230-258 | one equity point per row with boundaries; equity = initial + sum of the pnl column |
| BtcStrategy.FinalClose | btc_strategy_backtest.py:260-276 | an open position is closed at the last close, charged the current-equity-based commission |
| BtcStrategy.Backtest | btc_strategy_backtest.py:230-276 | the result is the loop's state followed by the final close at the last bar (the initial state for a series no longer than the lookback); equity = initial + sum of the pnl column; a short series gives no trades and no equity points |
| BtcStrategy.NoTradesWhileUndefined | btc_strategy_backtest.py:236-237 | rows without boundaries leave the engine in its initial state |
| SimplePine.PnlPct | simple_pine_backtest.py:72-106 | pnl_pct·entry is the signed price move of the position |
| SimplePine.CloseAt | simple_pine_backtest.py:72-74 | equity is scaled by 1 + 0.99·pnl_pct, with no commission |
| SimplePine.CloseIsNotionalPnl | simple_pine_backtest.py:73 | the percentage update equals booking the PnL of a position worth 99% of equity at entry |
| SimplePine.LongCloseKeepsEquityPositive | simple_pine_backtest.py:84-85 | a long close at a non-negative price keeps at least 1% of equity |
| SimplePine.Enter | simple_pine_backtest.py:76-79 | an entry sets position and entry price to the close and leaves equity unchanged |
| SimplePine.Window | simple_pine_backtest.py:54-62 | highest and lowest are the max and min over the lookback bars before i, each attained by one of them, and the boundaries lie range·mult from the open |
| SimplePine.Decide | simple_pine_backtest.py:69-109 | long beats short; the stop is considered only on bars without a signal and fires iff the level is reached |
| SimplePine.Apply | simple_pine_backtest.py:69-109 | a stop closes at its level with its close note and leaves no position; a reversal closes at the close and re-enters there |
| SimplePine.Step | simple_pine_backtest.py:51-109 | an iteration carries out the bar's decision (long breakout, short breakout, only then the stop); it only appends notes, keeps every position's entry price positive, and keeps equity the initial capital compounded by the close notes |
| SimplePine.QuietBarStop | simple_pine_backtest.py:93-109 | on a bar without a breakout a held position is stopped iff the bar reaches entry ∓ atr·mult, closing there with one StopLoss note and ending flat; otherwise nothing changes |
| SimplePine.CompoundedAppend | simple_pine_backtest.py:72-74 | appending a note whose factor scaled equity keeps equity = initial · product of the notes' factors |
| SimplePine.ApplyCompounds | simple_pine_backtest.py:69-109 | a bar's stop or reversal keeps equity = initial · product over the close notes of (1 + pnl_pct·0.99) |
| SimplePine.Run | simple_pine_backtest.py:51-109 | nothing happens before bar lookback + 1, and equity is always the initial capital compounded by every close note |
| SimplePine.Backtest | simple_pine_backtest.py:29-122 | the notes are the loop's over every bar, and the final equity is 100000 · product over the close notes of (1 + pnl_pct·0.99); a series of at most lookback + 1 bars returns the initial equity and no notes |
| SimplePine.ReversalAtClose | simple_pine_backtest.py:69-91 | a reversal closes at the bar's close and re-enters at that same close |
| SimplePine.SameDirectionReenters | simple_pine_backtest.py:69-91 | a signal in the held direction re-enters at the new close without realising PnL |
| SimplePine.SignalSkipsStop | simple_pine_backtest.py:94-109 | a bar with a signal never checks the stop, so a position is held after it |

## Left out

- Loading and output. Every engine's CSV reading, date parsing and date-range filtering is left out; the input is an already-filtered, positive bar sequence. So are its log saving and printing (`save_logs`, `save_results`, `print_*`), and the plots.
- Division by a zero price. The engines divide by bar prices without a guard, and a zero price raises or yields infinity. The runs require positive prices and do not model that failure.
- Summary statistics other than `calculate_metrics` of `pine_script_backtest.py`. This covers `calculate_results` of `exact_pine_script_implementation.py`, `calculate_metrics` of `btc_strategy_backtest.py` and of `btc_strategy_corrected.py`, and `calculate_performance` of `fixed_pine_script_backtest.py`. They are pandas aggregations and Sharpe/volatility statistics over the outputs; the percentage return is omitted for the same reason.
- Descriptive log columns. The daily logs' copies of OHLC, boundaries and breakout flags are not modelled, and neither are `bar_index`, the execution-price, action-string and reason-string columns or the `pending_signal` column. Trade reasons become the `Reason` enum.
- Floating-point rounding. Arithmetic is exact `real`, so equalities such as PineScript.DoubleBreachGoesShort hold exactly, where floating point might break the tie either way.
- `ExactPine.StrategyEntry`: the explicit `qty` argument is left out, because the loop never passes one.
- `PositionLedger.RoundTripSamePrice`: requires positive equity and a positive qty_value. The source's promise of a strictly negative result holds only then; `PositionLedger.RoundTrip` states the equation for every non-zero equity.
- `PineScript.CalculateMetrics`: requires a positive initial capital, because the source divides by it (and by the running peak, which starts there). Quotients are stated multiplied out (return·initial, win rate·closing, profit factor·gross loss, average·closing).
- `PineScript.Backtest`: ends with the corrected final close, and returns the rows and final equity rather than the full trade dictionaries.
- `CorrectPine.Backtest`: runs the corrected (realised) booking; the as-written booking is the same engine with `Booking.AsWritten`, used by the finding's lemmas.
- `CorrectedStrategy.ExecuteEntry`: the `equity_before` column is not a record field. It is stated as `equityAfter + commission` of the entry record.
- `FixedPine.Step`: the daily row's `position_before` and `equity_before` columns are not stored; they are the size and equity of the journal before the step.
- `DetailedLogger.Step`: the daily record holds the before and after marks and the action. On NO_DATA rows the after mark is absent, and the source writes `position_size_after` and `equity_after` equal to the before values there, which `Step` states as the journal being unchanged. The stop-price column is not stored; it is `StopPrice` of the journal after the step.
- Web copy. `btc-strategy-web/backend/exact_pine_script_implementation.py` is identical to the root `exact_pine_script_implementation.py`, so `ExactPine` models both.

## Findings

| source | as written | input that shows it | evidently intended | confidence | as-written member | corrected member |
|---|---|---|---|---|---|---|
| pine_script_backtest.py:283-289 | the end-of-series close adds `position_value + pnl` to equity, although entries only ever took the commission out of equity | 1 unit long at avg 100, equity 50, closed at 100 with no commission: equity becomes 150 | equity += pnl, as in the reversal and stop closes of the same loop | not executed | PineScript.FinalCloseAsWritten, PineScript.FinalCloseOverstatesEquity, PineScript.FinalCloseCounterexample | PineScript.FinalClose |
| correct_pine_backtest.py:148-173 | entries deduct only commission from cash (the notional stays in cash), yet closes credit `exit_value + pnl`, and the mark is `cash + qty·close` | cash 100000, a long of 990 units at 100 closed at 100 with no commission: cash becomes 199000 | cash moves by the realised PnL less commissions, and the mark adds only the unrealised PnL | not executed | CorrectPine.RoundTripAsWritten, CorrectPine.DoubleCountExample | CorrectPine.RoundTripRealised |

=== FILE: btcstrategy.dfy ===
/** `BTCTradingStrategy` (btc_strategy_backtest.py): trades at the signal
    bar's close. Rows whose boundaries are undefined are skipped without
    an equity point; on the others the stop is checked first (filled at
    the worse of the open and the stop level), and only if it did not fire
    a long breakout reverses to long, else a short breakout reverses to
    short. The strategy keeps a realised `equity`, which every close moves
    by its net PnL, and a `cash` balance from which the equity curve is
    read. ATR is a plain rolling mean of the true range. */
module BtcStrategy {
  import opened Market
  import opened Indicators
  import opened PositionLedger

  /** One row of `trades`; `pnl` is net of commission on closes, 0 on
      entries; `equity` is the realised equity after the row. */
  datatype Record = Record(date: int, action: Action, price: real, size: real, pnl: real, equity: real, reason: Reason)

  /** One row of `equity_curve`. */
  datatype Point = Point(date: int, equity: real, price: real)

  /** `position` (None when flat), the signed `position_size`, the entry
      price, realised equity, cash, and the two logs. */
  datatype State = State(position: Option<Side>, size: real, entry: real, equity: real, cash: real,
                         trades: seq<Record>, curve: seq<Point>)

  function Init(cfg: Config): (s: State)
    ensures s.position.None? && s.equity == cfg.initialCapital && s.cash == cfg.initialCapital
    ensures s.trades == [] && s.curve == []
  {
    State(None, 0.0, 0.0, cfg.initialCapital, cfg.initialCapital, [], [])
  }

  /** Sum of the pnl column. */
  function PnlSum(ts: seq<Record>): real
  {
    if |ts| == 0 then 0.0 else PnlSum(ts[..|ts| - 1]) + ts[|ts| - 1].pnl
  }

  /** Realised equity is the initial capital plus every row's pnl, and the
      last row shows it. */
  predicate Tracked(s: State, initial: real)
  {
    && s.equity == initial + PnlSum(s.trades)
    && (|s.trades| > 0 ==> s.trades[|s.trades| - 1].equity == s.equity)
  }

  /** Appending a row whose pnl moved equity and which shows the new
      equity keeps the equity column tracked. */
  lemma TrackedAppend(s: State, s': State, t: Record, initial: real)
    requires s'.trades == s.trades + [t] && s'.equity == s.equity + t.pnl && t.equity == s'.equity
    ensures Tracked(s, initial) ==> Tracked(s', initial)
  {
    assert s'.trades[..|s'.trades| - 1] == s.trades;
  }

  /** `execute_trade`: the trade value is `qtyPercent` of the equity before
      anything is closed; a position held against the signal is closed at
      `price` with that value's commission taken from its pnl, and the new
      position of value/price shares is entered with pnl 0. A signal in
      the held direction re-enters without realising anything. */
  function ExecuteTrade(s: State, side: Side, price: real, date: int, cfg: Config): (k: State)
    requires price > 0.0
    ensures k.position == Some(side) && k.entry == price
    ensures (if side == Long then k.size else -k.size) * price == s.equity * (cfg.qtyPercent / 100.0)
    ensures var against := s.position == Some(Opposite(side));
            && |k.trades| == |s.trades| + (if against then 2 else 1)
            && k.trades[..|s.trades|] == s.trades
            && k.trades[|k.trades| - 1].pnl == 0.0
            && k.trades[|k.trades| - 1].price == price
            && k.trades[|k.trades| - 1].action == (if side == Long then EnterLong else EnterShort)
            && (against ==> k.equity == s.equity + k.trades[|s.trades|].pnl
                            && k.trades[|s.trades|].pnl
                               == (price - s.entry) * (if side == Long then -Abs(s.size) else s.size)
                                  - s.equity * (cfg.qtyPercent / 100.0) * cfg.commissionRate)
            && (!against ==> k.equity == s.equity)
    ensures k.curve == s.curve
    ensures Tracked(s, cfg.initialCapital) ==> Tracked(k, cfg.initialCapital)
  {
    var value := s.equity * (cfg.qtyPercent / 100.0);
    var shares := value / price;
    var commission := value * cfg.commissionRate;
    var s1 :=
      if s.position == Some(Opposite(side)) then
        var pnl := if side == Long then (s.entry - price) * Abs(s.size) - commission
                   else (price - s.entry) * s.size - commission;
        var cash := if side == Long then s.cash + pnl + Abs(s.size) * s.entry else s.cash + pnl + s.size * s.entry;
        var t := Record(date, if side == Long then CloseShort else CloseLong, price,
                        if side == Long then Abs(s.size) else s.size, pnl, s.equity + pnl,
                        if side == Long then ReverseToLong else ReverseToShort);
        var s1 := s.(cash := cash, equity := s.equity + pnl, trades := s.trades + [t]);
        TrackedAppend(s, s1, t, cfg.initialCapital);
        s1
      else s;
    var t := Record(date, if side == Long then EnterLong else EnterShort, price, shares, 0.0, s1.equity,
                    if side == Long then LongEntry else ShortEntry);
    var k := s1.(position := Some(side), size := if side == Long then shares else -shares, entry := price,
                 cash := if side == Long then s1.cash - value else s1.cash + value, trades := s1.trades + [t]);
    TrackedAppend(s1, k, t, cfg.initialCapital);
    assert k.trades[..|s.trades|] == s.trades by {
      assert k.trades[..|s.trades|] == s1.trades[..|s.trades|];
    }
    k
  }

  /** The cash column of `execute_trade`: a long entry pays the trade
      value, a short entry receives it; a reversal first returns the closed
      leg's pnl plus its entry notional. */
  lemma ExecuteTradeCash(s: State, side: Side, price: real, date: int, cfg: Config)
    requires price > 0.0
    ensures var k := ExecuteTrade(s, side, price, date, cfg);
            var against := s.position == Some(Opposite(side));
            var returned := if against then k.trades[|s.trades|].pnl + (if side == Long then Abs(s.size) else s.size) * s.entry
                            else 0.0;
            k.cash == s.cash + returned + (if side == Long then -1.0 else 1.0) * s.equity * (cfg.qtyPercent / 100.0)
  {
  }

  /** The stop is reached by the bar. */
  predicate StopHit(s: State, bar: Bar, atr: Option<real>, cfg: Config)
  {
    s.position.Some? && atr.Some?
    && (if s.position == Some(Long) then bar.low <= SideStop(s.position.value, s.entry, atr.value, cfg.stopMult)
        else bar.high >= SideStop(s.position.value, s.entry, atr.value, cfg.stopMult))
  }

  /** `check_stop_loss`: nothing when flat or without an ATR; otherwise a
      reached stop fills at the worse of the open and the stop level, its
      pnl charged the commission of a fresh trade of the current equity,
      and the position is reset. */
  function CheckStop(s: State, bar: Bar, atr: Option<real>, cfg: Config): (r: (State, bool))
    ensures r.1 <==> StopHit(s, bar, atr, cfg)
    ensures !r.1 ==> r.0 == s
    ensures r.1 ==>
              var stop := SideStop(s.position.value, s.entry, atr.value, cfg.stopMult);
              var exit := if s.position == Some(Long) then Min(bar.open, stop) else Max(bar.open, stop);
              && r.0.position.None? && r.0.size == 0.0
              && |r.0.trades| == |s.trades| + 1 && r.0.trades[..|s.trades|] == s.trades
              && r.0.trades[|s.trades|].price == exit
              && r.0.trades[|s.trades|].reason == StopLoss
              && r.0.equity == s.equity + r.0.trades[|s.trades|].pnl
              && r.0.trades[|s.trades|].pnl
                 == (exit - s.entry) * (if s.position == Some(Long) then s.size else -Abs(s.size))
                    - s.equity * (cfg.qtyPercent / 100.0) * cfg.commissionRate
    ensures r.0.curve == s.curve
    ensures Tracked(s, cfg.initialCapital) ==> Tracked(r.0, cfg.initialCapital)
  {
    if !StopHit(s, bar, atr, cfg) then (s, false)
    else
      var stop := SideStop(s.position.value, s.entry, atr.value, cfg.stopMult);
      var fee := s.equity * (cfg.qtyPercent / 100.0) * cfg.commissionRate;
      var long := s.position == Some(Long);
      var exit := if long then Min(bar.open, stop) else Max(bar.open, stop);
      var pnl := if long then (exit - s.entry) * s.size - fee else (s.entry - exit) * Abs(s.size) - fee;
      var cash := if long then s.cash + s.size * exit else s.cash + Abs(s.size) * s.entry;
      var t := Record(bar.date, if long then CloseLong else CloseShort, exit, if long then s.size else Abs(s.size),
                      pnl, s.equity + pnl, StopLoss);
      var k := State(None, 0.0, 0.0, s.equity + pnl, cash, s.trades + [t], s.curve);
      TrackedAppend(s, k, t, cfg.initialCapital);
      assert k.trades[..|s.trades|] == s.trades;
      (k, true)
  }

  /** The stop fills no better than its level: at or below it for a long,
      at or above it for a short, and at the open when the bar opens
      beyond it. */
  lemma StopFillNoBetter(s: State, bar: Bar, atr: Option<real>, cfg: Config)
    requires StopHit(s, bar, atr, cfg)
    ensures var stop := SideStop(s.position.value, s.entry, atr.value, cfg.stopMult);
            var fill := CheckStop(s, bar, atr, cfg).0.trades[|s.trades|].price;
            && (s.position == Some(Long) ==> fill <= stop && (bar.open < stop ==> fill == bar.open))
            && (s.position == Some(Short) ==> fill >= stop && (bar.open > stop ==> fill == bar.open))
  {
  }

  /** The cash column of `check_stop_loss`: a long stop receives the
      shares' value at the fill, while a short stop receives the entry
      notional |size|·entry back, although the short entry already
      received the trade value. */
  lemma StopCash(s: State, bar: Bar, atr: Option<real>, cfg: Config)
    requires StopHit(s, bar, atr, cfg)
    ensures var k := CheckStop(s, bar, atr, cfg).0;
            var fill := k.trades[|s.trades|].price;
            && (s.position == Some(Long) ==> k.cash == s.cash + s.size * fill)
            && (s.position == Some(Short) ==> k.cash == s.cash + Abs(s.size) * s.entry)
  {
  }

  /** The curve reads cash, from which a long entry removed the whole trade
      value: just after a long entry from a flat account whose cash is its
      equity, the point at the entry price shows only the part of equity
      not invested (1% with the script's sizing). */
  lemma LongEntryCurveShowsCash(s: State, price: real, date: int, cfg: Config)
    requires price > 0.0 && s.position.None? && s.cash == s.equity
    ensures UpdateEquity(ExecuteTrade(s, Long, price, date, cfg), price) == s.equity * (1.0 - cfg.qtyPercent / 100.0)
  {
  }

  /** `update_equity`: cash when flat, cash plus the open position's
      unrealised PnL otherwise. */
  function UpdateEquity(s: State, price: real): (e: real)
    ensures s.position.None? ==> e == s.cash
    ensures s.position == Some(Long) ==> e == s.cash + (price - s.entry) * s.size
    ensures s.position == Some(Short) ==> e == s.cash + (s.entry - price) * Abs(s.size)
    ensures s.position == Some(Short) && s.size <= 0.0 ==> e == s.cash + (price - s.entry) * s.size
  {
    match s.position
    case None => s.cash
    case Some(Long) => s.cash + (price - s.entry) * s.size
    case Some(Short) => s.cash + (s.entry - price) * Abs(s.size)
  }

  /** The trading part of one row: the stop first, then a signal only if
      the stop did not fire, long before short, at the row's close. */
  function Trade(s: State, row: Row, cfg: Config): (k: State)
    requires row.bar.close > 0.0
    ensures StopHit(s, row.bar, row.atr, cfg) ==> k == CheckStop(s, row.bar, row.atr, cfg).0
    ensures !StopHit(s, row.bar, row.atr, cfg) && GoLong(row) ==> k == ExecuteTrade(s, Long, row.bar.close, row.bar.date, cfg)
    ensures !StopHit(s, row.bar, row.atr, cfg) && !GoLong(row) && GoShort(row) ==>
              k == ExecuteTrade(s, Short, row.bar.close, row.bar.date, cfg)
    ensures !StopHit(s, row.bar, row.atr, cfg) && !GoLong(row) && !GoShort(row) ==> k == s
    ensures |s.trades| <= |k.trades| && k.trades[..|s.trades|] == s.trades && k.curve == s.curve
    ensures Tracked(s, cfg.initialCapital) ==> Tracked(k, cfg.initialCapital)
  {
    var (s1, hit) := CheckStop(s, row.bar, row.atr, cfg);
    if hit then s1
    else if GoLong(row) then ExecuteTrade(s1, Long, row.bar.close, row.bar.date, cfg)
    else if GoShort(row) then ExecuteTrade(s1, Short, row.bar.close, row.bar.date, cfg)
    else s1
  }

  /** One row of the loop: rows without boundaries are skipped; the others
      trade and add one equity point. */
  function Step(s: State, row: Row, cfg: Config): (k: State)
    requires row.bar.close > 0.0
    ensures row.bounds.None? ==> k == s
    ensures row.bounds.Some? ==> k.curve == s.curve + [Point(row.bar.date, UpdateEquity(k, row.bar.close), row.bar.close)]
    ensures |s.trades| <= |k.trades| && k.trades[..|s.trades|] == s.trades
    ensures Tracked(s, cfg.initialCapital) ==> Tracked(k, cfg.initialCapital)
  {
    if row.bounds.None? then s
    else
      var s2 := Trade(s, row, cfg);
      assert s2.trades[..|s.trades|] == s.trades;
      var e := UpdateEquity(s2, row.bar.close);
      var k := s2.(curve := s.curve + [Point(row.bar.date, e, row.bar.close)]);
      assert k.trades == s2.trades && k.equity == s2.equity && k.position == s2.position;
      assert UpdateEquity(k, row.bar.close) == e;
      k
  }

  /** Stops come before signals: on a row whose stop fires no entry is
      made, and the row adds exactly the stop's record. */
  lemma StopBlocksSignal(s: State, row: Row, cfg: Config)
    requires row.bar.close > 0.0 && row.bounds.Some? && StopHit(s, row.bar, row.atr, cfg)
    ensures var k := Step(s, row, cfg);
            && k.position.None?
            && |k.trades| == |s.trades| + 1 && k.trades[|s.trades|].reason == StopLoss
  {
  }

  /** Long has priority: a row breaking both boundaries without a stop
      enters long at its close. */
  lemma LongFirst(s: State, row: Row, cfg: Config)
    requires row.bar.close > 0.0 && row.bounds.Some? && !StopHit(s, row.bar, row.atr, cfg)
    requires GoLong(row)
    ensures var k := Step(s, row, cfg);
            k.position == Some(Long) && k.entry == row.bar.close
  {
  }

  /** The loop over the prepared rows: one equity point per row with
      boundaries, and the equity column tracked throughout. */
  function Run(rows: seq<Row>, cfg: Config): (s: State)
    requires PositiveRows(rows)
    ensures |s.curve| == CountDefined(rows)
    ensures Tracked(s, cfg.initialCapital)
  {
    if |rows| == 0 then Init(cfg)
    else
      assert PositiveRows(rows[..|rows| - 1]);
      Step(Run(rows[..|rows| - 1], cfg), rows[|rows| - 1], cfg)
  }

  /** The end-of-series close at the last bar's close, again charged the
      commission of a fresh trade of the current equity. */
  function FinalClose(s: State, last: Bar, cfg: Config): (k: State)
    ensures s.position.None? ==> k == s
    ensures s.position.Some? ==>
              && |k.trades| == |s.trades| + 1
              && k.trades[|s.trades|].price == last.close && k.trades[|s.trades|].reason == EndOfSeries
              && k.equity == s.equity + k.trades[|s.trades|].pnl
              && k.trades[|s.trades|].pnl
                 == (last.close - s.entry) * (if s.position == Some(Long) then s.size else -Abs(s.size))
                    - s.equity * (cfg.qtyPercent / 100.0) * cfg.commissionRate
    ensures Tracked(s, cfg.initialCapital) ==> Tracked(k, cfg.initialCapital)
  {
    if s.position.None? then s
    else
      var fee := s.equity * (cfg.qtyPercent / 100.0) * cfg.commissionRate;
      var long := s.position == Some(Long);
      var pnl := if long then (last.close - s.entry) * s.size - fee else (s.entry - last.close) * Abs(s.size) - fee;
      var t := Record(last.date, if long then CloseLong else CloseShort, last.close, Abs(s.size), pnl,
                      s.equity + pnl, EndOfSeries);
      var k := s.(equity := s.equity + pnl, trades := s.trades + [t]);
      TrackedAppend(s, k, t, cfg.initialCapital);
      k
  }

  /** `run_backtest` on already-filtered bars with rolling-mean ATR rows:
      final equity is the initial capital plus the pnl column. */
  function Backtest(bars: seq<Bar>, cfg: Config): (o: State)
    requires ValidConfig(cfg) && PositiveBars(bars)
    ensures o.equity == cfg.initialCapital + PnlSum(o.trades)
    ensures |bars| <= cfg.lookback ==> o.trades == [] && o.curve == []
    ensures PositiveRows(PandasRows(bars, cfg, Sma))
    ensures var s := Run(PandasRows(bars, cfg, Sma), cfg);
            && (|bars| <= cfg.lookback ==> o == s == Init(cfg))
            && (|bars| > cfg.lookback ==> o == FinalClose(s, bars[|bars| - 1], cfg))
  {
    var rows := PandasRows(bars, cfg, Sma);
    PandasRowsPositive(bars, cfg, Sma);
    var s := Run(rows, cfg);
    if |bars| <= cfg.lookback then
      NoDefinedRows(bars, cfg, |bars|);
      NoTradesWhileUndefined(rows, cfg);
      s
    else FinalClose(s, bars[|bars| - 1], cfg)
  }

  lemma {:induction false} NoDefinedRows(bars: seq<Bar>, cfg: Config, n: nat)
    requires ValidConfig(cfg) && n <= |bars| && n <= cfg.lookback
    ensures CountDefined(PandasRows(bars, cfg, Sma)[..n]) == 0
  {
    var rows := PandasRows(bars, cfg, Sma);
    if n > 0 {
      assert rows[..n][..n - 1] == rows[..n - 1];
      NoDefinedRows(bars, cfg, n - 1);
      NoSignalBeforeLookback(bars, cfg, Sma, n - 1);
    }
  }

  /** Rows without boundaries are skipped entirely. */
  lemma {:induction false} NoTradesWhileUndefined(rows: seq<Row>, cfg: Config)
    requires PositiveRows(rows)
    requires forall k :: 0 <= k < |rows| ==> rows[k].bounds.None?
    ensures Run(rows, cfg) == Init(cfg)
  {
    if |rows| > 0 {
      assert PositiveRows(rows[..|rows| - 1]);
      NoTradesWhileUndefined(rows[..|rows| - 1], cfg);
    }
  }
}

=== FILE: correctedstrategy.dfy ===
/** `CorrectedBTCStrategy` (btc_strategy_corrected.py): trades on the
    signal bar at the breakout boundary. Per bar with boundaries: the stop
    first (filled at the bar's extreme), then, only if no stop fired, a
    long breakout enters long at max(open, upper), else a short breakout
    enters short at min(open, lower). Every bar, with or without
    boundaries, adds one equity-curve point. An open position is closed at
    the last bar's close. */
module CorrectedStrategy {
  import opened Market
  import opened Indicators
  import opened PositionLedger

  /** Equity once any position held against `side` is closed at `price`. */
  function Settled(l: Ledger, side: Side, price: real, cfg: Config): real
  {
    if Against(l, side) then Close(l, price, cfg).after.equity else l.equity
  }

  /** `execute_entry`: the new quantity is sized from equity BEFORE any
      opposite position is closed; the opposite position (if any) is then
      closed at `price`, and the fresh position replaces whatever is left,
      paying commission on its own notional. The record's equity_before
      column (equity_after + commission) is the equity after that close. */
  function ExecuteEntry(a: Account, side: Side, price: real, date: int, reason: Reason, cfg: Config): (b: Account)
    requires price > 0.0
    ensures |b.trades| == |a.trades| + (if Against(a.book, side) then 2 else 1)
    ensures var qty := if side == Long then b.book.size else -b.book.size;
            && qty * price == a.book.equity * (cfg.qtyPercent / 100.0)
            && b.book.avg == price
            && b.book.equity == Settled(a.book, side, price, cfg) - qty * price * cfg.commissionRate
    ensures var t := b.trades[|b.trades| - 1];
            && t.action == (if side == Long then EnterLong else EnterShort)
            && t.size == (if side == Long then b.book.size else -b.book.size)
            && t.pnl == 0.0 && t.price == price && t.date == date
            && t.equityAfter + t.commission == Settled(a.book, side, price, cfg)
    ensures |a.trades| <= |b.trades| && b.trades[..|a.trades|] == a.trades
    ensures Booked(a.book, cfg.initialCapital, a.trades) ==> Booked(b.book, cfg.initialCapital, b.trades)
  {
    var qty := EntryQty(a.book.equity, cfg.qtyPercent, price);
    var a1 := if Against(a.book, side) then
                CloseOut(a, price, date, if side == Long then ReverseToLong else ReverseToShort, cfg)
              else a;
    var b := EnterFresh(a1, side, qty, price, date, reason, cfg);
    assert b.trades[..|a.trades|] == a1.trades[..|a.trades|];
    b
  }

  /** The fresh position of `qty` units that replaces whatever is left,
      with its entry record. */
  function EnterFresh(a: Account, side: Side, qty: real, price: real, date: int, reason: Reason, cfg: Config): (b: Account)
    ensures b.book == Ledger(if side == Long then qty else -qty, price, a.book.equity - qty * price * cfg.commissionRate)
    ensures b.trades == a.trades + [Trade(0, date, if side == Long then EnterLong else EnterShort, price, qty, 0.0,
                                          qty * price * cfg.commissionRate, b.book.equity, reason)]
    ensures Booked(a.book, cfg.initialCapital, a.trades) ==> Booked(b.book, cfg.initialCapital, b.trades)
  {
    var c := qty * price * cfg.commissionRate;
    var book := Ledger(if side == Long then qty else -qty, price, a.book.equity - c);
    var t := Trade(0, date, if side == Long then EnterLong else EnterShort, price, qty, 0.0, c, book.equity, reason);
    BookedAppend(a.book, book, cfg.initialCapital, a.trades, t);
    Account(book, a.trades + [t])
  }

  /** `check_stop_loss`: nothing when flat or when ATR is undefined; a long
      stop (avg - atr·mult) fires when the low reaches it and fills at
      min(stop, low); a short stop (avg + atr·mult) fires when the high
      reaches it and fills at max(stop, high). */
  function CheckStop(a: Account, bar: Bar, atr: Option<real>, cfg: Config): (r: (Account, bool))
    ensures r.1 <==> a.book.size != 0.0 && atr.Some?
                     && (if a.book.size > 0.0 then bar.low <= StopLevel(a.book, atr.value, cfg.stopMult)
                         else bar.high >= StopLevel(a.book, atr.value, cfg.stopMult))
    ensures !r.1 ==> r.0 == a
    ensures r.1 ==> r.0 == CloseOut(a, if a.book.size > 0.0 then bar.low else bar.high, bar.date, StopLoss, cfg)
    ensures Booked(a.book, cfg.initialCapital, a.trades) ==> Booked(r.0.book, cfg.initialCapital, r.0.trades)
  {
    if a.book.size == 0.0 || atr.None? then (a, false)
    else
      var stop := StopLevel(a.book, atr.value, cfg.stopMult);
      if a.book.size > 0.0 then
        if bar.low <= stop then
          StopFillsAtExtreme(stop, bar);
          (CloseOut(a, Min(stop, bar.low), bar.date, StopLoss, cfg), true)
        else (a, false)
      else
        if bar.high >= stop then
          StopFillsAtExtreme(stop, bar);
          (CloseOut(a, Max(stop, bar.high), bar.date, StopLoss, cfg), true)
        else (a, false)
  }

  datatype State = State(acct: Account, curve: seq<Daily>)

  function Init(cfg: Config): (s: State)
    ensures s.acct.book.size == 0.0 && s.acct.trades == [] && s.curve == []
    ensures Booked(s.acct.book, cfg.initialCapital, s.acct.trades)
  {
    State(Account(Ledger(0.0, 0.0, cfg.initialCapital), []), [])
  }

  /** `update_equity_curve`: one more point, equity plus unrealised PnL at
      the close; the account itself is not touched. */
  function UpdateEquityCurve(s: State, bar: Bar): (k: State)
    ensures k.acct == s.acct
    ensures |k.curve| == |s.curve| + 1 && k.curve[..|s.curve|] == s.curve
    ensures k.curve[|s.curve|].total == s.acct.book.equity + (bar.close - s.acct.book.avg) * s.acct.book.size
    ensures s.acct.book.size == 0.0 ==> k.curve[|s.curve|].total == s.acct.book.equity
  {
    State(s.acct, s.curve + [Mark(s.acct.book, bar)])
  }

  /** One iteration of `run_backtest`. */
  function Step(s: State, row: Row, cfg: Config): (k: State)
    requires PositiveBar(row.bar)
    ensures |k.curve| == |s.curve| + 1 && k.curve[..|s.curve|] == s.curve
    ensures k.curve[|s.curve|] == Mark(k.acct.book, row.bar)
    ensures row.bounds.None? ==> k.acct == s.acct
    ensures row.bounds.Some? && CheckStop(s.acct, row.bar, row.atr, cfg).1 ==>
              k.acct == CheckStop(s.acct, row.bar, row.atr, cfg).0
    ensures row.bounds.Some? && !CheckStop(s.acct, row.bar, row.atr, cfg).1 && GoLong(row) ==>
              k.acct == ExecuteEntry(s.acct, Long, Max(row.bar.open, row.bounds.value.upper), row.bar.date, LongEntry, cfg)
    ensures row.bounds.Some? && !CheckStop(s.acct, row.bar, row.atr, cfg).1 && !GoLong(row) && GoShort(row) ==>
              k.acct == ExecuteEntry(s.acct, Short, Min(row.bar.open, row.bounds.value.lower), row.bar.date, ShortEntry, cfg)
    ensures row.bounds.Some? && !CheckStop(s.acct, row.bar, row.atr, cfg).1 && !GoLong(row) && !GoShort(row) ==>
              k.acct == s.acct
    ensures Booked(s.acct.book, cfg.initialCapital, s.acct.trades)
            ==> Booked(k.acct.book, cfg.initialCapital, k.acct.trades)
  {
    if row.bounds.None? then UpdateEquityCurve(s, row.bar)
    else
      var stopped := CheckStop(s.acct, row.bar, row.atr, cfg);
      var a :=
        if stopped.1 then stopped.0
        else if GoLong(row) then
          ExecuteEntry(stopped.0, Long, Max(row.bar.open, row.bounds.value.upper), row.bar.date, LongEntry, cfg)
        else if GoShort(row) then
          ShortBreakoutPricePositive(row);
          ExecuteEntry(stopped.0, Short, Min(row.bar.open, row.bounds.value.lower), row.bar.date, ShortEntry, cfg)
        else stopped.0;
      UpdateEquityCurve(State(a, s.curve), row.bar)
  }

  function Run(rows: seq<Row>, cfg: Config): (s: State)
    requires PositiveRows(rows)
    ensures |s.curve| == |rows|
    ensures Booked(s.acct.book, cfg.initialCapital, s.acct.trades)
  {
    if |rows| == 0 then Init(cfg) else Step(Run(rows[..|rows| - 1], cfg), rows[|rows| - 1], cfg)
  }

  datatype Outcome = Outcome(book: Ledger, trades: seq<Trade>, curve: seq<Daily>)

  /** `load_data` (ewm ATR), `run_backtest` and the final close at the last
      bar's close. */
  function Backtest(bars: seq<Bar>, cfg: Config): (o: Outcome)
    requires ValidConfig(cfg) && PositiveBars(bars)
    ensures |o.curve| == |bars|
    ensures o.book.size == 0.0
    ensures o.book.equity == cfg.initialCapital + SumNet(o.trades)
    ensures var s := Run(PandasRows(bars, cfg, Rma), cfg);
            && o.curve == s.curve
            && (|bars| == 0 ==> o.trades == [] && o.book.equity == cfg.initialCapital)
            && (|bars| > 0 ==> ClosedAtEnd(s.acct, Account(o.book, o.trades), bars[|bars| - 1], cfg))
  {
    var rows := PandasRows(bars, cfg, Rma);
    PandasRowsPositive(bars, cfg, Rma);
    var s := Run(rows, cfg);
    var a := CloseAtEnd(s.acct, bars, cfg);
    Outcome(a.book, a.trades, s.curve)
  }

  /** A reversal is sized from the equity before the opposite position is
      closed: its quantity exceeds the quantity sized on the settled equity
      by exactly the closed leg's net loss (PnL less exit commission,
      negated) scaled by qtyPercent/100 and divided by the price. */
  lemma ReversalSizedBeforeClose(a: Account, side: Side, price: real, date: int, reason: Reason, cfg: Config)
    requires price > 0.0 && Against(a.book, side)
    ensures var b := ExecuteEntry(a, side, price, date, reason, cfg);
            var c := Close(a.book, price, cfg);
            var o := Open(c.after, side, price, cfg);
            var q := if side == Long then b.book.size else -b.book.size;
            (q - o.qty) * price == -(c.pnl - c.commission) * (cfg.qtyPercent / 100.0)
  {
    var b := ExecuteEntry(a, side, price, date, reason, cfg);
    var c := Close(a.book, price, cfg);
    var o := Open(c.after, side, price, cfg);
    var q := if side == Long then b.book.size else -b.book.size;
    var k := cfg.qtyPercent / 100.0;
    var e1, e2, d := a.book.equity, c.after.equity, c.pnl - c.commission;
    assert q * price == e1 * k by { }
    assert o.qty * price == e2 * k by { }
    assert e2 - e1 == d by { }
    DiffScale(q, o.qty, price, e1, e2, d, k);
  }

  lemma DiffScale(q1: real, q2: real, p: real, e1: real, e2: real, d: real, k: real)
    requires q1 * p == e1 * k && q2 * p == e2 * k && e2 - e1 == d
    ensures (q1 - q2) * p == -d * k
  {
    assert (q1 - q2) * p == q1 * p - q2 * p;
    assert -d * k == e1 * k - e2 * k;
  }
}

=== FILE: correctpine.dfy ===
/** The trading loop of `backtest_tradingview_logic`
    (correct_pine_backtest.py). For each bar index i from lookback to
    len - 2: the equity is marked at bar i's close, a breakout of bar i
    against the lookback bars before it executes at once at bar i+1's open
    (dated bar i+1), and then the position's stop is checked against bar
    i's low and high. Money is kept as `cash` plus a signed quantity.

    As written, entries deduct only their commission from cash while closes
    credit the exit value on top of the PnL, and the mark adds qty·close
    to cash: the position's notional is counted twice. `Booking` selects
    that accounting or the realised-PnL one it evidently intends. */
module CorrectPine {
  import opened Market
  import opened Indicators
  import opened PositionLedger

  datatype Booking = AsWritten | Realised

  /** One row of `trade_history`. */
  datatype Record = Record(date: int, action: Action, price: real, quantity: real, pnl: real, equity: real, reason: Reason)

  datatype State = State(cash: real, qty: real, entry: real, records: seq<Record>)

  function Init(cfg: Config): (s: State)
    ensures s.cash == cfg.initialCapital && s.qty == 0.0 && s.records == []
  {
    State(cfg.initialCapital, 0.0, 0.0, [])
  }

  /** The equity column of the last row shows the cash, and before any
      row the cash is the initial capital and nothing is held: every cash
      movement is logged. Under realised booking the loop keeps this. */
  predicate Shown(s: State, initial: real)
  {
    if |s.records| == 0 then s.cash == initial && s.qty == 0.0 else s.records[|s.records| - 1].equity == s.cash
  }

  /** `current_equity` at bar i's close. */
  function Mark(s: State, close: real, booking: Booking): (e: real)
    ensures s.qty == 0.0 ==> e == s.cash
    ensures booking == AsWritten ==> e == s.cash + s.qty * close
    ensures booking == Realised ==> e == s.cash + (close - s.entry) * s.qty
  {
    match booking
    case AsWritten => if s.qty != 0.0 then s.cash + s.qty * close else s.cash
    case Realised => s.cash + (close - s.entry) * s.qty
  }

  /** What a close credits to cash besides its net PnL. */
  function Proceeds(s: State, price: real, booking: Booking): (v: real)
    ensures booking == Realised ==> v == 0.0
    ensures booking == AsWritten ==> v == Abs(s.qty) * price
  {
    if booking == AsWritten then Abs(s.qty) * price else 0.0
  }

  /** A close of the whole position at `price`: the PnL is the signed move
      times the quantity, the commission is on the exit value |qty|·price,
      and the row's pnl is net of it. */
  function CloseAt(s: State, price: real, date: int, reason: Reason, cfg: Config, booking: Booking): (k: State)
    requires s.qty != 0.0
    ensures k.qty == 0.0 && k.entry == 0.0
    ensures k.cash == s.cash + Proceeds(s, price, booking) + (price - s.entry) * s.qty
                      - Abs(s.qty) * price * cfg.commissionRate
    ensures |k.records| == |s.records| + 1 && k.records == s.records + [k.records[|s.records|]]
    ensures var t := k.records[|s.records|];
            && t.pnl == (price - s.entry) * s.qty - Abs(s.qty) * price * cfg.commissionRate
            && t.price == price && t.date == date && t.equity == k.cash && t.quantity == Abs(s.qty)
            && t.action == (if s.qty > 0.0 then CloseLong else CloseShort)
  {
    var exitValue := Abs(s.qty) * price;
    var pnl := if s.qty > 0.0 then s.qty * (price - s.entry) else Abs(s.qty) * (s.entry - price);
    var commission := exitValue * cfg.commissionRate;
    var cash := s.cash + Proceeds(s, price, booking) + pnl - commission;
    State(cash, 0.0, 0.0,
          s.records + [Record(date, if s.qty > 0.0 then CloseLong else CloseShort, price, Abs(s.qty),
                              pnl - commission, cash, reason)])
  }

  /** The quantity column of an entry row: the notional over the price,
      unsigned for a short. */
  function RowQuantity(side: Side, value: real, price: real): (q: real)
    requires price > 0.0
    ensures q * price == (if side == Long then value else Abs(value))
  {
    if side == Long then value / price else Abs(value / price)
  }

  /** An entry of `qtyPercent` of `equity` at `price`: only the commission
      on that notional leaves cash. The row's equity column is cash plus
      the notional as written, cash alone under realised booking; its
      quantity is unsigned for a short. */
  function Enter(s: State, side: Side, price: real, date: int, equity: real, cfg: Config, booking: Booking): (k: State)
    requires price > 0.0
    ensures Abs(k.qty) * price == Abs(equity * (cfg.qtyPercent / 100.0))
    ensures (if side == Long then k.qty else -k.qty) * price == equity * (cfg.qtyPercent / 100.0)
    ensures k.entry == price
    ensures k.cash == s.cash - equity * (cfg.qtyPercent / 100.0) * cfg.commissionRate
    ensures |k.records| == |s.records| + 1 && k.records[..|s.records|] == s.records
    ensures var t := k.records[|s.records|];
            && t.action == (if side == Long then EnterLong else EnterShort) && t.price == price && t.date == date
            && t.pnl == 0.0
            && t.quantity == RowQuantity(side, equity * (cfg.qtyPercent / 100.0), price)
            && t.equity == k.cash + (if booking == AsWritten then equity * (cfg.qtyPercent / 100.0) else 0.0)
  {
    var value := equity * (cfg.qtyPercent / 100.0);
    var q := value / price;
    var commission := value * cfg.commissionRate;
    var cash := s.cash - commission;
    var shown := if booking == AsWritten then cash + value else cash;
    var t := Record(date, if side == Long then EnterLong else EnterShort, price, RowQuantity(side, value, price),
                    0.0, shown, if side == Long then LongEntry else ShortEntry);
    assert (s.records + [t])[..|s.records|] == s.records;
    State(cash, if side == Long then q else -q, price, s.records + [t])
  }

  /** The breakout of bar i: long has priority when both boundaries break. */
  function Detect(bar: Bar, b: Bounds): (r: Option<Side>)
    ensures r == Some(Long) <==> bar.high > b.upper
    ensures r == Some(Short) <==> !(bar.high > b.upper) && bar.low < b.lower
  {
    if bar.high > b.upper then Some(Long) else if bar.low < b.lower then Some(Short) else None
  }

  /** The signal's execution at the next bar's open: a position held
      against it is closed first ("Reverse to ..."), then the new one is
      entered with the equity marked at bar i's close. */
  function Execute(s: State, side: Side, open: real, date: int, equity: real, cfg: Config, booking: Booking): (k: State)
    requires open > 0.0
    ensures |k.records| == |s.records| + (if Against(Ledger(s.qty, s.entry, s.cash), side) then 2 else 1)
    ensures |s.records| <= |k.records| && k.records[..|s.records|] == s.records
    ensures (if side == Long then k.qty else -k.qty) * open == equity * (cfg.qtyPercent / 100.0)
    ensures k.entry == open
    ensures var t := k.records[|k.records| - 1];
            && t.action == (if side == Long then EnterLong else EnterShort) && t.price == open && t.date == date
            && t.quantity == RowQuantity(side, equity * (cfg.qtyPercent / 100.0), open)
    ensures Against(Ledger(s.qty, s.entry, s.cash), side) ==>
              var t := k.records[|s.records|];
              t.action == (if side == Long then CloseShort else CloseLong) && t.price == open && t.date == date
    ensures booking == Realised && Shown(s, cfg.initialCapital) ==> Shown(k, cfg.initialCapital)
  {
    var s1 :=
      if Against(Ledger(s.qty, s.entry, s.cash), side) then
        CloseAt(s, open, date, if side == Long then ReverseToLong else ReverseToShort, cfg, booking)
      else s;
    Enter(s1, side, open, date, equity, cfg, booking)
  }

  /** The stop check of the loop: the level is fixed from the entry price
      and bar i's ATR, and is compared with bar i's range. */
  function CheckStop(s: State, bar: Bar, atr: real, cfg: Config, booking: Booking): (r: (State, bool))
    ensures r.1 <==> (s.qty > 0.0 && bar.low <= s.entry - atr * cfg.stopMult)
                     || (s.qty < 0.0 && bar.high >= s.entry + atr * cfg.stopMult)
    ensures !r.1 ==> r.0 == s
    ensures r.1 ==> r.0 == CloseAt(s, if s.qty > 0.0 then s.entry - atr * cfg.stopMult else s.entry + atr * cfg.stopMult,
                                   bar.date, StopLoss, cfg, booking)
    ensures Shown(s, cfg.initialCapital) ==> Shown(r.0, cfg.initialCapital)
  {
    if s.qty > 0.0 && bar.low <= s.entry - atr * cfg.stopMult then
      (CloseAt(s, s.entry - atr * cfg.stopMult, bar.date, StopLoss, cfg, booking), true)
    else if s.qty < 0.0 && bar.high >= s.entry + atr * cfg.stopMult then
      (CloseAt(s, s.entry + atr * cfg.stopMult, bar.date, StopLoss, cfg, booking), true)
    else (s, false)
  }

  /** Bar i's boundaries: the lookback bars i-lookback .. i-1. */
  function Window(bars: seq<Bar>, cfg: Config, i: nat): (b: Bounds)
    requires 0 < cfg.lookback <= i < |bars|
    ensures forall k :: i - cfg.lookback <= k < i ==> bars[k].high <= b.highest && b.lowest <= bars[k].low
    ensures (exists k :: i - cfg.lookback <= k < i && bars[k].high == b.highest)
         && (exists k :: i - cfg.lookback <= k < i && bars[k].low == b.lowest)
  {
    BoundsOver(bars, i - cfg.lookback, i, cfg.rangeMult)
  }

  /** One iteration at bar index i (bar i+1 supplies the execution price). */
  function Step(s: State, bars: seq<Bar>, i: nat, cfg: Config, booking: Booking): (k: State)
    requires ValidConfig(cfg) && cfg.lookback <= i && i + 1 < |bars| && PositiveBars(bars)
    ensures |s.records| <= |k.records| && k.records[..|s.records|] == s.records
    ensures Detect(bars[i], Window(bars, cfg, i)).None? ==>
              k == CheckStop(s, bars[i], AtrSeeded(bars, cfg.atrPeriod, i), cfg, booking).0
    ensures booking == Realised && Shown(s, cfg.initialCapital) ==> Shown(k, cfg.initialCapital)
  {
    Iterate(s, bars[i], Window(bars, cfg, i), AtrSeeded(bars, cfg.atrPeriod, i), bars[i + 1].open, bars[i + 1].date,
            cfg, booking)
  }

  /** The iteration on its inputs: bar i, its boundaries and ATR, and the
      next bar's open and date. */
  function Iterate(s: State, bar: Bar, b: Bounds, atr: real, nextOpen: real, nextDate: int, cfg: Config,
                   booking: Booking): (k: State)
    requires nextOpen > 0.0
    ensures |s.records| <= |k.records| && k.records[..|s.records|] == s.records
    ensures Detect(bar, b).None? ==> k == CheckStop(s, bar, atr, cfg, booking).0
    ensures Detect(bar, b).Some? ==>
              k == CheckStop(Execute(s, Detect(bar, b).value, nextOpen, nextDate, Mark(s, bar.close, booking), cfg, booking),
                             bar, atr, cfg, booking).0
    ensures booking == Realised && Shown(s, cfg.initialCapital) ==> Shown(k, cfg.initialCapital)
  {
    var equity := Mark(s, bar.close, booking);
    var s1 := match Detect(bar, b)
              case None => s
              case Some(side) => Execute(s, side, nextOpen, nextDate, equity, cfg, booking);
    CheckStop(s1, bar, atr, cfg, booking).0
  }

  /** The state before iteration n (iterations lookback .. n-1 done). */
  function Run(bars: seq<Bar>, cfg: Config, booking: Booking, n: nat): (s: State)
    requires ValidConfig(cfg) && PositiveBars(bars) && (n <= cfg.lookback || n < |bars|)
    ensures n <= cfg.lookback ==> s == Init(cfg)
    ensures booking == Realised ==> Shown(s, cfg.initialCapital)
  {
    if n <= cfg.lookback then Init(cfg) else Step(Run(bars, cfg, booking, n - 1), bars, n - 1, cfg, booking)
  }

  /** Number of loop iterations' end index: the loop stops at len - 2. */
  function LoopEnd(bars: seq<Bar>): (n: nat)
    ensures |bars| > 0 ==> n + 1 == |bars|
    ensures |bars| == 0 ==> n == 0
  {
    if |bars| == 0 then 0 else |bars| - 1
  }

  /** Final equity: an open position is valued at the last close, net of
      the exit commission on |qty|·close. */
  function FinalEquity(s: State, last: Bar, cfg: Config, booking: Booking): (e: real)
    ensures s.qty == 0.0 ==> e == s.cash
    ensures s.qty != 0.0 ==> e == CloseAt(s, last.close, last.date, EndOfSeries, cfg, booking).cash
  {
    if s.qty == 0.0 then s.cash
    else
      var exitValue := Abs(s.qty) * last.close;
      var pnl := if s.qty > 0.0 then s.qty * (last.close - s.entry) else Abs(s.qty) * (s.entry - last.close);
      s.cash + Proceeds(s, last.close, booking) + pnl - exitValue * cfg.commissionRate
  }

  /** `backtest_tradingview_logic` on already-filtered bars, under the
      intended realised booking: the trade rows and the final equity. */
  function Backtest(bars: seq<Bar>, cfg: Config): (r: (seq<Record>, real))
    requires ValidConfig(cfg) && PositiveBars(bars)
    ensures |bars| <= cfg.lookback + 1 ==> r == ([], cfg.initialCapital)
  {
    var s := Run(bars, cfg, Realised, LoopEnd(bars));
    if |bars| == 0 then (s.records, s.cash) else (s.records, FinalEquity(s, bars[|bars| - 1], cfg, Realised))
  }

  /** The last row's equity column, the initial capital before any row. */
  function LastShown(s: State, initial: real): real
  {
    if |s.records| == 0 then initial else s.records[|s.records| - 1].equity
  }

  /** What closing the open position at `close` adds under realised
      booking: its PnL less the exit commission on |qty|·close. */
  function ExitValue(s: State, close: real, cfg: Config): (v: real)
    ensures s.qty == 0.0 ==> v == 0.0
  {
    (close - s.entry) * s.qty - Abs(s.qty) * close * cfg.commissionRate
  }

  /** Under realised booking the final valuation is the last row's equity
      column plus what closing the open position at the last close adds. */
  lemma FinalEquityShown(s: State, last: Bar, cfg: Config)
    requires Shown(s, cfg.initialCapital)
    ensures FinalEquity(s, last, cfg, Realised) == LastShown(s, cfg.initialCapital) + ExitValue(s, last.close, cfg)
  {
  }

  /** The final equity of `Backtest` is the last row's equity column (the
      initial capital without rows), plus, for a position still open at
      the end, its PnL at the last close less the exit commission. */
  lemma {:induction false} BacktestFinalEquity(bars: seq<Bar>, cfg: Config)
    requires ValidConfig(cfg) && PositiveBars(bars)
    ensures var s := Run(bars, cfg, Realised, LoopEnd(bars));
            && Backtest(bars, cfg).0 == s.records
            && (|bars| == 0 ==> Backtest(bars, cfg).1 == cfg.initialCapital)
            && (|bars| > 0 ==> Backtest(bars, cfg).1 == LastShown(s, cfg.initialCapital)
                                                        + ExitValue(s, bars[|bars| - 1].close, cfg))
  {
    var s := Run(bars, cfg, Realised, LoopEnd(bars));
    if |bars| > 0 {
      FinalEquityShown(s, bars[|bars| - 1], cfg);
    }
  }

  // ---------------------------------------------------------------------
  // Properties
  // ---------------------------------------------------------------------

  /** The rows an iteration with a signal appends: after the closing row
      of a position held against the signal, if any, the entry at the
      next open, dated the next bar and sized from the marked equity; at
      most a stop row of the signal bar follows it. */
  predicate EntersAtNext(s: State, k: State, side: Side, bar: Bar, nextOpen: real, nextDate: int, equity: real,
                         cfg: Config)
    requires nextOpen > 0.0
  {
    var against := Against(Ledger(s.qty, s.entry, s.cash), side);
    var j := |s.records| + (if against then 1 else 0);
    && j < |k.records| <= j + 2
    && (against ==> k.records[|s.records|].action == (if side == Long then CloseShort else CloseLong)
                    && k.records[|s.records|].price == nextOpen)
    && k.records[j].action == (if side == Long then EnterLong else EnterShort)
    && k.records[j].price == nextOpen
    && k.records[j].date == nextDate
    && k.records[j].quantity == RowQuantity(side, equity * (cfg.qtyPercent / 100.0), nextOpen)
    && (|k.records| == j + 2 ==> k.records[j + 1].reason == StopLoss && k.records[j + 1].date == bar.date)
  }

  /** An iteration whose bar signals performs the signal itself. */
  lemma IterateExecutes(s: State, bar: Bar, b: Bounds, atr: real, nextOpen: real, nextDate: int, cfg: Config,
                        booking: Booking)
    requires nextOpen > 0.0 && Detect(bar, b).Some?
    ensures EntersAtNext(s, Iterate(s, bar, b, atr, nextOpen, nextDate, cfg, booking), Detect(bar, b).value, bar,
                         nextOpen, nextDate, Mark(s, bar.close, booking), cfg)
  {
    var side := Detect(bar, b).value;
    var equity := Mark(s, bar.close, booking);
    var s1 := Execute(s, side, nextOpen, nextDate, equity, cfg, booking);
    var k := CheckStop(s1, bar, atr, cfg, booking).0;
    var j := |s1.records| - 1;
    assert k.records[..|s1.records|] == s1.records;
    assert k.records[j] == s1.records[j];
  }

  /** A signal of bar i is executed in iteration i itself, at bar i+1's
      open and dated bar i+1, sized from the equity marked at bar i's
      close (`EntersAtNext`). */
  lemma SignalExecutesAtNextOpen(s: State, bars: seq<Bar>, i: nat, cfg: Config, booking: Booking)
    requires ValidConfig(cfg) && cfg.lookback <= i && i + 1 < |bars| && PositiveBars(bars)
    requires Detect(bars[i], Window(bars, cfg, i)).Some?
    ensures EntersAtNext(s, Step(s, bars, i, cfg, booking), Detect(bars[i], Window(bars, cfg, i)).value, bars[i],
                         bars[i + 1].open, bars[i + 1].date, Mark(s, bars[i].close, booking), cfg)
  {
    var b := Window(bars, cfg, i);
    var atr := AtrSeeded(bars, cfg.atrPeriod, i);
    assert Step(s, bars, i, cfg, booking) == Iterate(s, bars[i], b, atr, bars[i + 1].open, bars[i + 1].date, cfg, booking);
    IterateExecutes(s, bars[i], b, atr, bars[i + 1].open, bars[i + 1].date, cfg, booking);
  }

  /** The bars agree before index n, and bar n agrees in open and date. */
  predicate AgreeUpTo(bars: seq<Bar>, bars': seq<Bar>, n: nat)
  {
    && n < |bars| && n < |bars'|
    && bars[..n] == bars'[..n]
    && bars'[n].open == bars[n].open && bars'[n].date == bars[n].date
  }

  /** Agreement up to bar n gives the same bar n-1 and agreement up to n-1. */
  lemma AgreeStepDown(bars: seq<Bar>, bars': seq<Bar>, n: nat)
    requires 0 < n && AgreeUpTo(bars, bars', n)
    ensures bars[n - 1] == bars'[n - 1] && AgreeUpTo(bars, bars', n - 1)
  {
    assert bars[n - 1] == bars[..n][n - 1] && bars'[n - 1] == bars'[..n][n - 1];
    assert bars[..n - 1] == bars[..n][..n - 1] && bars'[..n - 1] == bars'[..n][..n - 1];
  }

  /** A position entered at bar n's open has its stop decided by bar n-1's
      range in the same iteration: bar n's low, high and close play no
      part in iteration n-1. */
  lemma {:induction false} StopUsesSignalBar(s: State, bars: seq<Bar>, bars': seq<Bar>, n: nat, cfg: Config, booking: Booking)
    requires ValidConfig(cfg) && cfg.lookback < n && PositiveBars(bars) && PositiveBars(bars')
    requires AgreeUpTo(bars, bars', n)
    ensures Step(s, bars, n - 1, cfg, booking) == Step(s, bars', n - 1, cfg, booking)
  {
    AgreeStepDown(bars, bars', n);
    WindowNoLookahead(bars, bars', cfg, n - 1);
    AtrSeededPrefix(bars, bars', cfg.atrPeriod, n - 1);
  }

  /** Window i reads bars before i and bar i's open only. */
  lemma WindowNoLookahead(bars: seq<Bar>, bars': seq<Bar>, cfg: Config, i: nat)
    requires 0 < cfg.lookback <= i && AgreeUpTo(bars, bars', i)
    ensures Window(bars, cfg, i) == Window(bars', cfg, i)
  {
    var lo := i - cfg.lookback;
    assert bars[lo..i] == bars'[lo..i] by {
      assert bars[lo..i] == bars[..i][lo..];
      assert bars'[lo..i] == bars'[..i][lo..];
    }
    WindowLocal(bars, bars', lo, i);
    assert BoundsOver(bars, lo, i, cfg.rangeMult) == BoundsOver(bars', lo, i, cfg.rangeMult);
  }

  /** The seeded ATR at i reads bars 0..i only. */
  lemma AtrSeededPrefix(bars: seq<Bar>, bars': seq<Bar>, period: nat, i: nat)
    requires 0 < period && i < |bars| && i < |bars'|
    requires bars[..i + 1] == bars'[..i + 1]
    ensures AtrSeeded(bars, period, i) == AtrSeeded(bars', period, i)
  {
    var xs := TrSeries(bars, true);
    var ys := TrSeries(bars', true);
    forall k | 0 <= k <= i
      ensures xs[k] == ys[k]
    {
      assert bars[k] == bars[..i + 1][k];
      assert bars'[k] == bars'[..i + 1][k];
      if k > 0 {
        assert bars[k - 1] == bars[..i + 1][k - 1];
        assert bars'[k - 1] == bars'[..i + 1][k - 1];
      }
    }
    SeededRmaPrefix(xs, ys, period, i);
  }

  lemma {:induction false} SumPrefix(xs: seq<real>, ys: seq<real>, lo: nat, hi: nat)
    requires lo <= hi <= |xs| && hi <= |ys|
    requires forall k :: lo <= k < hi ==> xs[k] == ys[k]
    ensures Sum(xs, lo, hi) == Sum(ys, lo, hi)
    decreases hi - lo
  {
    if lo < hi {
      SumPrefix(xs, ys, lo, hi - 1);
    }
  }

  lemma {:induction false} SeededRmaPrefix(xs: seq<real>, ys: seq<real>, period: nat, i: nat)
    requires 0 < period && i < |xs| && i < |ys|
    requires forall k :: 0 <= k <= i ==> xs[k] == ys[k]
    ensures SeededRma(xs, period, i) == SeededRma(ys, period, i)
  {
    if i == period {
      SumPrefix(xs, ys, 1, period + 1);
    } else if i > period {
      SeededRmaPrefix(xs, ys, period, i - 1);
      assert xs[i] == ys[i];
    }
  }

  /** The loop reads bars 0..n-1 fully and only the open and date of bar
      n before iteration n. */
  lemma {:induction false} RunAgrees(bars: seq<Bar>, bars': seq<Bar>, cfg: Config, booking: Booking, n: nat)
    requires ValidConfig(cfg) && PositiveBars(bars) && PositiveBars(bars')
    requires AgreeUpTo(bars, bars', n)
    ensures Run(bars, cfg, booking, n) == Run(bars', cfg, booking, n)
  {
    if n > cfg.lookback {
      AgreeStepDown(bars, bars', n);
      RunAgrees(bars, bars', cfg, booking, n - 1);
      RunStepAgrees(bars, bars', cfg, booking, n);
    }
  }

  /** One more iteration from equal states over bars on which that
      iteration agrees gives equal states. */
  lemma {:induction false} RunStepAgrees(bars: seq<Bar>, bars': seq<Bar>, cfg: Config, booking: Booking, n: nat)
    requires ValidConfig(cfg) && PositiveBars(bars) && PositiveBars(bars')
    requires cfg.lookback < n && AgreeUpTo(bars, bars', n)
    requires Run(bars, cfg, booking, n - 1) == Run(bars', cfg, booking, n - 1)
    ensures Run(bars, cfg, booking, n) == Run(bars', cfg, booking, n)
  {
    StopUsesSignalBar(Run(bars, cfg, booking, n - 1), bars, bars', n, cfg, booking);
  }

  /** The last bar is never a signal bar: iterations stop at len - 2, so
      the last bar's high, low and close change nothing before the final
      valuation. */
  lemma LastBarNeverSignals(bars: seq<Bar>, bars': seq<Bar>, cfg: Config, booking: Booking)
    requires ValidConfig(cfg) && PositiveBars(bars) && PositiveBars(bars') && |bars| == |bars'| > 0
    requires AgreeUpTo(bars, bars', |bars| - 1)
    ensures Run(bars, cfg, booking, LoopEnd(bars)) == Run(bars', cfg, booking, LoopEnd(bars'))
  {
    RunAgrees(bars, bars', cfg, booking, |bars| - 1);
  }

  // ---------------------------------------------------------------------
  // The double-counted notional
  // ---------------------------------------------------------------------

  /** As written, a commission-free long entered and closed at the same
      price raises cash by the position's notional. */
  lemma RoundTripAsWritten(s: State, side: Side, price: real, cfg: Config)
    requires price > 0.0 && s.qty == 0.0 && cfg.commissionRate == 0.0
    requires s.cash * (cfg.qtyPercent / 100.0) != 0.0
    ensures var k := Enter(s, side, price, 0, s.cash, cfg, AsWritten);
            CloseAt(k, price, 0, EndOfSeries, cfg, AsWritten).cash == s.cash + Abs(k.qty) * price
            && Abs(k.qty) * price == Abs(s.cash * (cfg.qtyPercent / 100.0))
  {
    var k := Enter(s, side, price, 0, s.cash, cfg, AsWritten);
    assert k.qty != 0.0;
  }

  /** With the script's sizing and no commission: 100000 in cash, a long
      at 100 closed at 100 ends with 199000 as written and 100000 when
      realised. */
  lemma DoubleCountExample(date: int)
    ensures var cfg := Config(20, 0.5, 2.5, 14, 100000.0, 0.0, 99.0);
            var s := State(100000.0, 0.0, 0.0, []);
            CloseAt(Enter(s, Long, 100.0, date, 100000.0, cfg, AsWritten), 100.0, date, EndOfSeries, cfg, AsWritten).cash
              == 199000.0
            && CloseAt(Enter(s, Long, 100.0, date, 100000.0, cfg, Realised), 100.0, date, EndOfSeries, cfg, Realised).cash
              == 100000.0
  {
    var cfg := Config(20, 0.5, 2.5, 14, 100000.0, 0.0, 99.0);
    var s := State(100000.0, 0.0, 0.0, []);
    var k := Enter(s, Long, 100.0, date, 100000.0, cfg, AsWritten);
    assert k.qty * 100.0 == 99000.0;
    assert k.qty == 990.0 && k.cash == 100000.0 && k.entry == 100.0;
    var r := Enter(s, Long, 100.0, date, 100000.0, cfg, Realised);
    assert r.qty * 100.0 == 99000.0;
    assert r.qty == 990.0 && r.cash == 100000.0 && r.entry == 100.0;
  }

  /** Under realised booking a round trip moves cash by exactly the move's
      PnL less both commissions, and the mark at any price is the cash a
      close there (before its commission) would leave. */
  lemma RoundTripRealised(s: State, side: Side, entry: real, exit: real, cfg: Config)
    requires entry > 0.0 && s.qty == 0.0
    requires s.cash * (cfg.qtyPercent / 100.0) != 0.0
    ensures var k := Enter(s, side, entry, 0, s.cash, cfg, Realised);
            && CloseAt(k, exit, 0, EndOfSeries, cfg, Realised).cash
               == s.cash + (exit - entry) * k.qty
                  - s.cash * (cfg.qtyPercent / 100.0) * cfg.commissionRate
                  - Abs(k.qty) * exit * cfg.commissionRate
            && Mark(k, exit, Realised) - k.cash == (exit - entry) * k.qty
  {
    var k := Enter(s, side, entry, 0, s.cash, cfg, Realised);
    assert k.qty != 0.0;
  }
}

=== FILE: correcttiming.dfy ===
/** `CorrectTimingStrategy` (correct_timing_backtest.py): signals are
    detected on a bar and queued; the queued order fills at the NEXT bar's
    open. Per bar: (1) execute the queued order at the open, (2) check the
    stop during the bar, (3) detect and queue a new signal, (4) write the
    daily row. After the last bar a still-queued order fills at the final
    close and any open position is closed there. */
module CorrectTiming {
  import opened Market
  import opened Indicators
  import opened PositionLedger

  /** A queued order: its direction, and whether it was detected while the
      opposite position was open (REVERSE_TO_LONG / REVERSE_TO_SHORT) or
      while flat (LONG / SHORT). */
  datatype Signal = Signal(side: Side, reverse: bool)

  /** `detect_signals`: long beats short; a breakout in the direction
      already held queues nothing (and then the other direction is not
      looked at); undefined boundaries queue nothing. */
  function Detect(row: Row, size: real): (r: Option<Signal>)
    ensures r.Some? <==> (GoLong(row) && size <= 0.0) || (!GoLong(row) && GoShort(row) && size >= 0.0)
    ensures r.Some? ==> r.value.side == (if GoLong(row) then Long else Short)
    ensures r.Some? ==> (r.value.reverse <==> size != 0.0)
    ensures row.bounds.None? ==> r.None?
  {
    if row.bounds.None? then None
    else if GoLong(row) then
      if size < 0.0 then Some(Signal(Long, true))
      else if size <= 0.0 then Some(Signal(Long, false))
      else None
    else if GoShort(row) then
      if size > 0.0 then Some(Signal(Short, true))
      else if size >= 0.0 then Some(Signal(Short, false))
      else None
    else None
  }

  /** What a queued signal says about the position it was detected on:
      a reversal was queued against an opposite position, a plain entry
      while flat. */
  predicate Queued(l: Ledger, sig: Signal)
  {
    if sig.reverse then Against(l, sig.side) else l.size == 0.0
  }

  /** `execute_pending_signal` at `price`: a reversal closes the opposite
      position first (if there still is one), then the entry is made. */
  function ExecutePending(j: Journal, sig: Option<Signal>, price: real, date: int, cfg: Config): (k: Journal)
    requires price > 0.0
    ensures sig.None? ==> k == j
    ensures sig.Some? ==>
              var closes := sig.value.reverse && Against(j.book, sig.value.side);
              var n := |j.trades|;
              && |k.trades| == n + (if closes then 2 else 1)
              && k.trades[..n] == j.trades
              && (closes ==> k.trades[n].date == date && k.trades[n].price == price
                             && k.trades[n].action == (if sig.value.side == Long then CloseShort else CloseLong))
              && k.trades[|k.trades| - 1].action == (if sig.value.side == Long then EnterLong else EnterShort)
              && k.trades[|k.trades| - 1].date == date && k.trades[|k.trades| - 1].price == price
              && k.book == Open(if closes then Close(j.book, price, cfg).after else j.book,
                                sig.value.side, price, cfg).after
    ensures Sound(j, cfg.initialCapital) ==> Sound(k, cfg.initialCapital)
  {
    match sig
    case None => j
    case Some(s) =>
      var reason := if s.side == Long then ReverseToLong else ReverseToShort;
      var mid := if s.reverse && Against(j.book, s.side) then LogClose(j, price, date, reason, cfg) else j;
      var k := LogEntry(mid, s.side, price, date, if s.side == Long then LongEntry else ShortEntry, cfg);
      assert k.trades[..|j.trades|] == mid.trades[..|j.trades|];
      k
  }

  /** The engine between bars: the journal, the order queued for the next
      bar, and the daily log so far. */
  datatype State = State(j: Journal, pending: Option<Signal>, daily: seq<Daily>)

  function Init(cfg: Config): (s: State)
    ensures Sound(s.j, cfg.initialCapital) && s.j.book.size == 0.0 && s.j.trades == []
  {
    State(Journal(Ledger(0.0, 0.0, cfg.initialCapital), 0, []), None, [])
  }

  /** A queued order agrees with the position it was detected on. */
  predicate Consistent(s: State)
  {
    s.pending.Some? ==> Queued(s.j.book, s.pending.value)
  }

  /** One iteration of `run_correct_timing_backtest`. */
  function Step(s: State, row: Row, cfg: Config): (k: State)
    requires row.bar.open > 0.0
    ensures k.daily == s.daily + [Mark(k.j.book, row.bar)]
    ensures k.pending == Detect(row, k.j.book.size)
    ensures k.j == CheckStop(ExecutePending(s.j, s.pending, row.bar.open, row.bar.date, cfg), row.bar, row.atr, cfg).0
    ensures Consistent(k)
    ensures |s.j.trades| <= |k.j.trades| && k.j.trades[..|s.j.trades|] == s.j.trades
    ensures Sound(s.j, cfg.initialCapital) ==> Sound(k.j, cfg.initialCapital)
  {
    var j1 := ExecutePending(s.j, s.pending, row.bar.open, row.bar.date, cfg);
    var stopped := CheckStop(j1, row.bar, row.atr, cfg);
    var j2 := stopped.0;
    var sig := Detect(row, j2.book.size);
    assert j2.trades[..|s.j.trades|] == s.j.trades;
    State(j2, sig, s.daily + [Mark(j2.book, row.bar)])
  }

  /** Daily row k carries the date of bar k, one row per bar. */
  predicate DatedAs(daily: seq<Daily>, rows: seq<Row>)
  {
    |daily| == |rows| && forall k :: 0 <= k < |rows| ==> daily[k].date == rows[k].bar.date
  }

  lemma DatedAppend(daily: seq<Daily>, rows: seq<Row>, d: Daily)
    requires 0 < |rows| && DatedAs(daily, rows[..|rows| - 1]) && d.date == rows[|rows| - 1].bar.date
    ensures DatedAs(daily + [d], rows)
  {
  }

  /** The state after folding Step over `rows`. */
  function Run(rows: seq<Row>, cfg: Config): (s: State)
    requires PositiveRows(rows)
    ensures |s.daily| == |rows|
    ensures DatedAs(s.daily, rows)
    ensures Consistent(s)
    ensures Sound(s.j, cfg.initialCapital)
  {
    if |rows| == 0 then Init(cfg)
    else
      var init := rows[..|rows| - 1];
      assert PositiveRows(init) by {
        forall i | 0 <= i < |init| ensures PositiveBar(init[i].bar) { assert init[i] == rows[i]; }
      }
      var prev := Run(init, cfg);
      var s := Step(prev, rows[|rows| - 1], cfg);
      DatedAppend(prev.daily, rows, Mark(s.j.book, rows[|rows| - 1].bar));
      s
  }

  /** The end of `run_correct_timing_backtest`: a still-queued order fills
      at the final close, then any open position is closed there. */
  function Finish(s: State, last: Bar, cfg: Config): (j: Journal)
    requires last.close > 0.0
    ensures j.book.size == 0.0
    ensures |s.j.trades| <= |j.trades| && j.trades[..|s.j.trades|] == s.j.trades
    ensures s.pending.None? && s.j.book.size == 0.0 ==> j == s.j
    ensures forall k :: |s.j.trades| <= k < |j.trades| ==> j.trades[k].date == last.date && j.trades[k].price == last.close
    ensures s.pending.Some? ==>
              exists k :: |s.j.trades| <= k < |j.trades|
                          && j.trades[k].action == (if s.pending.value.side == Long then EnterLong else EnterShort)
    ensures s.pending.None? && s.j.book.size != 0.0 ==>
              |j.trades| == |s.j.trades| + 1 && j.trades[|s.j.trades|].reason == EndOfSeries
    ensures Sound(s.j, cfg.initialCapital) ==> Sound(j, cfg.initialCapital)
  {
    var j1 := ExecutePending(s.j, s.pending, last.close, last.date, cfg);
    if j1.book.size != 0.0 then
      var j2 := LogClose(j1, last.close, last.date, EndOfSeries, cfg);
      assert j2.trades[..|s.j.trades|] == s.j.trades;
      j2
    else j1
  }

  datatype Outcome = Outcome(j: Journal, daily: seq<Daily>)

  /** The whole backtest on a bar series: the pandas indicator columns with
      the ewm ATR, the per-bar fold, then the end-of-series settlement. */
  function Backtest(bars: seq<Bar>, cfg: Config): (o: Outcome)
    requires ValidConfig(cfg) && PositiveBars(bars)
    ensures |o.daily| == |bars|
    ensures o.j.book.size == 0.0
    ensures Sound(o.j, cfg.initialCapital)
    ensures o.j.book.equity == cfg.initialCapital + SumNet(o.j.trades)
    ensures PositiveRows(PandasRows(bars, cfg, Rma))
    ensures var s := Run(PandasRows(bars, cfg, Rma), cfg);
            && o.daily == s.daily
            && (|bars| == 0 ==> o.j == Init(cfg).j)
            && (|bars| > 0 ==> o.j == Finish(s, bars[|bars| - 1], cfg))
  {
    var rows := PandasRows(bars, cfg, Rma);
    PandasRowsPositive(bars, cfg, Rma);
    if |rows| == 0 then Outcome(Init(cfg).j, [])
    else
      var s := Run(rows, cfg);
      Outcome(Finish(s, rows[|rows| - 1].bar, cfg), s.daily)
  }

  // ---------------------------------------------------------------------
  // Properties
  // ---------------------------------------------------------------------

  lemma RunPrefix(rows: seq<Row>, n: nat, cfg: Config)
    requires PositiveRows(rows) && n < |rows|
    ensures PositiveRows(rows[..n]) && PositiveRows(rows[..n + 1])
    ensures Run(rows[..n + 1], cfg) == Step(Run(rows[..n], cfg), rows[n], cfg)
  {
    assert rows[..n + 1][..n] == rows[..n];
  }

  /** How the trades a bar appends (`after` extends `before`'s log) follow
      the order queued before the bar: a queued order fills at the bar's
      open, dated that bar; a reversal first closes the opposite position
      at that open and the entry in the signal's direction follows at the
      same open. At most one stop-out follows, dated that bar; without a
      queued order the only trade a bar can make is that stop-out. */
  predicate FillsQueued(before: State, after: seq<Trade>, bar: Bar)
  {
    var m := |before.j.trades|;
    && (before.pending.Some? ==>
          var sig := before.pending.value;
          var e := m + (if sig.reverse then 1 else 0);
          && e < |after| <= e + 2
          && (|after| == e + 2 ==> after[e + 1].reason == StopLoss && after[e + 1].date == bar.date)
          && (sig.reverse ==> after[m].price == bar.open && after[m].date == bar.date
                              && after[m].action == (if sig.side == Long then CloseShort else CloseLong))
          && after[e].action == (if sig.side == Long then EnterLong else EnterShort)
          && after[e].price == bar.open && after[e].date == bar.date)
    && (before.pending.None? ==> forall k :: m <= k < |after| ==> after[k].reason == StopLoss)
    && (before.pending.None? ==> |after| <= m + 1 && (|after| == m + 1 ==> after[m].date == bar.date))
  }

  lemma StepFillsPending(s: State, row: Row, cfg: Config)
    requires row.bar.open > 0.0 && Consistent(s)
    ensures FillsQueued(s, Step(s, row, cfg).j.trades, row.bar)
  {
    var j1 := ExecutePending(s.j, s.pending, row.bar.open, row.bar.date, cfg);
    var stopped := CheckStop(j1, row.bar, row.atr, cfg);
    assert Step(s, row, cfg).j == stopped.0;
    var m := |s.j.trades|;
    if s.pending.Some? {
      var sig := s.pending.value;
      assert sig.reverse <==> Against(s.j.book, sig.side);
      var e := m + (if sig.reverse then 1 else 0);
      assert e == |j1.trades| - 1;
      assert stopped.0.trades[..|j1.trades|] == j1.trades;
      assert stopped.0.trades[e] == j1.trades[e];
      if sig.reverse {
        assert stopped.0.trades[m] == j1.trades[m];
      }
    }
  }

  /** The order queued after bar n is what detection saw on bar n, with
      the position as it stood after bar n's fill and stop check. */
  lemma QueuedIsDetected(rows: seq<Row>, n: nat, cfg: Config)
    requires PositiveRows(rows) && n < |rows|
    ensures PositiveRows(rows[..n + 1])
    ensures var s := Run(rows[..n + 1], cfg);
            s.pending == Detect(rows[n], s.j.book.size)
  {
    RunPrefix(rows, n, cfg);
  }

  /** The order queued after bar n fills at bar n+1's open, dated bar n+1,
      as FillsQueued describes. */
  lemma SignalFillsNextOpen(rows: seq<Row>, n: nat, cfg: Config)
    requires PositiveRows(rows) && n + 1 < |rows|
    ensures PositiveRows(rows[..n + 1]) && PositiveRows(rows[..n + 2])
    ensures FillsQueued(Run(rows[..n + 1], cfg), Run(rows[..n + 2], cfg).j.trades, rows[n + 1].bar)
  {
    RunPrefix(rows, n + 1, cfg);
    var before := Run(rows[..n + 1], cfg);
    StepFillsPending(before, rows[n + 1], cfg);
  }

  /** Bars before `lookback` queue nothing, so nothing trades on bars
      0..lookback: the first trade can come no earlier than bar
      lookback + 1, the open after the first bar with boundaries. */
  lemma {:induction false} QuietBeforeLookback(bars: seq<Bar>, cfg: Config, n: nat)
    requires ValidConfig(cfg) && PositiveBars(bars) && n <= cfg.lookback && n <= |bars|
    ensures PositiveRows(PandasRows(bars, cfg, Rma)[..n])
    ensures var s := Run(PandasRows(bars, cfg, Rma)[..n], cfg);
            s.j == Init(cfg).j && s.pending.None?
  {
    var rows := PandasRows(bars, cfg, Rma);
    PandasRowsPositive(bars, cfg, Rma);
    if n > 0 {
      QuietBeforeLookback(bars, cfg, n - 1);
      RunPrefix(rows, n - 1, cfg);
      NoSignalBeforeLookback(bars, cfg, Rma, n - 1);
    }
  }

  lemma NoTradesBeforeIndicators(bars: seq<Bar>, cfg: Config, n: nat)
    requires ValidConfig(cfg) && PositiveBars(bars) && n <= cfg.lookback + 1 && n <= |bars|
    ensures PositiveRows(PandasRows(bars, cfg, Rma)[..n])
    ensures Run(PandasRows(bars, cfg, Rma)[..n], cfg).j.trades == []
  {
    var rows := PandasRows(bars, cfg, Rma);
    PandasRowsPositive(bars, cfg, Rma);
    if n <= cfg.lookback {
      QuietBeforeLookback(bars, cfg, n);
    } else {
      QuietBeforeLookback(bars, cfg, n - 1);
      RunPrefix(rows, n - 1, cfg);
      var s := Run(rows[..n - 1], cfg);
      assert s.j.book.size == 0.0;
    }
  }
}

=== FILE: detailedlogger.dfy ===
/** `DetailedBTCStrategy` (detailed_backtest_logger.py): trades on the
    signal bar at the breakout boundary, with one daily row per bar that
    records the position both before and after the bar. `execute_trade`
    advances the trade id on every call, and a LONG / SHORT order always
    opens a fresh position, even in the direction already held. */
module DetailedLogger {
  import opened Market
  import opened Indicators
  import opened PositionLedger

  /** The `action` argument of `execute_trade`. */
  datatype Order = Buy | Sell | Flatten

  /** `calculate_stop_loss_price`: undefined when flat or when ATR is
      undefined; avg - atr·mult for a long, avg + atr·mult for a short. */
  function StopPrice(l: Ledger, atr: Option<real>, cfg: Config): (stop: Option<real>)
    ensures stop.None? <==> l.size == 0.0 || atr.None?
    ensures stop.Some? && l.size > 0.0 ==> stop.value == l.avg - atr.value * cfg.stopMult
    ensures stop.Some? && l.size < 0.0 ==> stop.value == l.avg + atr.value * cfg.stopMult
  {
    if l.size == 0.0 || atr.None? then None else Some(StopLevel(l, atr.value, cfg.stopMult))
  }

  /** `execute_trade`. BUY closes a short first (its own trade id), then
      opens a long of `qtyPercent` percent of equity at `price` whatever
      was held; SELL is the mirror image; FLATTEN closes an open position
      and does nothing when flat. Every call uses up one trade id. */
  function ExecuteTrade(j: Journal, order: Order, price: real, date: int, reason: Reason, cfg: Config): (k: Journal)
    requires order != Flatten ==> price > 0.0
    ensures order == Flatten && j.book.size == 0.0 ==> k == j.(tradeId := j.tradeId + 1)
    ensures order == Flatten && j.book.size != 0.0 ==> k == LogClose(j, price, date, reason, cfg)
    ensures order != Flatten ==>
              var side := if order == Buy then Long else Short;
              var closes := if order == Buy then j.book.size < 0.0 else j.book.size > 0.0;
              && k.book == Open(if closes then Close(j.book, price, cfg).after else j.book, side, price, cfg).after
              && k.tradeId == j.tradeId + (if closes then 2 else 1)
              && |k.trades| == |j.trades| + (if closes then 2 else 1)
              && k.trades[|k.trades| - 1].action == (if order == Buy then EnterLong else EnterShort)
              && k.trades[|k.trades| - 1].id == k.tradeId
    ensures |j.trades| <= |k.trades| && k.trades[..|j.trades|] == j.trades
    ensures Booked(j.book, cfg.initialCapital, j.trades) ==> Booked(k.book, cfg.initialCapital, k.trades)
    ensures Sound(j, cfg.initialCapital) && (order == Flatten ==> j.book.size != 0.0)
            ==> Sound(k, cfg.initialCapital)
  {
    match order
    case Flatten =>
      if j.book.size == 0.0 then j.(tradeId := j.tradeId + 1) else LogClose(j, price, date, reason, cfg)
    case Buy => EnterSide(j, Long, price, date, reason, cfg)
    case Sell => EnterSide(j, Short, price, date, reason, cfg)
  }

  /** A buy or sell order: close an opposite position (logged as a
      reversal), then log the fresh entry. */
  function EnterSide(j: Journal, side: Side, price: real, date: int, reason: Reason, cfg: Config): (k: Journal)
    requires price > 0.0
    ensures var closes := Against(j.book, side);
            && k.book == Open(if closes then Close(j.book, price, cfg).after else j.book, side, price, cfg).after
            && k.tradeId == j.tradeId + (if closes then 2 else 1)
            && |k.trades| == |j.trades| + (if closes then 2 else 1)
            && k.trades[|k.trades| - 1].action == (if side == Long then EnterLong else EnterShort)
            && k.trades[|k.trades| - 1].id == k.tradeId
    ensures |j.trades| <= |k.trades| && k.trades[..|j.trades|] == j.trades
    ensures Booked(j.book, cfg.initialCapital, j.trades) ==> Booked(k.book, cfg.initialCapital, k.trades)
    ensures Sound(j, cfg.initialCapital) ==> Sound(k, cfg.initialCapital)
  {
    var j1 := if Against(j.book, side) then LogClose(j, price, date, if side == Long then ReverseToLong else ReverseToShort, cfg) else j;
    var k := LogEntry(j1, side, price, date, reason, cfg);
    assert k.trades[..|j.trades|] == j1.trades[..|j.trades|];
    k
  }

  /** The `action` column of the daily row. */
  datatype BarAction = NoData | StopLossLong | StopLossShort | LongEntered | ShortEntered | Hold

  /** One daily row: the position marked at the close before the bar's
      trading, after it (absent on NO_DATA rows), and the action. */
  datatype DayRecord = DayRecord(before: Daily, after: Option<Daily>, action: BarAction)

  datatype State = State(j: Journal, days: seq<DayRecord>)

  function Init(cfg: Config): (s: State)
    ensures Sound(s.j, cfg.initialCapital) && s.j.trades == [] && s.days == []
  {
    State(Journal(Ledger(0.0, 0.0, cfg.initialCapital), 0, []), [])
  }

  /** The trading part of one bar with boundaries: the stop (filled at
      min(stop, low) for a long, max(stop, high) for a short), else the
      breakout entry at max(open, upper) / min(open, lower), long first. */
  function Trade(j: Journal, row: Row, cfg: Config): (r: (Journal, BarAction))
    requires PositiveBar(row.bar) && row.bounds.Some?
    ensures var stop := StopPrice(j.book, row.atr, cfg);
            var longStop := stop.Some? && j.book.size > 0.0 && row.bar.low <= stop.value;
            var shortStop := stop.Some? && j.book.size < 0.0 && row.bar.high >= stop.value;
            && (longStop ==> r == (ExecuteTrade(j, Flatten, row.bar.low, row.bar.date, StopLoss, cfg), StopLossLong))
            && (shortStop ==> r == (ExecuteTrade(j, Flatten, row.bar.high, row.bar.date, StopLoss, cfg), StopLossShort))
            && (!longStop && !shortStop && GoLong(row) ==>
                  r == (ExecuteTrade(j, Buy, Max(row.bar.open, row.bounds.value.upper), row.bar.date, LongEntry, cfg),
                        LongEntered))
            && (!longStop && !shortStop && !GoLong(row) && GoShort(row) ==>
                  r == (ExecuteTrade(j, Sell, Min(row.bar.open, row.bounds.value.lower), row.bar.date, ShortEntry, cfg),
                        ShortEntered))
            && (!longStop && !shortStop && !GoLong(row) && !GoShort(row) ==> r == (j, Hold))
    ensures |j.trades| <= |r.0.trades| && r.0.trades[..|j.trades|] == j.trades
    ensures Sound(j, cfg.initialCapital) ==> Sound(r.0, cfg.initialCapital)
  {
    var stop := StopPrice(j.book, row.atr, cfg);
    if stop.Some? && j.book.size > 0.0 && row.bar.low <= stop.value then
      (ExecuteTrade(j, Flatten, Min(stop.value, row.bar.low), row.bar.date, StopLoss, cfg), StopLossLong)
    else if stop.Some? && j.book.size < 0.0 && row.bar.high >= stop.value then
      (ExecuteTrade(j, Flatten, Max(stop.value, row.bar.high), row.bar.date, StopLoss, cfg), StopLossShort)
    else if GoLong(row) then
      (ExecuteTrade(j, Buy, Max(row.bar.open, row.bounds.value.upper), row.bar.date, LongEntry, cfg), LongEntered)
    else if GoShort(row) then
      ShortBreakoutPricePositive(row);
      (ExecuteTrade(j, Sell, Min(row.bar.open, row.bounds.value.lower), row.bar.date, ShortEntry, cfg), ShortEntered)
    else (j, Hold)
  }

  /** One iteration of `run_detailed_backtest`. */
  function Step(s: State, row: Row, cfg: Config): (k: State)
    requires PositiveBar(row.bar)
    ensures |k.days| == |s.days| + 1 && k.days[..|s.days|] == s.days
    ensures k.days[|s.days|].before == Mark(s.j.book, row.bar)
    ensures row.bounds.None? ==> k.j == s.j && k.days[|s.days|] == DayRecord(Mark(s.j.book, row.bar), None, NoData)
    ensures row.bounds.Some? ==> (k.j, k.days[|s.days|].action) == Trade(s.j, row, cfg)
                                 && k.days[|s.days|].after == Some(Mark(k.j.book, row.bar))
    ensures |s.j.trades| <= |k.j.trades| && k.j.trades[..|s.j.trades|] == s.j.trades
    ensures Sound(s.j, cfg.initialCapital) ==> Sound(k.j, cfg.initialCapital)
  {
    var before := Mark(s.j.book, row.bar);
    if row.bounds.None? then State(s.j, s.days + [DayRecord(before, None, NoData)])
    else
      var r := Trade(s.j, row, cfg);
      State(r.0, s.days + [DayRecord(before, Some(Mark(r.0.book, row.bar)), r.1)])
  }

  function Run(rows: seq<Row>, cfg: Config): (s: State)
    requires PositiveRows(rows)
    ensures |s.days| == |rows|
    ensures Sound(s.j, cfg.initialCapital)
  {
    if |rows| == 0 then Init(cfg) else Step(Run(rows[..|rows| - 1], cfg), rows[|rows| - 1], cfg)
  }

  datatype Outcome = Outcome(j: Journal, days: seq<DayRecord>)

  /** `load_data` (ewm ATR), `run_detailed_backtest`, and the final close
      at the last bar's close. */
  function Backtest(bars: seq<Bar>, cfg: Config): (o: Outcome)
    requires ValidConfig(cfg) && PositiveBars(bars)
    ensures |o.days| == |bars|
    ensures o.j.book.size == 0.0
    ensures Sound(o.j, cfg.initialCapital)
    ensures var s := Run(PandasRows(bars, cfg, Rma), cfg);
            && o.days == s.days
            && (|bars| == 0 ==> o.j.trades == [] && o.j.book.equity == cfg.initialCapital)
            && (|bars| > 0 ==> JournalClosedAtEnd(s.j, o.j, bars[|bars| - 1], cfg))
  {
    var rows := PandasRows(bars, cfg, Rma);
    PandasRowsPositive(bars, cfg, Rma);
    var s := Run(rows, cfg);
    if s.j.book.size != 0.0 then
      var last := rows[|rows| - 1].bar;
      Outcome(ExecuteTrade(s.j, Flatten, last.close, last.date, EndOfSeries, cfg), s.days)
    else Outcome(s.j, s.days)
  }

  // ---------------------------------------------------------------------
  // Properties
  // ---------------------------------------------------------------------

  /** BUY while short writes CLOSE_SHORT and then LONG with consecutive
      trade ids, both at `price`. */
  lemma ReversalConsecutiveIds(j: Journal, price: real, date: int, reason: Reason, cfg: Config)
    requires price > 0.0 && j.book.size < 0.0
    ensures var k := ExecuteTrade(j, Buy, price, date, reason, cfg);
            var n := |j.trades|;
            && |k.trades| == n + 2
            && k.trades[n].action == CloseShort && k.trades[n + 1].action == EnterLong
            && k.trades[n].id == j.tradeId + 1 && k.trades[n + 1].id == j.tradeId + 2
            && k.trades[n].price == price == k.trades[n + 1].price
  {
    var j1 := LogClose(j, price, date, ReverseToLong, cfg);
    var k := LogEntry(j1, Long, price, date, reason, cfg);
    assert k.trades[..|j1.trades|] == j1.trades;
    assert k.trades[|j.trades|] == j1.trades[|j.trades|];
  }

  /** BUY while already long replaces the position: the old long's PnL is
      never realised, only the new entry commission leaves equity, and the
      record shows pnl 0. */
  lemma SameDirectionReplaces(j: Journal, price: real, date: int, reason: Reason, cfg: Config)
    requires price > 0.0 && j.book.size > 0.0
    ensures var k := ExecuteTrade(j, Buy, price, date, reason, cfg);
            && |k.trades| == |j.trades| + 1
            && k.trades[|j.trades|].pnl == 0.0
            && k.book.avg == price
            && k.book.equity == j.book.equity - j.book.equity * (cfg.qtyPercent / 100.0) * cfg.commissionRate
  {
  }
}

=== FILE: exactpine.dfy ===
/** `ExactPineScriptStrategy` (exact_pine_script_implementation.py, and its
    identical copy under btc-strategy-web/backend): everything happens on
    the signal bar at the bar's close. Per bar with defined boundaries:
    (1) the stop (`strategy.exit`) is checked first, (2) only if it did not
    fire, a long breakout closes a short and enters long (else a short
    breakout closes a long and enters short), (3) a daily row is written.
    Bars without boundaries are skipped entirely. After the loop an open
    position is closed at the final close. Trades carry no id (0). */
module ExactPine {
  import opened Market
  import opened Indicators
  import opened PositionLedger

  /** `strategy.entry`: an entry in the direction already held is ignored;
      otherwise the position becomes `qtyPercent` percent of equity at the
      bar close, signed by direction, and the commission leaves equity. */
  function StrategyEntry(a: Account, side: Side, close: real, date: int, cfg: Config): (b: Account)
    requires close > 0.0
    ensures Holds(a.book, side) ==> b == a
    ensures !Holds(a.book, side) ==>
              && b.book == Open(a.book, side, close, cfg).after
              && |b.trades| == |a.trades| + 1 && b.trades[..|a.trades|] == a.trades
              && b.trades[|a.trades|].action == (if side == Long then EnterLong else EnterShort)
              && b.trades[|a.trades|].date == date && b.trades[|a.trades|].price == close
    ensures Booked(a.book, cfg.initialCapital, a.trades) ==> Booked(b.book, cfg.initialCapital, b.trades)
  {
    if Holds(a.book, side) then a
    else
      var f := Open(a.book, side, close, cfg);
      var t := EntryRecord(0, date, side, close, f, if side == Long then LongEntry else ShortEntry);
      BookedAppend(a.book, f.after, cfg.initialCapital, a.trades, t);
      assert (a.trades + [t])[..|a.trades|] == a.trades;
      Account(f.after, a.trades + [t])
  }

  /** `strategy.exit(stop=...)`: no stop when flat or when the stop is
      undefined; a long is stopped when the low reaches the stop, a short
      when the high does, and the close is at exactly the stop price. */
  function StrategyExit(a: Account, bar: Bar, stop: Option<real>, cfg: Config): (r: (Account, bool))
    ensures r.1 <==> a.book.size != 0.0 && stop.Some?
                     && (if a.book.size > 0.0 then bar.low <= stop.value else bar.high >= stop.value)
    ensures !r.1 ==> r.0 == a
    ensures r.1 ==> r.0 == CloseOut(a, stop.value, bar.date, StopLoss, cfg)
    ensures Booked(a.book, cfg.initialCapital, a.trades) ==> Booked(r.0.book, cfg.initialCapital, r.0.trades)
  {
    if a.book.size == 0.0 || stop.None? then (a, false)
    else if (if a.book.size > 0.0 then bar.low <= stop.value else bar.high >= stop.value) then
      (CloseOut(a, stop.value, bar.date, StopLoss, cfg), true)
    else (a, false)
  }

  datatype State = State(acct: Account, daily: seq<Daily>)

  function Init(cfg: Config): (s: State)
    ensures s.acct.book.size == 0.0 && s.acct.trades == [] && s.daily == []
    ensures Booked(s.acct.book, cfg.initialCapital, s.acct.trades)
  {
    State(Account(Ledger(0.0, 0.0, cfg.initialCapital), []), [])
  }

  /** The stop handed to `strategy.exit` on this bar: avg ∓ atr·mult for an
      open position when ATR is defined. */
  function StopFor(l: Ledger, atr: Option<real>, cfg: Config): (stop: Option<real>)
    ensures stop.Some? <==> atr.Some? && l.size != 0.0
    ensures stop.Some? ==> stop.value == StopLevel(l, atr.value, cfg.stopMult)
  {
    if atr.Some? && l.size != 0.0 then Some(StopLevel(l, atr.value, cfg.stopMult)) else None
  }

  /** The signal block of one bar: long first; the opposite position is
      closed (comment "Reverse to ...") and the entry follows, both at the
      bar close. */
  function Signals(a: Account, row: Row, cfg: Config): (b: Account)
    requires row.bar.close > 0.0
    ensures !GoLong(row) && !GoShort(row) ==> b == a
    ensures GoLong(row) && a.book.size > 0.0 ==> b == a
    ensures GoLong(row) && a.book.size <= 0.0 ==>
              b.book == Open(if a.book.size < 0.0 then Close(a.book, row.bar.close, cfg).after else a.book,
                             Long, row.bar.close, cfg).after
    ensures !GoLong(row) && GoShort(row) && a.book.size < 0.0 ==> b == a
    ensures !GoLong(row) && GoShort(row) && a.book.size >= 0.0 ==>
              b.book == Open(if a.book.size > 0.0 then Close(a.book, row.bar.close, cfg).after else a.book,
                             Short, row.bar.close, cfg).after
    ensures Booked(a.book, cfg.initialCapital, a.trades) ==> Booked(b.book, cfg.initialCapital, b.trades)
    ensures |a.trades| <= |b.trades| && b.trades[..|a.trades|] == a.trades
  {
    var close := row.bar.close;
    var date := row.bar.date;
    if GoLong(row) then
      var a1 := if a.book.size < 0.0 then CloseOut(a, close, date, ReverseToLong, cfg) else a;
      var b := StrategyEntry(a1, Long, close, date, cfg);
      assert b.trades[..|a.trades|] == a1.trades[..|a.trades|];
      b
    else if GoShort(row) then
      var a1 := if a.book.size > 0.0 then CloseOut(a, close, date, ReverseToShort, cfg) else a;
      var b := StrategyEntry(a1, Short, close, date, cfg);
      assert b.trades[..|a.trades|] == a1.trades[..|a.trades|];
      b
    else a
  }

  /** One iteration of `run_exact_backtest`. */
  function Step(s: State, row: Row, cfg: Config): (k: State)
    requires row.bar.close > 0.0
    ensures row.bounds.None? ==> k == s
    ensures row.bounds.Some? ==>
              |k.daily| == |s.daily| + 1 && k.daily[..|s.daily|] == s.daily
              && k.daily[|s.daily|] == Mark(k.acct.book, row.bar)
    ensures row.bounds.Some? ==>
              var stopped := StrategyExit(s.acct, row.bar, StopFor(s.acct.book, row.atr, cfg), cfg);
              k.acct == (if stopped.1 then stopped.0 else Signals(stopped.0, row, cfg))
    ensures |s.acct.trades| <= |k.acct.trades| && k.acct.trades[..|s.acct.trades|] == s.acct.trades
    ensures Booked(s.acct.book, cfg.initialCapital, s.acct.trades)
            ==> Booked(k.acct.book, cfg.initialCapital, k.acct.trades)
  {
    if row.bounds.None? then s
    else
      var stopped := StrategyExit(s.acct, row.bar, StopFor(s.acct.book, row.atr, cfg), cfg);
      var a := if stopped.1 then stopped.0 else Signals(stopped.0, row, cfg);
      assert a.trades[..|s.acct.trades|] == s.acct.trades;
      State(a, s.daily + [Mark(a.book, row.bar)])
  }

  function Run(rows: seq<Row>, cfg: Config): (s: State)
    requires PositiveRows(rows)
    ensures |s.daily| == CountDefined(rows)
    ensures Booked(s.acct.book, cfg.initialCapital, s.acct.trades)
  {
    if |rows| == 0 then Init(cfg) else Step(Run(rows[..|rows| - 1], cfg), rows[|rows| - 1], cfg)
  }

  datatype Outcome = Outcome(book: Ledger, trades: seq<Trade>, daily: seq<Daily>)

  /** `load_and_prepare_data` (ewm ATR) then `run_exact_backtest`, with the
      final `strategy.close("Final")` at the last bar's close. */
  function Backtest(bars: seq<Bar>, cfg: Config): (o: Outcome)
    requires ValidConfig(cfg) && PositiveBars(bars)
    ensures o.book.size == 0.0
    ensures o.book.equity == cfg.initialCapital + SumNet(o.trades)
    ensures |o.daily| == if |bars| <= cfg.lookback then 0 else |bars| - cfg.lookback
    ensures var s := Run(PandasRows(bars, cfg, Rma), cfg);
            && o.daily == s.daily
            && (|bars| == 0 ==> o.trades == [] && o.book.equity == cfg.initialCapital)
            && (|bars| > 0 ==> ClosedAtEnd(s.acct, Account(o.book, o.trades), bars[|bars| - 1], cfg))
  {
    var rows := PandasRows(bars, cfg, Rma);
    RunDailyCount(bars, cfg);
    var s := Run(rows, cfg);
    var a := CloseAtEnd(s.acct, bars, cfg);
    Outcome(a.book, a.trades, s.daily)
  }

  // ---------------------------------------------------------------------
  // Properties
  // ---------------------------------------------------------------------

  lemma RunPrefix(rows: seq<Row>, n: nat, cfg: Config)
    requires PositiveRows(rows) && n < |rows|
    ensures PositiveRows(rows[..n]) && PositiveRows(rows[..n + 1])
    ensures Run(rows[..n + 1], cfg) == Step(Run(rows[..n], cfg), rows[n], cfg)
  {
    assert rows[..n + 1][..n] == rows[..n];
  }

  /** The whole run writes one daily row per bar from bar `lookback` on. */
  lemma RunDailyCount(bars: seq<Bar>, cfg: Config)
    requires ValidConfig(cfg) && PositiveBars(bars)
    ensures PositiveRows(PandasRows(bars, cfg, Rma))
    ensures |Run(PandasRows(bars, cfg, Rma), cfg).daily| == if |bars| <= cfg.lookback then 0 else |bars| - cfg.lookback
  {
    var rows := PandasRows(bars, cfg, Rma);
    PandasRowsPositive(bars, cfg, Rma);
    DefinedFromLookback(bars, cfg, Rma, |bars|);
    assert rows[..|bars|] == rows;
  }

  /** Bars before `lookback` are skipped: the state is still the initial one. */
  lemma {:induction false} Quiet(bars: seq<Bar>, cfg: Config, n: nat)
    requires ValidConfig(cfg) && PositiveBars(bars) && n <= cfg.lookback && n <= |bars|
    ensures PositiveRows(PandasRows(bars, cfg, Rma)[..n])
    ensures Run(PandasRows(bars, cfg, Rma)[..n], cfg) == Init(cfg)
  {
    var rows := PandasRows(bars, cfg, Rma);
    PandasRowsPositive(bars, cfg, Rma);
    if n > 0 {
      Quiet(bars, cfg, n - 1);
      RunPrefix(rows, n - 1, cfg);
      NoSignalBeforeLookback(bars, cfg, Rma, n - 1);
    }
  }

  /** A series no longer than the lookback never trades. */
  lemma ShortSeriesNoTrades(bars: seq<Bar>, cfg: Config)
    requires ValidConfig(cfg) && PositiveBars(bars) && |bars| <= cfg.lookback
    ensures var o := Backtest(bars, cfg);
            o.trades == [] && o.daily == [] && o.book.equity == cfg.initialCapital
  {
    Quiet(bars, cfg, |bars|);
    assert PandasRows(bars, cfg, Rma)[..|bars|] == PandasRows(bars, cfg, Rma);
  }

  /** A reversal on a bar without a stop appends exactly two records, the
      close of the opposite position and then the entry, both dated the
      bar and priced at its close. */
  lemma ReversalAppendsCloseThenEntry(s: State, row: Row, cfg: Config)
    requires row.bar.close > 0.0 && row.bounds.Some?
    requires !StrategyExit(s.acct, row.bar, StopFor(s.acct.book, row.atr, cfg), cfg).1
    requires (GoLong(row) && s.acct.book.size < 0.0) || (!GoLong(row) && GoShort(row) && s.acct.book.size > 0.0)
    ensures var ts := Step(s, row, cfg).acct.trades;
            var n := |s.acct.trades|;
            && |ts| == n + 2
            && ts[n].action == (if GoLong(row) then CloseShort else CloseLong)
            && ts[n + 1].action == (if GoLong(row) then EnterLong else EnterShort)
            && ts[n].date == row.bar.date == ts[n + 1].date
            && ts[n].price == row.bar.close == ts[n + 1].price
  {
    var side := if GoLong(row) then Long else Short;
    var a1 := CloseOut(s.acct, row.bar.close, row.bar.date,
                            if side == Long then ReverseToLong else ReverseToShort, cfg);
    assert !Holds(a1.book, side);
    var b := StrategyEntry(a1, side, row.bar.close, row.bar.date, cfg);
    assert Signals(s.acct, row, cfg) == b;
    assert b.trades[..|a1.trades|] == a1.trades;
    assert b.trades[|s.acct.trades|] == a1.trades[|s.acct.trades|];
  }

  /** On a bar where the stop fires nothing is entered: exactly one record
      is appended, the stop close, and the bar ends flat. */
  lemma StopBarNoEntry(s: State, row: Row, cfg: Config)
    requires row.bar.close > 0.0 && row.bounds.Some?
    requires StrategyExit(s.acct, row.bar, StopFor(s.acct.book, row.atr, cfg), cfg).1
    ensures var k := Step(s, row, cfg);
            && |k.acct.trades| == |s.acct.trades| + 1
            && k.acct.trades[|s.acct.trades|].reason == StopLoss
            && k.acct.trades[|s.acct.trades|].price == StopLevel(s.acct.book, row.atr.value, cfg.stopMult)
            && k.acct.trades[|s.acct.trades|].date == row.bar.date
            && k.acct.book.size == 0.0
            && k.daily[|s.daily|].total == k.acct.book.equity
  {
  }
}

=== FILE: fixedpine.dfy ===
/** `FixedPineScriptStrategy` (fixed_pine_script_backtest.py): trades on
    the signal bar at the breakout boundary. Per bar: the stop is checked
    first; only if it did not fire, the strategy logic runs (a long
    breakout closes a short and enters long at max(open, upper); else a
    short breakout closes a long and enters short at min(open, lower));
    exactly one daily row is written per bar. An open position is closed
    at the last bar's close. */
module FixedPine {
  import opened Market
  import opened Indicators
  import opened PositionLedger

  /** The `action` column of the daily row. */
  datatype BarAction = NoData | StopOut | LongEntered | ShortEntered | Hold

  /** `execute_strategy_logic`. */
  function Logic(j: Journal, row: Row, cfg: Config): (r: (Journal, BarAction))
    requires PositiveBar(row.bar)
    ensures row.bounds.None? ==> r == (j, NoData)
    ensures GoLong(row) && j.book.size > 0.0 ==> r == (j, Hold)
    ensures !GoLong(row) && GoShort(row) && j.book.size < 0.0 ==> r == (j, Hold)
    ensures row.bounds.Some? && !GoLong(row) && !GoShort(row) ==> r == (j, Hold)
    ensures GoLong(row) && j.book.size <= 0.0 ==>
              var p := Max(row.bar.open, row.bounds.value.upper);
              && r.1 == LongEntered
              && r.0.book == Open(if j.book.size < 0.0 then Close(j.book, p, cfg).after else j.book, Long, p, cfg).after
              && (forall k :: |j.trades| <= k < |r.0.trades| ==> r.0.trades[k].price == p)
    ensures !GoLong(row) && GoShort(row) && j.book.size >= 0.0 ==>
              var p := Min(row.bar.open, row.bounds.value.lower);
              && r.1 == ShortEntered
              && r.0.book == Open(if j.book.size > 0.0 then Close(j.book, p, cfg).after else j.book, Short, p, cfg).after
              && (forall k :: |j.trades| <= k < |r.0.trades| ==> r.0.trades[k].price == p)
    ensures |j.trades| <= |r.0.trades| && r.0.trades[..|j.trades|] == j.trades
    ensures Sound(j, cfg.initialCapital) ==> Sound(r.0, cfg.initialCapital)
  {
    if row.bounds.None? then (j, NoData)
    else if GoLong(row) then
      var p := Max(row.bar.open, row.bounds.value.upper);
      var j1 := if j.book.size < 0.0 then LogClose(j, p, row.bar.date, ReverseToLong, cfg) else j;
      if j1.book.size <= 0.0 then
        var k := LogEntry(j1, Long, p, row.bar.date, LongEntry, cfg);
        assert k.trades[..|j.trades|] == j1.trades[..|j.trades|];
        (k, LongEntered)
      else (j1, Hold)
    else if GoShort(row) then
      var p := Min(row.bar.open, row.bounds.value.lower);
      ShortBreakoutPricePositive(row);
      var j1 := if j.book.size > 0.0 then LogClose(j, p, row.bar.date, ReverseToShort, cfg) else j;
      if j1.book.size >= 0.0 then
        var k := LogEntry(j1, Short, p, row.bar.date, ShortEntry, cfg);
        assert k.trades[..|j.trades|] == j1.trades[..|j.trades|];
        (k, ShortEntered)
      else (j1, Hold)
    else (j, Hold)
  }

  datatype State = State(j: Journal, daily: seq<Daily>, actions: seq<BarAction>)

  function Init(cfg: Config): (s: State)
    ensures Sound(s.j, cfg.initialCapital) && s.j.trades == [] && s.daily == [] && s.actions == []
  {
    State(Journal(Ledger(0.0, 0.0, cfg.initialCapital), 0, []), [], [])
  }

  /** One iteration of `run_fixed_backtest`: stop first, the strategy
      logic only when no stop fired, then one daily row. */
  function Step(s: State, row: Row, cfg: Config): (k: State)
    requires PositiveBar(row.bar)
    ensures |k.daily| == |s.daily| + 1 && k.daily[..|s.daily|] == s.daily
    ensures k.daily[|s.daily|] == Mark(k.j.book, row.bar)
    ensures |k.actions| == |s.actions| + 1 && k.actions[..|s.actions|] == s.actions
    ensures CheckStop(s.j, row.bar, row.atr, cfg).1 ==>
              k.j == CheckStop(s.j, row.bar, row.atr, cfg).0 && k.actions[|s.actions|] == StopOut
    ensures !CheckStop(s.j, row.bar, row.atr, cfg).1 ==>
              (k.j, k.actions[|s.actions|]) == Logic(s.j, row, cfg)
    ensures |s.j.trades| <= |k.j.trades| && k.j.trades[..|s.j.trades|] == s.j.trades
    ensures Sound(s.j, cfg.initialCapital) ==> Sound(k.j, cfg.initialCapital)
  {
    var stopped := CheckStop(s.j, row.bar, row.atr, cfg);
    var r := if stopped.1 then (stopped.0, StopOut) else Logic(s.j, row, cfg);
    State(r.0, s.daily + [Mark(r.0.book, row.bar)], s.actions + [r.1])
  }

  /** One daily row and one action per bar, in bar order; a bar without
      boundaries is logged NO_DATA unless a stop fired on it. */
  predicate Logged(s: State, rows: seq<Row>)
  {
    && |s.daily| == |rows| && |s.actions| == |rows|
    && (forall k :: 0 <= k < |rows| ==> s.daily[k].date == rows[k].bar.date)
    && (forall k :: 0 <= k < |rows| && rows[k].bounds.None? ==> s.actions[k] == NoData || s.actions[k] == StopOut)
  }

  lemma StepLogged(prev: State, rows: seq<Row>, cfg: Config)
    requires |rows| > 0 && PositiveBar(rows[|rows| - 1].bar)
    requires Logged(prev, rows[..|rows| - 1])
    ensures Logged(Step(prev, rows[|rows| - 1], cfg), rows)
  {
    var s := Step(prev, rows[|rows| - 1], cfg);
    assert forall k :: 0 <= k < |prev.daily| ==> s.daily[k] == prev.daily[k];
    assert forall k :: 0 <= k < |prev.actions| ==> s.actions[k] == prev.actions[k];
  }

  function Run(rows: seq<Row>, cfg: Config): (s: State)
    requires PositiveRows(rows)
    ensures Logged(s, rows)
    ensures Sound(s.j, cfg.initialCapital)
  {
    if |rows| == 0 then Init(cfg)
    else
      var prev := Run(rows[..|rows| - 1], cfg);
      StepLogged(prev, rows, cfg);
      Step(prev, rows[|rows| - 1], cfg)
  }

  datatype Outcome = Outcome(j: Journal, daily: seq<Daily>, actions: seq<BarAction>)

  /** `load_data` (ewm ATR) then `run_fixed_backtest` with the final close. */
  function Backtest(bars: seq<Bar>, cfg: Config): (o: Outcome)
    requires ValidConfig(cfg) && PositiveBars(bars)
    ensures |o.daily| == |bars| && |o.actions| == |bars|
    ensures o.j.book.size == 0.0
    ensures Sound(o.j, cfg.initialCapital)
    ensures var s := Run(PandasRows(bars, cfg, Rma), cfg);
            && o.daily == s.daily && o.actions == s.actions
            && (|bars| == 0 ==> o.j.trades == [] && o.j.book.equity == cfg.initialCapital)
            && (|bars| > 0 ==> JournalClosedAtEnd(s.j, o.j, bars[|bars| - 1], cfg))
  {
    var rows := PandasRows(bars, cfg, Rma);
    PandasRowsPositive(bars, cfg, Rma);
    var s := Run(rows, cfg);
    Outcome(JournalCloseAtEnd(s.j, bars, cfg), s.daily, s.actions)
  }

  /** A long breakout while short closes the short and enters long at the
      same price, max(open, upper), on the same bar with consecutive ids. */
  lemma ReversalAtBoundary(j: Journal, row: Row, cfg: Config)
    requires PositiveBar(row.bar) && GoLong(row) && j.book.size < 0.0
    ensures var k := Logic(j, row, cfg).0;
            var n := |j.trades|;
            var p := Max(row.bar.open, row.bounds.value.upper);
            && |k.trades| == n + 2
            && k.trades[n].action == CloseShort && k.trades[n + 1].action == EnterLong
            && k.trades[n].price == p == k.trades[n + 1].price
            && k.trades[n].date == row.bar.date == k.trades[n + 1].date
            && k.trades[n + 1].id == k.trades[n].id + 1
  {
    var p := Max(row.bar.open, row.bounds.value.upper);
    var j1 := LogClose(j, p, row.bar.date, ReverseToLong, cfg);
    var k := LogEntry(j1, Long, p, row.bar.date, LongEntry, cfg);
    assert Logic(j, row, cfg).0 == k;
    assert k.trades[..|j1.trades|] == j1.trades;
    assert k.trades[|j.trades|] == j1.trades[|j.trades|];
  }
}

=== FILE: indicators.dfy ===
/** The indicator layer: pure functions of the bar history.

    - the previous-window highest high / lowest low and the breakout
      boundaries `open ± range·range_mult`;
    - the true range, in its pandas form (row 0 is `high - low`, because the
      row-wise max skips the missing previous close) and its numpy form
      (row 0 stays 0);
    - four ATR variants: the `ewm(alpha=1/period, adjust=False)` RMA, the
      SMA-seeded RMA, the pandas rolling mean and the numpy rolling mean.

    pandas' `rolling(...)`, `shift(1)` and `ewm(...)` are restated as explicit
    windows and recurrences; NaN is `None`. */
module Indicators {
  import opened Market

  // ---------------------------------------------------------------------
  // Previous-window extremes and breakout boundaries
  // ---------------------------------------------------------------------

  /** The highest high over the bars with index in [lo, hi). */
  function WindowHigh(bars: seq<Bar>, lo: nat, hi: nat): (m: real)
    requires lo < hi <= |bars|
    ensures forall k :: lo <= k < hi ==> bars[k].high <= m
    ensures exists k :: lo <= k < hi && bars[k].high == m
    decreases hi - lo
  {
    if hi == lo + 1 then bars[lo].high else Max(bars[hi - 1].high, WindowHigh(bars, lo, hi - 1))
  }

  /** The lowest low over the bars with index in [lo, hi). */
  function WindowLow(bars: seq<Bar>, lo: nat, hi: nat): (m: real)
    requires lo < hi <= |bars|
    ensures forall k :: lo <= k < hi ==> m <= bars[k].low
    ensures exists k :: lo <= k < hi && bars[k].low == m
    decreases hi - lo
  {
    if hi == lo + 1 then bars[lo].low else Min(bars[hi - 1].low, WindowLow(bars, lo, hi - 1))
  }

  /** The window extremes depend on nothing but the bars inside the window. */
  lemma {:induction false} WindowLocal(bars: seq<Bar>, bars': seq<Bar>, lo: nat, hi: nat)
    requires lo < hi <= |bars| && hi <= |bars'|
    requires bars[lo..hi] == bars'[lo..hi]
    ensures WindowHigh(bars, lo, hi) == WindowHigh(bars', lo, hi)
    ensures WindowLow(bars, lo, hi) == WindowLow(bars', lo, hi)
    decreases hi - lo
  {
    assert bars[hi - 1] == bars[lo..hi][hi - 1 - lo] == bars'[hi - 1];
    if hi > lo + 1 {
      assert bars[lo..hi - 1] == bars[lo..hi][..hi - 1 - lo] == bars'[lo..hi - 1];
      WindowLocal(bars, bars', lo, hi - 1);
    }
  }

  datatype Bounds = Bounds(highest: real, lowest: real, upper: real, lower: real)

  /** The boundaries of bar i computed from the window [lo, i): the
      breakout range is highest - lowest, and the boundaries sit
      range·mult above and below bar i's open. */
  function BoundsOver(bars: seq<Bar>, lo: nat, i: nat, mult: real): (b: Bounds)
    requires lo < i < |bars|
    ensures forall k :: lo <= k < i ==> bars[k].high <= b.highest && b.lowest <= bars[k].low
    ensures (exists k :: lo <= k < i && bars[k].high == b.highest)
         && (exists k :: lo <= k < i && bars[k].low == b.lowest)
    ensures b.upper - bars[i].open == (b.highest - b.lowest) * mult
    ensures bars[i].open - b.lower == (b.highest - b.lowest) * mult
  {
    Around(WindowHigh(bars, lo, i), WindowLow(bars, lo, i), bars[i].open, mult)
  }

  /** Boundaries range·mult above and below `open`. */
  function Around(hh: real, ll: real, open: real, mult: real): Bounds
  {
    Bounds(hh, ll, open + (hh - ll) * mult, open - (hh - ll) * mult)
  }

  /** `rolling(window=lookback).max().shift(1)` (and the min twin), turned
      into boundaries: defined exactly from bar `lookback` on, over the
      `lookback` bars before bar i. */
  function ShiftedBounds(bars: seq<Bar>, lookback: nat, mult: real, i: nat): (r: Option<Bounds>)
    requires 0 < lookback && i < |bars|
    ensures r.Some? <==> lookback <= i
    ensures r.Some? ==> r.value == BoundsOver(bars, i - lookback, i, mult)
  {
    if i >= lookback then Some(BoundsOver(bars, i - lookback, i, mult)) else None
  }

  /** The boundaries of bar i never read bar i's own high, low or close, nor
      any later bar: two histories that agree before bar i and on bar i's
      open have the same boundaries at bar i. */
  lemma BoundsNoLookahead(bars: seq<Bar>, bars': seq<Bar>, lookback: nat, mult: real, i: nat)
    requires 0 < lookback && i < |bars| && i < |bars'|
    requires bars[..i] == bars'[..i] && bars[i].open == bars'[i].open
    ensures ShiftedBounds(bars, lookback, mult, i) == ShiftedBounds(bars', lookback, mult, i)
  {
    if i >= lookback {
      var lo := i - lookback;
      assert bars[lo..i] == bars'[lo..i] by {
        assert bars[lo..i] == bars[..i][lo..];
        assert bars'[lo..i] == bars'[..i][lo..];
      }
      WindowLocal(bars, bars', lo, i);
    } else {
      assert ShiftedBounds(bars, lookback, mult, i).None? && ShiftedBounds(bars', lookback, mult, i).None?;
    }
  }

  // ---------------------------------------------------------------------
  // Signals
  // ---------------------------------------------------------------------

  /** One bar as the engines see it after indicator preparation. */
  datatype Row = Row(bar: Bar, bounds: Option<Bounds>, atr: Option<real>)

  /** `high > upper_boundary`; a comparison with NaN is False. */
  predicate GoLong(r: Row)
  {
    r.bounds.Some? && r.bar.high > r.bounds.value.upper
  }

  /** `low < lower_boundary`; a comparison with NaN is False. */
  predicate GoShort(r: Row)
  {
    r.bounds.Some? && r.bar.low < r.bounds.value.lower
  }

  predicate PositiveRows(rows: seq<Row>)
  {
    forall i :: 0 <= i < |rows| ==> PositiveBar(rows[i].bar)
  }

  /** A short breakout on a positive bar has a positive lower boundary, so an
      entry at min(open, lower) never divides by a non-positive price. */
  lemma ShortBreakoutPricePositive(r: Row)
    requires PositiveBar(r.bar) && GoShort(r)
    ensures Min(r.bar.open, r.bounds.value.lower) > 0.0
  {
  }

  // ---------------------------------------------------------------------
  // True range and ATR
  // ---------------------------------------------------------------------

  /** pandas' true range: the row-wise max of high-low, |high-prev close|
      and |low-prev close|, which at bar 0 skips the two NaN terms. */
  function TrueRange(bars: seq<Bar>, i: nat): (tr: real)
    requires i < |bars|
    ensures i == 0 ==> tr == bars[0].high - bars[0].low
    ensures 0 < i ==> (tr >= bars[i].high - bars[i].low
                       && tr >= Abs(bars[i].high - bars[i - 1].close)
                       && tr >= Abs(bars[i].low - bars[i - 1].close))
    ensures 0 < i ==> (tr == bars[i].high - bars[i].low
                       || tr == Abs(bars[i].high - bars[i - 1].close)
                       || tr == Abs(bars[i].low - bars[i - 1].close))
  {
    if i == 0 then bars[0].high - bars[0].low
    else
      var prev := bars[i - 1].close;
      Max(Max(bars[i].high - bars[i].low, Abs(bars[i].high - prev)), Abs(bars[i].low - prev))
  }

  /** The true-range column: pandas' form when `zeroFirst` is false, the
      numpy scripts' array (whose `tr[0]` is never assigned and stays 0)
      when it is true. */
  function TrSeries(bars: seq<Bar>, zeroFirst: bool): (tr: seq<real>)
    ensures |tr| == |bars|
    ensures forall i :: 0 <= i < |bars| ==> tr[i] == (if zeroFirst && i == 0 then 0.0 else TrueRange(bars, i))
  {
    seq(|bars|, i requires 0 <= i < |bars| => if zeroFirst && i == 0 then 0.0 else TrueRange(bars, i))
  }

  /** The sum of xs[lo..hi). */
  function Sum(xs: seq<real>, lo: nat, hi: nat): real
    requires lo <= hi <= |xs|
    decreases hi - lo
  {
    if lo == hi then 0.0 else Sum(xs, lo, hi - 1) + xs[hi - 1]
  }

  /** Adding one more value of [a, b] to a sum of n such values. */
  lemma SumStepBetween(n: real, sum: real, x: real, a: real, b: real)
    requires n * a <= sum <= n * b && a <= x <= b
    ensures (n + 1.0) * a <= sum + x <= (n + 1.0) * b
  {
  }

  /** A sum of values that all lie in [a, b] lies in [n·a, n·b]. */
  lemma {:induction false} SumBetween(xs: seq<real>, lo: nat, hi: nat, a: real, b: real)
    requires lo <= hi <= |xs|
    requires forall k :: lo <= k < hi ==> a <= xs[k] <= b
    ensures (hi - lo) as real * a <= Sum(xs, lo, hi) <= (hi - lo) as real * b
    decreases hi - lo
  {
    if lo < hi {
      SumBetween(xs, lo, hi - 1, a, b);
      var n := (hi - 1 - lo) as real;
      SumStepBetween(n, Sum(xs, lo, hi - 1), xs[hi - 1], a, b);
      assert (hi - lo) as real == n + 1.0;
    }
  }

  /** Dividing an interval [p·a, p·b] by p > 0. */
  lemma DivBetween(s: real, p: real, a: real, b: real)
    requires p > 0.0 && p * a <= s <= p * b
    ensures a <= s / p <= b
  {
  }

  /** The mean of `period` values that all lie in [a, b] lies in [a, b]. */
  lemma MeanBetween(xs: seq<real>, lo: nat, period: nat, a: real, b: real)
    requires 0 < period && lo + period <= |xs|
    requires forall k :: lo <= k < lo + period ==> a <= xs[k] <= b
    ensures a <= Sum(xs, lo, lo + period) / period as real <= b
  {
    SumBetween(xs, lo, lo + period, a, b);
    assert (lo + period - lo) as real == period as real;
    DivBetween(Sum(xs, lo, lo + period), period as real, a, b);
  }

  /** pandas `ewm(alpha=1/period, adjust=False).mean()` of a series: seeded
      with its first value, then y[i] = y[i-1]·(1 - 1/period) + x[i]·(1/period). */
  function Rma(xs: seq<real>, period: nat, i: nat): real
    requires 0 < period && i < |xs|
  {
    if i == 0 then xs[0]
    else
      var alpha := 1.0 / period as real;
      Rma(xs, period, i - 1) * (1.0 - alpha) + xs[i] * alpha
  }

  /** (prev·(p-1) + x)/p = prev·(1 - 1/p) + x·(1/p). */
  lemma PineRmaForm(prev: real, x: real, p: real)
    requires p > 0.0
    ensures (prev * (p - 1.0) + x) / p == prev * (1.0 - 1.0 / p) + x * (1.0 / p)
  {
  }

  /** Pine's RMA step: y = (prev·(period-1) + x) / period. */
  function RmaStep(prev: real, x: real, period: nat): real
    requires 0 < period
  {
    (prev * (period - 1) as real + x) / period as real
  }

  /** The ewm recurrence is Pine's RMA recurrence
      y[i] = (y[i-1]·(period-1) + x[i]) / period. */
  lemma RmaPineForm(xs: seq<real>, period: nat, i: nat)
    requires 0 < period && 0 < i < |xs|
    ensures Rma(xs, period, i) == RmaStep(Rma(xs, period, i - 1), xs[i], period)
  {
    PineRmaForm(Rma(xs, period, i - 1), xs[i], period as real);
    assert (period - 1) as real == period as real - 1.0;
  }

  lemma MulNonneg(x: real, y: real)
    requires x >= 0.0 && y >= 0.0
    ensures x * y >= 0.0
  {
  }

  /** One RMA step keeps a value inside any interval holding both inputs. */
  lemma RmaStepBetween(prev: real, x: real, alpha: real, a: real, b: real)
    requires 0.0 < alpha <= 1.0
    requires a <= prev <= b && a <= x <= b
    ensures a <= prev * (1.0 - alpha) + x * alpha <= b
  {
    MulNonneg(prev - a, 1.0 - alpha);
    MulNonneg(b - prev, 1.0 - alpha);
    MulNonneg(x - a, alpha);
    MulNonneg(b - x, alpha);
  }

  /** The same for Pine's form of the step. */
  lemma RmaStepStays(prev: real, x: real, period: nat, a: real, b: real)
    requires 0 < period && a <= prev <= b && a <= x <= b
    ensures a <= RmaStep(prev, x, period) <= b
  {
    var p := period as real;
    assert 0.0 < 1.0 / p <= 1.0;
    RmaStepBetween(prev, x, 1.0 / p, a, b);
    PineRmaForm(prev, x, p);
    assert (period - 1) as real == p - 1.0;
  }

  /** The RMA is a running weighted average: whenever every input up to
      index i lies in [a, b], so does the average at i. */
  lemma {:induction false} RmaBetween(xs: seq<real>, period: nat, i: nat, a: real, b: real)
    requires 0 < period && i < |xs|
    requires forall k :: 0 <= k <= i ==> a <= xs[k] <= b
    ensures a <= Rma(xs, period, i) <= b
  {
    if i > 0 {
      RmaBetween(xs, period, i - 1, a, b);
      var alpha := 1.0 / period as real;
      assert 0.0 < alpha <= 1.0;
      RmaStepBetween(Rma(xs, period, i - 1), xs[i], alpha, a, b);
    }
  }

  /** The numpy SMA-seeded RMA: 0 before index `period`, the mean of
      x[1..period] at index `period`, then
      y[i] = (y[i-1]·(period-1) + x[i]) / period. */
  function SeededRma(xs: seq<real>, period: nat, i: nat): real
    requires 0 < period && i < |xs|
  {
    if i < period then 0.0
    else if i == period then Sum(xs, 1, period + 1) / period as real
    else RmaStep(SeededRma(xs, period, i - 1), xs[i], period)
  }

  /** From index `period` on, the seeded RMA is a weighted average of
      x[1..i]: it lies in any interval holding all of them. */
  lemma {:induction false} SeededRmaBetween(xs: seq<real>, period: nat, i: nat, a: real, b: real)
    requires 0 < period <= i < |xs|
    requires forall k :: 1 <= k <= i ==> a <= xs[k] <= b
    ensures a <= SeededRma(xs, period, i) <= b
  {
    if i == period {
      MeanBetween(xs, 1, period, a, b);
    } else {
      SeededRmaBetween(xs, period, i - 1, a, b);
      RmaStepStays(SeededRma(xs, period, i - 1), xs[i], period, a, b);
    }
  }

  /** The mean of the `period` values ending at index i. */
  function TrailingMean(xs: seq<real>, period: nat, i: nat): real
    requires 0 < period && period <= i + 1 && i < |xs|
  {
    Sum(xs, i + 1 - period, i + 1) / period as real
  }

  /** A trailing mean lies in any interval holding its window. */
  lemma TrailingMeanBetween(xs: seq<real>, period: nat, i: nat, a: real, b: real)
    requires 0 < period && period <= i + 1 && i < |xs|
    requires forall k :: i + 1 - period <= k <= i ==> a <= xs[k] <= b
    ensures a <= TrailingMean(xs, period, i) <= b
  {
    MeanBetween(xs, i + 1 - period, period, a, b);
  }

  /** `calculate_atr` / `ta_atr` of the pandas engines: the ewm RMA of the
      pandas true range, defined from bar 0. */
  function AtrRma(bars: seq<Bar>, period: nat, i: nat): real
    requires 0 < period && i < |bars|
  {
    Rma(TrSeries(bars, false), period, i)
  }

  /** `calculate_atr` of pine_script_backtest / correct_pine_backtest: the
      SMA-seeded RMA over the numpy true-range array. */
  function AtrSeeded(bars: seq<Bar>, period: nat, i: nat): real
    requires 0 < period && i < |bars|
  {
    SeededRma(TrSeries(bars, true), period, i)
  }

  /** `calculate_atr` of btc_strategy_backtest:
      `true_range.rolling(window=period).mean()`, NaN before bar period-1. */
  function AtrSma(bars: seq<Bar>, period: nat, i: nat): (r: Option<real>)
    requires 0 < period && i < |bars|
    ensures r.Some? <==> period <= i + 1
  {
    if period <= i + 1 then Some(TrailingMean(TrSeries(bars, false), period, i)) else None
  }

  /** `simple_atr` of simple_pine_backtest: 0 before bar `period`, then the
      mean of tr[i-period+1..i] (the `max(0, ...)` guard never bites there). */
  function AtrSimple(bars: seq<Bar>, period: nat, i: nat): real
    requires 0 < period && i < |bars|
  {
    if i < period then 0.0 else TrailingMean(TrSeries(bars, true), period, i)
  }

  // ---------------------------------------------------------------------
  // Prepared rows
  // ---------------------------------------------------------------------

  /** Which ATR a pandas engine attaches to its rows. */
  datatype AtrKind = Rma | Sma

  function AtrOf(bars: seq<Bar>, period: nat, kind: AtrKind, i: nat): Option<real>
    requires 0 < period && i < |bars|
  {
    match kind
    case Rma => Some(AtrRma(bars, period, i))
    case Sma => AtrSma(bars, period, i)
  }

  /** Row i of a prepared dataframe: the bar itself; boundaries that exist
      exactly from bar `lookback` on, whose extremes bound and are attained
      in the `lookback` bars before bar i and which sit range·mult either
      side of bar i's open; and an ATR that the ewm defines from bar 0 and
      the rolling mean exactly from bar period-1, with the value of that
      ATR (`AtrRma` or `AtrSma`). */
  predicate Prepared(bars: seq<Bar>, rows: seq<Row>, cfg: Config, kind: AtrKind, i: nat)
    requires i < |bars| && i < |rows| && 0 < cfg.atrPeriod
  {
    && rows[i].bar == bars[i]
    && (rows[i].bounds.Some? <==> cfg.lookback <= i)
    && (rows[i].bounds.Some? ==>
          var b := rows[i].bounds.value;
          && (forall k :: i - cfg.lookback <= k < i ==> bars[k].high <= b.highest && b.lowest <= bars[k].low)
          && (exists k :: i - cfg.lookback <= k < i && bars[k].high == b.highest)
          && (exists k :: i - cfg.lookback <= k < i && bars[k].low == b.lowest)
          && b.upper - bars[i].open == bars[i].open - b.lower == (b.highest - b.lowest) * cfg.rangeMult)
    && (rows[i].atr.Some? <==> kind.Rma? || cfg.atrPeriod <= i + 1)
    && rows[i].atr == AtrOf(bars, cfg.atrPeriod, kind, i)
  }

  /** The dataframe columns a pandas engine prepares before its loop. */
  function PandasRows(bars: seq<Bar>, cfg: Config, kind: AtrKind): (rows: seq<Row>)
    requires ValidConfig(cfg)
    ensures |rows| == |bars|
    ensures forall i :: 0 <= i < |bars| ==> Prepared(bars, rows, cfg, kind, i)
  {
    seq(|bars|, i requires 0 <= i < |bars| =>
      Row(bars[i], ShiftedBounds(bars, cfg.lookback, cfg.rangeMult, i), AtrOf(bars, cfg.atrPeriod, kind, i)))
  }

  /** Before `lookback` bars have elapsed neither breakout can fire. */
  lemma NoSignalBeforeLookback(bars: seq<Bar>, cfg: Config, kind: AtrKind, i: nat)
    requires ValidConfig(cfg) && i < |bars|
    ensures i < cfg.lookback ==> !GoLong(PandasRows(bars, cfg, kind)[i]) && !GoShort(PandasRows(bars, cfg, kind)[i])
  {
  }

  /** PandasRows keeps positivity of the bars. */
  lemma PandasRowsPositive(bars: seq<Bar>, cfg: Config, kind: AtrKind)
    requires ValidConfig(cfg) && PositiveBars(bars)
    ensures PositiveRows(PandasRows(bars, cfg, kind))
  {
  }

  /** How many rows have defined boundaries (one output row each in the
      engines that skip undefined rows): none exactly when no row has
      them, all exactly when every row has them. */
  function CountDefined(rows: seq<Row>): (n: nat)
    ensures n <= |rows|
    ensures n == 0 <==> forall k :: 0 <= k < |rows| ==> rows[k].bounds.None?
    ensures n == |rows| <==> forall k :: 0 <= k < |rows| ==> rows[k].bounds.Some?
  {
    if |rows| == 0 then 0
    else
      var init := rows[..|rows| - 1];
      assert forall k :: 0 <= k < |init| ==> init[k] == rows[k];
      CountDefined(init) + (if rows[|rows| - 1].bounds.Some? then 1 else 0)
  }

  lemma CountDefinedSnoc(rows: seq<Row>, n: nat)
    requires n < |rows|
    ensures CountDefined(rows[..n + 1]) == CountDefined(rows[..n]) + (if rows[n].bounds.Some? then 1 else 0)
  {
    assert rows[..n + 1][..n] == rows[..n];
  }

  /** Rows whose boundaries exist exactly from index `lookback` on have
      n - lookback defined rows among the first n (none for n <= lookback). */
  lemma {:induction false} CountFrom(rows: seq<Row>, lookback: nat, n: nat)
    requires n <= |rows|
    requires forall i :: 0 <= i < |rows| ==> (rows[i].bounds.Some? <==> lookback <= i)
    ensures CountDefined(rows[..n]) == if n <= lookback then 0 else n - lookback
  {
    if n == 0 {
      assert rows[..0] == [];
    } else {
      CountFrom(rows, lookback, n - 1);
      CountDefinedSnoc(rows, n - 1);
    }
  }

  /** The prepared rows have boundaries exactly from bar `lookback` on, so
      the first n of them hold n - lookback defined rows. */
  lemma DefinedFromLookback(bars: seq<Bar>, cfg: Config, kind: AtrKind, n: nat)
    requires ValidConfig(cfg) && n <= |bars|
    ensures CountDefined(PandasRows(bars, cfg, kind)[..n]) == if n <= cfg.lookback then 0 else n - cfg.lookback
  {
    var rows := PandasRows(bars, cfg, kind);
    assert forall i :: 0 <= i < |rows| ==> (rows[i].bounds.Some? <==> cfg.lookback <= i) by {
      forall i | 0 <= i < |rows| ensures rows[i].bounds.Some? <==> cfg.lookback <= i {
        assert Prepared(bars, rows, cfg, kind, i);
      }
    }
    CountFrom(rows, cfg.lookback, n);
  }
}

=== FILE: ledger.dfy ===
/** The position ledger shared by the pandas engines: a signed position size
    (> 0 long, < 0 short, 0 flat), its average entry price and the realised
    equity; percent-of-equity entries, flat-rate commission on entry and
    exit, realised and unrealised PnL, and the trade / daily records. */
module PositionLedger {
  import opened Market

  datatype Side = Long | Short

  datatype Ledger = Ledger(size: real, avg: real, equity: real)

  /** `calculate_position_size(_value)`: the quantity whose notional is
      `qtyPercent` percent of equity. */
  function EntryQty(equity: real, qtyPercent: real, price: real): (q: real)
    requires price > 0.0
    ensures q * price == equity * (qtyPercent / 100.0)
  {
    equity * (qtyPercent / 100.0) / price
  }

  /** What one ledger event did: the ledger after it, the quantity traded,
      the realised PnL and the commission charged. */
  datatype Fill = Fill(after: Ledger, qty: real, pnl: real, commission: real)

  /** The other side. */
  function Opposite(side: Side): (o: Side)
    ensures o != side
  {
    if side == Long then Short else Long
  }

  /** Holding against `side` is holding the opposite side. */
  lemma AgainstIsOpposite(l: Ledger, side: Side)
    ensures Against(l, side) <==> Holds(l, Opposite(side))
  {
  }

  /** The position is held against `side`. */
  predicate Against(l: Ledger, side: Side)
  {
    if side == Long then l.size < 0.0 else l.size > 0.0
  }

  /** The position is already held in `side`. */
  predicate Holds(l: Ledger, side: Side)
  {
    if side == Long then l.size > 0.0 else l.size < 0.0
  }

  /** An entry: the whole position is replaced by a fresh one of
      `qtyPercent` percent of equity at `price`; commission on the entry
      notional leaves equity at once. */
  function Open(l: Ledger, side: Side, price: real, cfg: Config): (f: Fill)
    requires price > 0.0
    ensures f.after.avg == price
    ensures f.after.size == (if side == Long then f.qty else -f.qty)
    ensures f.qty * price == l.equity * (cfg.qtyPercent / 100.0)
    ensures f.commission == l.equity * (cfg.qtyPercent / 100.0) * cfg.commissionRate
    ensures f.after.equity == l.equity - f.commission
    ensures f.pnl == 0.0
  {
    var q := EntryQty(l.equity, cfg.qtyPercent, price);
    var c := q * price * cfg.commissionRate;
    Fill(Ledger(if side == Long then q else -q, price, l.equity - c), q, 0.0, c)
  }

  /** The PnL of the open position marked at `price`: (price - avg)·size for
      a long, (avg - price)·|size| for a short, 0 when flat. */
  function Unrealized(l: Ledger, price: real): (u: real)
    ensures u == (price - l.avg) * l.size
  {
    if l.size == 0.0 then 0.0
    else if l.size > 0.0 then (price - l.avg) * l.size
    else (l.avg - price) * Abs(l.size)
  }

  /** A close of the whole position at `price`: the direction-signed PnL is
      realised, commission is charged on the exit notional, and the ledger
      returns to flat. */
  function Close(l: Ledger, price: real, cfg: Config): (f: Fill)
    requires l.size != 0.0
    ensures f.after == Ledger(0.0, 0.0, l.equity + f.pnl - f.commission)
    ensures f.qty == Abs(l.size)
    ensures f.pnl == (price - l.avg) * l.size
    ensures f.commission == Abs(l.size) * price * cfg.commissionRate
  {
    var pnl := if l.size > 0.0 then (price - l.avg) * l.size else (l.avg - price) * Abs(l.size);
    var c := Abs(l.size) * price * cfg.commissionRate;
    Fill(Ledger(0.0, 0.0, l.equity + pnl - c), Abs(l.size), pnl, c)
  }

  /** Marking to market and closing agree: a close at `price` realises
      exactly the unrealised PnL shown at `price`. */
  lemma CloseRealisesUnrealized(l: Ledger, price: real, cfg: Config)
    requires l.size != 0.0
    ensures Close(l, price, cfg).pnl == Unrealized(l, price)
    ensures Close(l, price, cfg).after.equity
         == l.equity + Unrealized(l, price) - Abs(l.size) * price * cfg.commissionRate
  {
  }

  /** An entry at p followed by a close at q changes equity by the signed
      price move on the entry quantity minus both commissions. */
  lemma RoundTrip(l: Ledger, side: Side, p: real, q: real, cfg: Config)
    requires p > 0.0 && l.equity != 0.0 && cfg.qtyPercent != 0.0
    ensures Open(l, side, p, cfg).after.size != 0.0
    ensures var o := Open(l, side, p, cfg);
            var c := Close(o.after, q, cfg);
            c.after.equity
              == l.equity + (if side == Long then q - p else p - q) * o.qty - o.commission - c.commission
  {
    var o := Open(l, side, p, cfg);
    assert o.qty * p != 0.0;
  }

  /** A round trip opened and closed at the same price costs exactly the
      entry commission plus the exit commission, which are equal; with a
      positive rate and a positive notional the loss is strict. */
  lemma RoundTripSamePrice(l: Ledger, side: Side, p: real, cfg: Config)
    requires p > 0.0 && l.equity > 0.0 && cfg.qtyPercent > 0.0
    ensures Open(l, side, p, cfg).after.size != 0.0
    ensures var o := Open(l, side, p, cfg);
            var c := Close(o.after, p, cfg);
            c.commission == o.commission
            && c.after.equity == l.equity - (o.commission + c.commission)
            && (cfg.commissionRate > 0.0 ==> c.after.equity < l.equity)
  {
    RoundTrip(l, side, p, p, cfg);
    var o := Open(l, side, p, cfg);
    var notional := l.equity * (cfg.qtyPercent / 100.0);
    MulPos(l.equity, cfg.qtyPercent / 100.0);
    assert o.qty * p == notional > 0.0;
    assert o.qty > 0.0;
    assert Abs(o.after.size) == o.qty;
    if cfg.commissionRate > 0.0 {
      MulPos(notional, cfg.commissionRate);
    }
  }

  lemma MulPos(x: real, y: real)
    requires x > 0.0 && y > 0.0
    ensures x * y > 0.0
  {
  }

  /** The stop level fixed from the side entered: atr·mult below a long's
      entry price, atr·mult above a short's. */
  function SideStop(side: Side, entry: real, atr: real, mult: real): (stop: real)
    ensures side == Long ==> entry - stop == atr * mult
    ensures side == Short ==> stop - entry == atr * mult
  {
    if side == Long then entry - atr * mult else entry + atr * mult
  }

  /** The stop level of an open position in the engines that key it on the
      sign of the size: avg - atr·mult below a long, avg + atr·mult above
      a short. */
  function StopLevel(l: Ledger, atr: real, mult: real): (stop: real)
    ensures l.size > 0.0 ==> l.avg - stop == atr * mult
    ensures l.size <= 0.0 ==> stop - l.avg == atr * mult
  {
    SideStop(if l.size > 0.0 then Long else Short, l.avg, atr, mult)
  }

  // ---------------------------------------------------------------------
  // Records
  // ---------------------------------------------------------------------

  datatype Action = EnterLong | EnterShort | CloseLong | CloseShort

  /** The free-text reason / comment column, reduced to its cases. */
  datatype Reason = LongEntry | ShortEntry | ReverseToLong | ReverseToShort | StopLoss | EndOfSeries

  /** One trade-log row. `id` is the engine's trade_id (0 in engines that
      keep none); `pnl` is the realised PnL (0 for an entry); `size` is the
      unsigned quantity traded. */
  datatype Trade = Trade(id: nat, date: int, action: Action, price: real, size: real,
                         pnl: real, commission: real, equityAfter: real, reason: Reason)

  /** The `net_pnl` column: realised PnL less commission. */
  function NetPnl(t: Trade): real
  {
    t.pnl - t.commission
  }

  /** Total net PnL of a trade log. */
  function SumNet(ts: seq<Trade>): real
  {
    if |ts| == 0 then 0.0 else SumNet(ts[..|ts| - 1]) + NetPnl(ts[|ts| - 1])
  }

  function EntryRecord(id: nat, date: int, side: Side, price: real, f: Fill, reason: Reason): Trade
  {
    Trade(id, date, if side == Long then EnterLong else EnterShort, price, f.qty, 0.0, f.commission,
          f.after.equity, reason)
  }

  /** `before` is the ledger being closed: its sign names the action. */
  function CloseRecord(id: nat, date: int, before: Ledger, price: real, f: Fill, reason: Reason): Trade
  {
    Trade(id, date, if before.size > 0.0 then CloseLong else CloseShort, price, f.qty, f.pnl, f.commission,
          f.after.equity, reason)
  }

  /** Equity bookkeeping: equity is the initial capital plus the net PnL of
      the whole trade log, and every record's equity_after is the initial
      capital plus the net PnL of the log up to and including it. */
  predicate Booked(l: Ledger, initial: real, ts: seq<Trade>)
  {
    && l.equity == initial + SumNet(ts)
    && forall k :: 0 <= k < |ts| ==> ts[k].equityAfter == initial + SumNet(ts[..k + 1])
  }

  /** Appending a record whose net PnL is exactly the equity change keeps
      the bookkeeping. */
  lemma BookedAppend(l: Ledger, l': Ledger, initial: real, ts: seq<Trade>, t: Trade)
    requires l'.equity == l.equity + NetPnl(t) && t.equityAfter == l'.equity
    ensures Booked(l, initial, ts) ==> Booked(l', initial, ts + [t])
  {
    if Booked(l, initial, ts) {
      var ts' := ts + [t];
      assert ts'[..|ts'| - 1] == ts;
      forall k | 0 <= k < |ts'|
        ensures ts'[k].equityAfter == initial + SumNet(ts'[..k + 1])
      {
        if k < |ts| {
          assert ts'[..k + 1] == ts[..k + 1];
        } else {
          assert ts'[..k + 1] == ts';
        }
      }
    }
  }

  /** Trade ids are consecutive from 1 and the counter equals the log length. */
  predicate Numbered(tradeId: nat, ts: seq<Trade>)
  {
    tradeId == |ts| && forall k :: 0 <= k < |ts| ==> ts[k].id == k + 1
  }

  /** Appending the record with the next id keeps the numbering. */
  lemma NumberedAppend(tradeId: nat, ts: seq<Trade>, t: Trade)
    requires t.id == tradeId + 1
    ensures Numbered(tradeId, ts) ==> Numbered(tradeId + 1, ts + [t])
  {
  }

  /** One daily-log row: the position after the bar and its mark at the
      bar's close; `total` is the `total_equity` column. */
  datatype Daily = Daily(date: int, size: real, avg: real, equity: real, unrealized: real, total: real)

  /** The daily row of a bar: unrealised PnL at the close, without touching
      the stored equity. */
  function Mark(l: Ledger, bar: Bar): (d: Daily)
    ensures d.date == bar.date && d.size == l.size && d.avg == l.avg && d.equity == l.equity
    ensures d.unrealized == (bar.close - l.avg) * l.size
    ensures l.size == 0.0 ==> d.unrealized == 0.0 && d.total == l.equity
    ensures d.total == d.equity + d.unrealized
  {
    var u := Unrealized(l, bar.close);
    Daily(bar.date, l.size, l.avg, l.equity, u, l.equity + u)
  }

  // ---------------------------------------------------------------------
  // The numbered journal of correct_timing_backtest / fixed_pine_script_backtest
  // ---------------------------------------------------------------------

  /** The ledger together with the trade_id counter and the trade log that
      `log_trade` maintains. */
  datatype Journal = Journal(book: Ledger, tradeId: nat, trades: seq<Trade>)

  predicate Sound(j: Journal, initial: real)
  {
    Booked(j.book, initial, j.trades) && Numbered(j.tradeId, j.trades)
  }

  /** `log_trade("LONG" | "SHORT", price, ...)`: one entry record with the
      next trade id. */
  function LogEntry(j: Journal, side: Side, price: real, date: int, reason: Reason, cfg: Config): (k: Journal)
    requires price > 0.0
    ensures k.book == Open(j.book, side, price, cfg).after
    ensures k.tradeId == j.tradeId + 1
    ensures |k.trades| == |j.trades| + 1 && k.trades[..|j.trades|] == j.trades
    ensures var t := k.trades[|j.trades|];
            t.id == j.tradeId + 1 && t.date == date && t.price == price && t.pnl == 0.0
            && t.action == (if side == Long then EnterLong else EnterShort)
            && NetPnl(t) == -t.commission && t.equityAfter == j.book.equity - t.commission
    ensures Booked(j.book, cfg.initialCapital, j.trades) ==> Booked(k.book, cfg.initialCapital, k.trades)
    ensures Sound(j, cfg.initialCapital) ==> Sound(k, cfg.initialCapital)
  {
    var f := Open(j.book, side, price, cfg);
    var t := EntryRecord(j.tradeId + 1, date, side, price, f, reason);
    BookedAppend(j.book, f.after, cfg.initialCapital, j.trades, t);
    NumberedAppend(j.tradeId, j.trades, t);
    assert (j.trades + [t])[..|j.trades|] == j.trades;
    Journal(f.after, j.tradeId + 1, j.trades + [t])
  }

  /** `log_trade("CLOSE", price, ...)`: one close record with the next
      trade id; the position returns to flat. */
  function LogClose(j: Journal, price: real, date: int, reason: Reason, cfg: Config): (k: Journal)
    requires j.book.size != 0.0
    ensures k.book == Ledger(0.0, 0.0, j.book.equity + (price - j.book.avg) * j.book.size
                                       - Abs(j.book.size) * price * cfg.commissionRate)
    ensures k.tradeId == j.tradeId + 1
    ensures |k.trades| == |j.trades| + 1 && k.trades[..|j.trades|] == j.trades
    ensures var t := k.trades[|j.trades|];
            t.id == j.tradeId + 1 && t.date == date && t.price == price
            && t.action == (if j.book.size > 0.0 then CloseLong else CloseShort)
            && t.equityAfter == k.book.equity
    ensures Booked(j.book, cfg.initialCapital, j.trades) ==> Booked(k.book, cfg.initialCapital, k.trades)
    ensures Sound(j, cfg.initialCapital) ==> Sound(k, cfg.initialCapital)
  {
    var f := Close(j.book, price, cfg);
    var t := CloseRecord(j.tradeId + 1, date, j.book, price, f, reason);
    BookedAppend(j.book, f.after, cfg.initialCapital, j.trades, t);
    NumberedAppend(j.tradeId, j.trades, t);
    assert (j.trades + [t])[..|j.trades|] == j.trades;
    Journal(f.after, j.tradeId + 1, j.trades + [t])
  }

  /** `check_stop_loss` of the numbered-journal engines: nothing when flat
      or when ATR is undefined; a long stop fires when the low reaches it,
      a short stop when the high reaches it, and the fill is at exactly the
      stop price. */
  function CheckStop(j: Journal, bar: Bar, atr: Option<real>, cfg: Config): (r: (Journal, bool))
    ensures r.1 <==> j.book.size != 0.0 && atr.Some?
                     && (if j.book.size > 0.0 then bar.low <= j.book.avg - atr.value * cfg.stopMult
                         else bar.high >= j.book.avg + atr.value * cfg.stopMult)
    ensures !r.1 ==> r.0 == j
    ensures r.1 ==> var n := |j.trades|;
                    && r.0.book.size == 0.0
                    && |r.0.trades| == n + 1 && r.0.trades[..n] == j.trades
                    && r.0.trades[n].price == StopLevel(j.book, atr.value, cfg.stopMult)
                    && r.0.trades[n].reason == StopLoss && r.0.trades[n].date == bar.date
                    && r.0.trades[n].pnl == (r.0.trades[n].price - j.book.avg) * j.book.size
    ensures Sound(j, cfg.initialCapital) ==> Sound(r.0, cfg.initialCapital)
  {
    if j.book.size == 0.0 || atr.None? then (j, false)
    else
      var stop := StopLevel(j.book, atr.value, cfg.stopMult);
      var fires := if j.book.size > 0.0 then bar.low <= stop else bar.high >= stop;
      if fires then (LogClose(j, stop, bar.date, StopLoss, cfg), true) else (j, false)
  }

  // ---------------------------------------------------------------------
  // The id-less trade list of the other engines
  // ---------------------------------------------------------------------

  /** The ledger together with a trade list that carries no ids. */
  datatype Account = Account(book: Ledger, trades: seq<Trade>)

  /** `strategy.close` / `close_position` of the engines without trade
      ids: nothing when flat; otherwise the direction-signed PnL less the
      exit commission is realised at `price` and the position returns to
      flat. */
  function CloseOut(a: Account, price: real, date: int, reason: Reason, cfg: Config): (b: Account)
    ensures a.book.size == 0.0 ==> b == a
    ensures a.book.size != 0.0 ==>
              && b.book == Close(a.book, price, cfg).after
              && |b.trades| == |a.trades| + 1 && b.trades[..|a.trades|] == a.trades
              && b.trades[|a.trades|].action == (if a.book.size > 0.0 then CloseLong else CloseShort)
              && b.trades[|a.trades|].date == date && b.trades[|a.trades|].price == price
              && b.trades[|a.trades|].reason == reason
    ensures b.book.size == 0.0
    ensures Booked(a.book, cfg.initialCapital, a.trades) ==> Booked(b.book, cfg.initialCapital, b.trades)
  {
    if a.book.size == 0.0 then a
    else
      var f := Close(a.book, price, cfg);
      var t := CloseRecord(0, date, a.book, price, f, reason);
      BookedAppend(a.book, f.after, cfg.initialCapital, a.trades, t);
      assert (a.trades + [t])[..|a.trades|] == a.trades;
      Account(f.after, a.trades + [t])
  }

  /** The record of an end-of-series close of the position `before`, made
      at `bar`'s close and dated `bar`. */
  predicate EndClose(t: Trade, before: Ledger, bar: Bar)
  {
    && t.action == (if before.size > 0.0 then CloseLong else CloseShort)
    && t.price == bar.close && t.date == bar.date && t.reason == EndOfSeries
  }

  /** The end-of-series close of an id-less account after its run: a run
      that ended flat is returned as it is; otherwise the run's log is
      followed by exactly one end-of-series close at the last bar, and the
      ledger is the one that close leaves. */
  predicate ClosedAtEnd(run: Account, b: Account, last: Bar, cfg: Config)
  {
    && b.book.size == 0.0
    && (run.book.size == 0.0 ==> b == run)
    && (run.book.size != 0.0 ==>
          && b.book == Close(run.book, last.close, cfg).after
          && |b.trades| == |run.trades| + 1 && b.trades[..|run.trades|] == run.trades
          && EndClose(b.trades[|run.trades|], run.book, last))
  }

  /** The end-of-series close at the last of `bars`, none for an empty
      series. */
  function CloseAtEnd(a: Account, bars: seq<Bar>, cfg: Config): (b: Account)
    ensures |bars| == 0 ==> b == a
    ensures |bars| > 0 ==> ClosedAtEnd(a, b, bars[|bars| - 1], cfg)
    ensures Booked(a.book, cfg.initialCapital, a.trades) ==> Booked(b.book, cfg.initialCapital, b.trades)
  {
    if |bars| == 0 then a
    else CloseOut(a, bars[|bars| - 1].close, bars[|bars| - 1].date, EndOfSeries, cfg)
  }

  /** The same for a numbered journal: the close takes the next trade id. */
  predicate JournalClosedAtEnd(run: Journal, b: Journal, last: Bar, cfg: Config)
  {
    && ClosedAtEnd(Account(run.book, run.trades), Account(b.book, b.trades), last, cfg)
    && b.tradeId == run.tradeId + (if run.book.size == 0.0 then 0 else 1)
    && (run.book.size != 0.0 ==> b.trades[|run.trades|].id == run.tradeId + 1)
  }

  /** The end-of-series close of a journal at the last of `bars`, logged
      with the next trade id; none when flat or for an empty series. */
  function JournalCloseAtEnd(j: Journal, bars: seq<Bar>, cfg: Config): (k: Journal)
    ensures |bars| == 0 ==> k == j
    ensures |bars| > 0 ==> JournalClosedAtEnd(j, k, bars[|bars| - 1], cfg)
    ensures Sound(j, cfg.initialCapital) ==> Sound(k, cfg.initialCapital)
  {
    if |bars| == 0 || j.book.size == 0.0 then j
    else LogClose(j, bars[|bars| - 1].close, bars[|bars| - 1].date, EndOfSeries, cfg)
  }

  /** A stop that fires is filled at the bar's extreme, not at the stop
      level: min(stop, low) is the low once low <= stop, max(stop, high) is
      the high once high >= stop; the fill is never better than the stop. */
  lemma StopFillsAtExtreme(stop: real, bar: Bar)
    ensures bar.low <= stop ==> Min(stop, bar.low) == bar.low <= stop
    ensures bar.high >= stop ==> Max(stop, bar.high) == bar.high >= stop
  {
  }
}

=== FILE: market.dfy ===
/** Shared vocabulary of every backtest engine: a daily OHLC bar, an optional
    value standing for a pandas NaN, and the small real-valued helpers the
    engines use (absolute value, maximum, minimum). */
module Market {

  /** `None` plays the role of pandas NaN / Python None. */
  datatype Option<T> = None | Some(value: T)

  /** One daily bar. The timestamp is abstracted to an integer day number;
      volume is never read by any engine and is not modelled. */
  datatype Bar = Bar(date: int, open: real, high: real, low: real, close: real)

  /** The engines divide by bar prices without guarding them; every run is
      therefore stated for series of strictly positive prices. */
  predicate PositiveBar(b: Bar)
  {
    b.open > 0.0 && b.high > 0.0 && b.low > 0.0 && b.close > 0.0
  }

  predicate PositiveBars(bars: seq<Bar>)
  {
    forall i :: 0 <= i < |bars| ==> PositiveBar(bars[i])
  }

  /** The parameters every engine reads from its instance attributes. The
      commission is a flat rate on traded notional (0.001 is 0.1%), and an
      entry commits `qtyPercent` percent of current equity. */
  datatype Config = Config(lookback: nat, rangeMult: real, stopMult: real, atrPeriod: nat,
                           initialCapital: real, commissionRate: real, qtyPercent: real)

  /** Periods must be positive: ATR divides by its period and a rolling
      window of length zero has no maximum. */
  predicate ValidConfig(cfg: Config)
  {
    cfg.lookback > 0 && cfg.atrPeriod > 0
  }

  /** The values every engine's constructor sets. */
  const DefaultConfig := Config(20, 0.5, 2.5, 14, 100000.0, 0.001, 99.0)

  function Abs(x: real): (r: real)
    ensures r >= 0.0
    ensures r == x || r == -x
  {
    if x < 0.0 then -x else x
  }

  /** Python's built-in `max(a, b)`. */
  function Max(a: real, b: real): (r: real)
    ensures r >= a && r >= b
    ensures r == a || r == b
  {
    if a >= b then a else b
  }

  /** Python's built-in `min(a, b)`. */
  function Min(a: real, b: real): (r: real)
    ensures r <= a && r <= b
    ensures r == a || r == b
  {
    if a <= b then a else b
  }
}

=== FILE: pinescript.dfy ===
/** `backtest_pine_script` (pine_script_backtest.py): a loop over bar
    indices from lookback + 1 with pending-signal flags. Per bar i:
    (1) a signal queued on bar i-1 executes at bar i's open (closing the
    opposite position first) and sets a stop order fixed at entry from
    bar i's ATR; (2) the stop order is checked against bar i's range and
    fills at exactly its level; (3) breakouts of bar i against the
    lookback + 1 previous bars are queued for bar i+1. Closes charge
    commission on the ENTRY notional |size|·avg. The script's parameters
    are the constants of `DefaultConfig`. */
module PineScript {
  import opened Market
  import opened Indicators
  import opened PositionLedger

  /** One row of `trades`: its `pnl` column is net of commission on closes
      and 0 on entries; `equity` is the running equity after the row. */
  datatype Record = Record(date: int, action: Action, price: real, size: real, pnl: real, equity: real, reason: Reason)

  /** `pending_stop_price` with its `pending_stop_type`. */
  datatype StopOrder = StopOrder(side: Side, level: real)

  /** The loop variables: position and equity, the stop order, the pending
      long / short flag (never both), and the trade rows. */
  datatype State = State(book: Ledger, stop: Option<StopOrder>, pending: Option<Side>, records: seq<Record>)

  function Init(cfg: Config): (s: State)
    ensures s.book.size == 0.0 && s.book.equity == cfg.initialCapital && s.records == []
    ensures s.stop.None? && s.pending.None?
  {
    State(Ledger(0.0, 0.0, cfg.initialCapital), None, None, [])
  }

  /** The equity column tracks equity: the last row shows the current
      equity (the initial capital while there is no row). */
  predicate Tracked(s: State, initial: real)
  {
    if |s.records| == 0 then s.book.equity == initial else s.records[|s.records| - 1].equity == s.book.equity
  }

  /** Bar i's boundaries: the window `iloc[i-lookback-1:i]`, the
      lookback + 1 bars before bar i. */
  function Window(bars: seq<Bar>, cfg: Config, i: nat): (b: Bounds)
    requires cfg.lookback + 1 <= i < |bars|
    ensures forall k :: i - cfg.lookback - 1 <= k < i ==> bars[k].high <= b.highest && b.lowest <= bars[k].low
    ensures (exists k :: i - cfg.lookback - 1 <= k < i && bars[k].high == b.highest)
         && (exists k :: i - cfg.lookback - 1 <= k < i && bars[k].low == b.lowest)
    ensures b.upper - bars[i].open == bars[i].open - b.lower == (b.highest - b.lowest) * cfg.rangeMult
  {
    BoundsOver(bars, i - cfg.lookback - 1, i, cfg.rangeMult)
  }

  /** The PnL formulas of the script: side·size·(price - avg) for a long,
      |size|·(avg - price) for a short. */
  function SidePnl(l: Ledger, side: Side, price: real): (pnl: real)
    ensures (side == Long || l.size <= 0.0) ==> pnl == (price - l.avg) * l.size
  {
    if side == Long then l.size * (price - l.avg) else Abs(l.size) * (l.avg - price)
  }

  /** A close of a `side` position at `price`: commission on the entry
      notional |size|·avg, the row's pnl is net of it. Against the shared
      ledger's close of the same position, the gross PnL is the same and
      the only difference is the commission base: equity ends higher by
      |size|·(price - avg)·rate, the exit notional less the entry one. */
  function Settle(l: Ledger, side: Side, price: real, cfg: Config): (r: (Ledger, real))
    ensures r.0 == Ledger(0.0, 0.0, l.equity + r.1)
    ensures r.1 == SidePnl(l, side, price) - Abs(l.size) * l.avg * cfg.commissionRate
    ensures Holds(l, side) ==>
              && r.1 + Abs(l.size) * l.avg * cfg.commissionRate == Close(l, price, cfg).pnl
              && r.0.equity == Close(l, price, cfg).after.equity + Abs(l.size) * (price - l.avg) * cfg.commissionRate
  {
    var net := SidePnl(l, side, price) - Abs(l.size) * l.avg * cfg.commissionRate;
    (Ledger(0.0, 0.0, l.equity + net), net)
  }

  /** Step 1: the pending signal executes at the bar's open. An opposite
      position is closed first ("Reverse to ..."), then the new position of
      99% of equity is entered at the open, its entry commission paid, and
      a stop order of the side entered fixed from the open and this bar's
      ATR, whatever the sign of the size. The flags are cleared. */
  function ExecutePending(s: State, bar: Bar, atr: real, cfg: Config): (k: State)
    requires bar.open > 0.0
    ensures k.pending.None?
    ensures s.pending.None? ==> k == s
    ensures s.pending.Some? ==>
              var side := s.pending.value;
              var settled := if Against(s.book, side) then Settle(s.book, Opposite(side), bar.open, cfg).0 else s.book;
              && k.book == Open(settled, side, bar.open, cfg).after
              && k.stop == Some(StopOrder(side, SideStop(side, bar.open, atr, cfg.stopMult)))
              && |k.records| == |s.records| + (if Against(s.book, side) then 2 else 1)
              && k.records[|k.records| - 1].action == (if side == Long then EnterLong else EnterShort)
              && k.records[|k.records| - 1].size == (if side == Long then k.book.size else Abs(k.book.size))
              && k.records[|k.records| - 1].price == bar.open
              && k.records[|k.records| - 1].date == bar.date
              && (Against(s.book, side) ==>
                    && k.records[|s.records|].action == (if side == Long then CloseShort else CloseLong)
                    && k.records[|s.records|].price == bar.open && k.records[|s.records|].date == bar.date)
    ensures |s.records| <= |k.records| && k.records[..|s.records|] == s.records
    ensures Tracked(s, cfg.initialCapital) ==> Tracked(k, cfg.initialCapital)
  {
    match s.pending
    case None => s
    case Some(side) =>
      var closeSide := Opposite(side);
      var recs1 :=
        if Against(s.book, side) then
          var (l, net) := Settle(s.book, closeSide, bar.open, cfg);
          s.records + [Record(bar.date, if side == Long then CloseShort else CloseLong, bar.open, Abs(s.book.size),
                              net, l.equity, if side == Long then ReverseToLong else ReverseToShort)]
        else s.records;
      var l1 := if Against(s.book, side) then Settle(s.book, closeSide, bar.open, cfg).0 else s.book;
      var f := Open(l1, side, bar.open, cfg);
      var rec := Record(bar.date, if side == Long then EnterLong else EnterShort, bar.open,
                        if side == Long then f.qty else Abs(f.qty), 0.0,
                        f.after.equity, if side == Long then LongEntry else ShortEntry);
      assert (recs1 + [rec])[..|s.records|] == s.records;
      State(f.after, Some(StopOrder(side, SideStop(side, bar.open, atr, cfg.stopMult))), None, recs1 + [rec])
  }

  /** The guard of step 2: no signal is still pending. */
  predicate StopGuard(s: State)
  {
    s.pending.None?
  }

  /** The stop order is reached by the bar's range. */
  predicate StopReached(o: StopOrder, bar: Bar)
  {
    if o.side == Long then bar.low <= o.level else bar.high >= o.level
  }

  /** Step 2: a reached stop order closes the position at exactly its
      level, and the order is cancelled. */
  function CheckStop(s: State, bar: Bar, cfg: Config): (k: State)
    ensures s.stop.Some? && StopReached(s.stop.value, bar) ==>
              && k.book == Settle(s.book, s.stop.value.side, s.stop.value.level, cfg).0
              && k.stop.None? && k.pending == s.pending
              && |k.records| == |s.records| + 1 && k.records[..|s.records|] == s.records
              && k.records[|s.records|].price == s.stop.value.level
              && k.records[|s.records|].reason == StopLoss
    ensures !(s.stop.Some? && StopReached(s.stop.value, bar)) ==> k == s
    ensures Tracked(s, cfg.initialCapital) ==> Tracked(k, cfg.initialCapital)
  {
    match s.stop
    case None => s
    case Some(o) =>
      if StopReached(o, bar) then
        var (l, net) := Settle(s.book, o.side, o.level, cfg);
        var rec := Record(bar.date, if o.side == Long then CloseLong else CloseShort, o.level,
                          if o.side == Long then s.book.size else Abs(s.book.size), net, l.equity, StopLoss);
        assert (s.records + [rec])[..|s.records|] == s.records;
        State(l, None, s.pending, s.records + [rec])
      else s
  }

  /** The guard of step 3: no stop order, or one the bar did not reach. */
  predicate DetectGuard(s: State, bar: Bar)
  {
    s.stop.None? || (s.stop.value.side == Long && bar.low > s.stop.value.level)
    || (s.stop.value.side == Short && bar.high < s.stop.value.level)
  }

  /** Step 3's choice: a single breakout is queued; on a double breach the
      boundary further from the open wins, ties going to SHORT. */
  function Detect(bar: Bar, b: Bounds): (r: Option<Side>)
    ensures r.None? <==> !(bar.high > b.upper) && !(bar.low < b.lower)
    ensures bar.high > b.upper && !(bar.low < b.lower) ==> r == Some(Long)
    ensures bar.low < b.lower && !(bar.high > b.upper) ==> r == Some(Short)
    ensures bar.high > b.upper && bar.low < b.lower ==>
              r == Some(if b.upper - bar.open > bar.open - b.lower then Long else Short)
  {
    var goLong := bar.high > b.upper;
    var goShort := bar.low < b.lower;
    if goLong && !goShort then Some(Long)
    else if goShort && !goLong then Some(Short)
    else if goLong && goShort then
      if b.upper - bar.open > bar.open - b.lower then Some(Long) else Some(Short)
    else None
  }

  /** Both boundaries sit the same distance range·mult from the open, so a
      double breach always queues SHORT. */
  lemma DoubleBreachGoesShort(bars: seq<Bar>, cfg: Config, i: nat)
    requires cfg.lookback + 1 <= i < |bars|
    requires bars[i].high > Window(bars, cfg, i).upper && bars[i].low < Window(bars, cfg, i).lower
    ensures Detect(bars[i], Window(bars, cfg, i)) == Some(Short)
  {
  }

  /** One loop iteration at bar index i. */
  function Step(s: State, bars: seq<Bar>, i: nat, cfg: Config): (k: State)
    requires cfg.lookback + 1 <= i < |bars| && PositiveBar(bars[i]) && 0 < cfg.atrPeriod
    ensures |s.records| <= |k.records| && k.records[..|s.records|] == s.records
    ensures var s2 := CheckStop(ExecutePending(s, bars[i], AtrSeeded(bars, cfg.atrPeriod, i), cfg), bars[i], cfg);
            k.book == s2.book && k.stop == s2.stop && k.records == s2.records
    ensures Tracked(s, cfg.initialCapital) ==> Tracked(k, cfg.initialCapital)
  {
    GuardsAlwaysHold(s, bars, i, cfg);
    var bar := bars[i];
    var s1 := ExecutePending(s, bar, AtrSeeded(bars, cfg.atrPeriod, i), cfg);
    var s2 := if s1.stop.Some? && StopGuard(s1) then CheckStop(s1, bar, cfg) else s1;
    if DetectGuard(s2, bar) then
      var d := Detect(bar, Window(bars, cfg, i));
      s2.(pending := if d.Some? then d else s2.pending)
    else s2
  }

  /** With nothing pending, an iteration is the stop check of step 2: a
      stop order the bar reaches logs exactly one StopLoss record at its
      level and is cancelled; otherwise no record is logged. */
  lemma StopOrderChecked(s: State, bars: seq<Bar>, i: nat, cfg: Config)
    requires cfg.lookback + 1 <= i < |bars| && PositiveBar(bars[i]) && 0 < cfg.atrPeriod
    requires s.pending.None?
    ensures var k := Step(s, bars, i, cfg);
            && (s.stop.Some? && StopReached(s.stop.value, bars[i]) ==>
                  && |k.records| == |s.records| + 1
                  && k.records[|s.records|].reason == StopLoss
                  && k.records[|s.records|].price == s.stop.value.level
                  && k.stop.None?
                  && k.book == Settle(s.book, s.stop.value.side, s.stop.value.level, cfg).0)
            && (!(s.stop.Some? && StopReached(s.stop.value, bars[i])) ==>
                  k.records == s.records && k.book == s.book && k.stop == s.stop)
  {
  }

  /** Both guards are always true where they are checked: step 1 clears the
      flags before step 2, and after step 2 any stop order left is one the
      bar did not reach. */
  lemma GuardsAlwaysHold(s: State, bars: seq<Bar>, i: nat, cfg: Config)
    requires cfg.lookback + 1 <= i < |bars| && PositiveBar(bars[i]) && 0 < cfg.atrPeriod
    ensures var s1 := ExecutePending(s, bars[i], AtrSeeded(bars, cfg.atrPeriod, i), cfg);
            && StopGuard(s1)
            && DetectGuard(if s1.stop.Some? then CheckStop(s1, bars[i], cfg) else s1, bars[i])
  {
  }

  /** The state before bar index n: bars lookback + 1 .. n - 1 processed. */
  function Run(bars: seq<Bar>, cfg: Config, n: nat): (s: State)
    requires n <= |bars| && PositiveBars(bars) && 0 < cfg.atrPeriod
    ensures Tracked(s, cfg.initialCapital)
  {
    if n <= cfg.lookback + 1 then Init(cfg) else Step(Run(bars, cfg, n - 1), bars, n - 1, cfg)
  }

  /** What an iteration does with the signal `side` pending from the bar
      before: an opposite position is closed at the open, then the entry
      row follows at the open, dated the bar; the only row that can come
      after it is the same bar's stop at the level fixed from the open, and
      otherwise that stop order stays in force. */
  predicate EntersAtOpen(s: State, k: State, side: Side, bar: Bar, atr: real, cfg: Config)
  {
    var j := |s.records| + (if Against(s.book, side) then 1 else 0);
    var level := SideStop(side, bar.open, atr, cfg.stopMult);
    && j < |k.records| <= j + 2
    && k.records[..|s.records|] == s.records
    && (Against(s.book, side) ==>
          && k.records[|s.records|].action == (if side == Long then CloseShort else CloseLong)
          && k.records[|s.records|].price == bar.open)
    && k.records[j].action == (if side == Long then EnterLong else EnterShort)
    && k.records[j].price == bar.open && k.records[j].date == bar.date
    && (|k.records| == j + 1 ==> k.stop == Some(StopOrder(side, level)))
    && (|k.records| == j + 2 ==>
          && k.records[j + 1].reason == StopLoss && k.records[j + 1].price == level
          && k.records[j + 1].date == bar.date && k.stop.None?)
  }

  /** Whatever was pending before, an iteration leaves pending exactly the
      signal detected on its own bar. */
  lemma StepQueuesDetect(s: State, bars: seq<Bar>, i: nat, cfg: Config)
    requires cfg.lookback + 1 <= i < |bars| && PositiveBar(bars[i]) && 0 < cfg.atrPeriod
    ensures Step(s, bars, i, cfg).pending == Detect(bars[i], Window(bars, cfg, i))
  {
    GuardsAlwaysHold(s, bars, i, cfg);
  }

  /** An iteration with a pending signal executes it at its bar's open. */
  lemma StepExecutes(s: State, bars: seq<Bar>, i: nat, cfg: Config)
    requires cfg.lookback + 1 <= i < |bars| && PositiveBar(bars[i]) && 0 < cfg.atrPeriod
    requires s.pending.Some?
    ensures EntersAtOpen(s, Step(s, bars, i, cfg), s.pending.value, bars[i], AtrSeeded(bars, cfg.atrPeriod, i), cfg)
  {
    var s1 := ExecutePending(s, bars[i], AtrSeeded(bars, cfg.atrPeriod, i), cfg);
    GuardsAlwaysHold(s, bars, i, cfg);
    var s2 := if s1.stop.Some? then CheckStop(s1, bars[i], cfg) else s1;
    assert Step(s, bars, i, cfg).records == s2.records;
    assert s2.records[..|s1.records|] == s1.records;
    assert s2.records[..|s.records|] == s.records;
  }

  /** The signal queued on bar i executes at bar i+1's open: the queued
      side is bar i's detection, and the iteration of bar i+1 closes an
      opposite position and enters at bar i+1's open, dated bar i+1, with
      the stop order fixed from that open and bar i+1's ATR. */
  lemma PendingFillsNextOpen(bars: seq<Bar>, cfg: Config, i: nat)
    requires PositiveBars(bars) && 0 < cfg.atrPeriod && cfg.lookback + 1 <= i && i + 1 < |bars|
    ensures Run(bars, cfg, i + 1).pending == Detect(bars[i], Window(bars, cfg, i))
    ensures var s := Run(bars, cfg, i + 1);
            var k := ExecutePending(s, bars[i + 1], AtrSeeded(bars, cfg.atrPeriod, i + 1), cfg);
            s.pending.Some? ==>
              && k.records[|k.records| - 1].action == (if s.pending.value == Long then EnterLong else EnterShort)
              && k.records[|k.records| - 1].price == bars[i + 1].open
              && k.records[|k.records| - 1].date == bars[i + 1].date
              && k.book.avg == bars[i + 1].open
              && k.stop == Some(StopOrder(s.pending.value, SideStop(s.pending.value, bars[i + 1].open,
                                                                    AtrSeeded(bars, cfg.atrPeriod, i + 1), cfg.stopMult)))
  {
    StepQueuesDetect(Run(bars, cfg, i), bars, i, cfg);
  }

  /** A breakout detected on bar i is executed by the run's iteration of
      bar i+1, at bar i+1's open. */
  lemma QueuedFillsNextOpen(bars: seq<Bar>, cfg: Config, i: nat)
    requires PositiveBars(bars) && 0 < cfg.atrPeriod && cfg.lookback + 1 <= i && i + 1 < |bars|
    requires Detect(bars[i], Window(bars, cfg, i)).Some?
    ensures var s := Run(bars, cfg, i + 1);
            EntersAtOpen(s, Step(s, bars, i + 1, cfg), Detect(bars[i], Window(bars, cfg, i)).value, bars[i + 1],
                         AtrSeeded(bars, cfg.atrPeriod, i + 1), cfg)
  {
    PendingFillsNextOpen(bars, cfg, i);
    StepExecutes(Run(bars, cfg, i + 1), bars, i + 1, cfg);
  }

  // ---------------------------------------------------------------------
  // The end-of-series close
  // ---------------------------------------------------------------------

  /** The final close as the script writes it: the row's pnl is the signed
      move less commission on the entry notional, but equity is credited
      the entry notional |size|·avg on top of it. */
  function FinalCloseAsWritten(s: State, last: Bar, cfg: Config): (k: State)
    ensures s.book.size != 0.0 ==>
              k.book.equity == s.book.equity + Abs(s.book.size) * s.book.avg
                               + Settle(s.book, if s.book.size > 0.0 then Long else Short, last.close, cfg).1
    ensures s.book.size == 0.0 ==> k == s
  {
    if s.book.size == 0.0 then s
    else
      var side := if s.book.size > 0.0 then Long else Short;
      var value := Abs(s.book.size) * s.book.avg;
      var pnl := SidePnl(s.book, side, last.close) - value * cfg.commissionRate;
      var e := s.book.equity + value + pnl;
      s.(book := Ledger(s.book.size, s.book.avg, e),
         records := s.records + [Record(last.date, if side == Long then CloseLong else CloseShort, last.close,
                                        Abs(s.book.size), pnl, e, EndOfSeries)])
  }

  /** The final close as every other close in the script books it: equity
      moves by the row's pnl only. */
  function FinalClose(s: State, last: Bar, cfg: Config): (k: State)
    ensures s.book.size != 0.0 ==>
              && k.book == Settle(s.book, if s.book.size > 0.0 then Long else Short, last.close, cfg).0
              && |k.records| == |s.records| + 1
              && k.records[|s.records|].equity - s.book.equity == k.records[|s.records|].pnl
    ensures s.book.size != 0.0 ==>
              var t := k.records[|s.records|];
              && k.records[..|s.records|] == s.records
              && t.action == (if s.book.size > 0.0 then CloseLong else CloseShort)
              && t.price == last.close && t.date == last.date && t.reason == EndOfSeries
              && k.stop.None?
    ensures s.book.size == 0.0 ==> k == s
    ensures Tracked(s, cfg.initialCapital) ==> Tracked(k, cfg.initialCapital)
  {
    if s.book.size == 0.0 then s
    else
      var side := if s.book.size > 0.0 then Long else Short;
      var (l, net) := Settle(s.book, side, last.close, cfg);
      s.(book := l, stop := None,
         records := s.records + [Record(last.date, if side == Long then CloseLong else CloseShort, last.close,
                                        Abs(s.book.size), net, l.equity, EndOfSeries)])
  }

  /** The written final close overstates equity by exactly the entry
      notional |size|·avg of the position it closes, although entries
      never took that notional out of equity. */
  lemma FinalCloseOverstatesEquity(s: State, last: Bar, cfg: Config)
    requires s.book.size != 0.0
    ensures FinalCloseAsWritten(s, last, cfg).book.equity
            == FinalClose(s, last, cfg).book.equity + Abs(s.book.size) * s.book.avg
  {
  }

  /** Concretely: 1 unit long at 100 with equity 50 closed at 100 with no
      commission ends at equity 150 as written, 50 as intended. */
  lemma FinalCloseCounterexample()
    ensures var cfg := DefaultConfig.(commissionRate := 0.0);
            var s := State(Ledger(1.0, 100.0, 50.0), None, None, []);
            var last := Bar(0, 100.0, 100.0, 100.0, 100.0);
            FinalCloseAsWritten(s, last, cfg).book.equity == 150.0
            && FinalClose(s, last, cfg).book.equity == 50.0
  {
  }

  /** `backtest_pine_script` with the script's constants, ending with the
      corrected final close; returns the rows and the final equity. */
  function Backtest(bars: seq<Bar>): (r: (seq<Record>, real))
    requires PositiveBars(bars)
    ensures |r.0| == 0 ==> r.1 == DefaultConfig.initialCapital
    ensures |r.0| > 0 ==> r.1 == r.0[|r.0| - 1].equity
    ensures var s := Run(bars, DefaultConfig, |bars|);
            && (|bars| == 0 ==> r == (s.records, s.book.equity))
            && (|bars| > 0 ==>
                  var k := FinalClose(s, bars[|bars| - 1], DefaultConfig);
                  r == (k.records, k.book.equity))
  {
    var cfg := DefaultConfig;
    var s := Run(bars, cfg, |bars|);
    var k := if |bars| == 0 then s else FinalClose(s, bars[|bars| - 1], cfg);
    (k.records, k.book.equity)
  }

  // ---------------------------------------------------------------------
  // calculate_metrics
  // ---------------------------------------------------------------------

  datatype Metrics = Metrics(totalReturn: real, total: nat, closing: nat, winning: nat, losing: nat, winRate: real,
                             grossProfit: real, grossLoss: real, netProfit: real, profitFactor: real,
                             averageTrade: real, maxDrawdown: real, initial: real, finalEquity: real)

  /** How many rows have a non-zero pnl (the closing trades). */
  function Closing(rs: seq<Record>): (n: nat)
    ensures n <= |rs|
  {
    if |rs| == 0 then 0 else Closing(rs[..|rs| - 1]) + (if rs[|rs| - 1].pnl != 0.0 then 1 else 0)
  }

  function Winning(rs: seq<Record>): (n: nat)
  {
    if |rs| == 0 then 0 else Winning(rs[..|rs| - 1]) + (if rs[|rs| - 1].pnl > 0.0 then 1 else 0)
  }

  function Losing(rs: seq<Record>): (n: nat)
  {
    if |rs| == 0 then 0 else Losing(rs[..|rs| - 1]) + (if rs[|rs| - 1].pnl < 0.0 then 1 else 0)
  }

  /** Winners and losers are exactly the closing trades. */
  lemma {:induction false} WinLoseSplit(rs: seq<Record>)
    ensures Winning(rs) + Losing(rs) == Closing(rs)
  {
    if |rs| > 0 {
      WinLoseSplit(rs[..|rs| - 1]);
    }
  }

  /** Sum of the positive pnls. */
  function Profit(rs: seq<Record>): (p: real)
    ensures p >= 0.0
    ensures p == 0.0 <==> Winning(rs) == 0
  {
    if |rs| == 0 then 0.0 else Profit(rs[..|rs| - 1]) + (if rs[|rs| - 1].pnl > 0.0 then rs[|rs| - 1].pnl else 0.0)
  }

  /** Sum of the negative pnls. */
  function Loss(rs: seq<Record>): (l: real)
    ensures l <= 0.0
    ensures l == 0.0 <==> Losing(rs) == 0
  {
    if |rs| == 0 then 0.0 else Loss(rs[..|rs| - 1]) + (if rs[|rs| - 1].pnl < 0.0 then rs[|rs| - 1].pnl else 0.0)
  }

  /** Sum of every row's pnl. */
  function PnlSum(rs: seq<Record>): real
  {
    if |rs| == 0 then 0.0 else PnlSum(rs[..|rs| - 1]) + rs[|rs| - 1].pnl
  }

  /** Gross profit less gross loss is the sum of all pnls. */
  lemma {:induction false} NetIsPnlSum(rs: seq<Record>)
    ensures Profit(rs) - Abs(Loss(rs)) == PnlSum(rs)
  {
    if |rs| > 0 {
      NetIsPnlSum(rs[..|rs| - 1]);
    }
  }

  /** The running peak of the equity column, starting from `peak`, and the
      largest percentage drop below it. */
  function Drawdown(rs: seq<Record>, peak: real, worst: real): (d: real)
    requires peak > 0.0 && worst >= 0.0
    ensures d >= worst
    ensures (forall k :: 0 <= k < |rs| ==> rs[k].equity >= 0.0) && worst <= 100.0 ==> d <= 100.0
    decreases |rs|
  {
    if |rs| == 0 then worst
    else
      var p := if rs[0].equity > peak then rs[0].equity else peak;
      var dd := (p - rs[0].equity) / p * 100.0;
      DrawdownStep(p, rs[0].equity);
      Drawdown(rs[1..], p, if dd > worst then dd else worst)
  }

  lemma DrawdownStep(p: real, e: real)
    requires p > 0.0 && e <= p
    ensures (p - e) / p * 100.0 >= 0.0
    ensures e >= 0.0 ==> (p - e) / p * 100.0 <= 100.0
  {
    assert (p - e) / p >= 0.0;
    if e >= 0.0 {
      assert (p - e) / p <= 1.0;
    }
  }

  /** The running peak once `n` rows are seen: the largest of the initial
      capital and the equity column of rows 0 .. n-1. */
  function PeakOf(rs: seq<Record>, initial: real, n: nat): (p: real)
    requires n <= |rs|
    ensures p >= initial
    ensures forall k :: 0 <= k < n ==> p >= rs[k].equity
    ensures p == initial || exists k :: 0 <= k < n && p == rs[k].equity
  {
    if n == 0 then initial else Max(PeakOf(rs, initial, n - 1), rs[n - 1].equity)
  }

  /** Row k's drop below the running peak that includes it, in percent. */
  function DrawdownAt(rs: seq<Record>, initial: real, k: nat): real
    requires initial > 0.0 && k < |rs|
  {
    var p := PeakOf(rs, initial, k + 1);
    (p - rs[k].equity) / p * 100.0
  }

  /** The loop from row j on, entered with the peak of the rows before it
      and their worst drop, ends with the worst drop of all rows. */
  lemma {:induction false} DrawdownFrom(rs: seq<Record>, initial: real, j: nat, worst: real)
    requires initial > 0.0 && j <= |rs| && worst >= 0.0
    requires forall k :: 0 <= k < j ==> worst >= DrawdownAt(rs, initial, k)
    requires worst == 0.0 || exists k :: 0 <= k < j && worst == DrawdownAt(rs, initial, k)
    ensures var d := Drawdown(rs[j..], PeakOf(rs, initial, j), worst);
            && (forall k :: 0 <= k < |rs| ==> d >= DrawdownAt(rs, initial, k))
            && (d == 0.0 || exists k :: 0 <= k < |rs| && d == DrawdownAt(rs, initial, k))
    decreases |rs| - j
  {
    if j == |rs| {
      assert rs[j..] == [];
    } else {
      var p := PeakOf(rs, initial, j);
      var e := rs[j].equity;
      var p' := if e > p then e else p;
      assert p' == PeakOf(rs, initial, j + 1);
      var dd := (p' - e) / p' * 100.0;
      assert dd == DrawdownAt(rs, initial, j);
      DrawdownStep(p', e);
      var w' := if dd > worst then dd else worst;
      assert rs[j..][0] == rs[j] && rs[j..][1..] == rs[j + 1..];
      assert Drawdown(rs[j..], p, worst) == Drawdown(rs[j + 1..], p', w');
      DrawdownFrom(rs, initial, j + 1, w');
    }
  }

  /** The maximum drawdown is the largest drop of any row below its running
      peak, or 0 when no row is below it. */
  lemma MaxDrawdown(rs: seq<Record>, initial: real)
    requires initial > 0.0
    ensures var d := Drawdown(rs, initial, 0.0);
            && (forall k :: 0 <= k < |rs| ==> d >= DrawdownAt(rs, initial, k))
            && (d == 0.0 || exists k :: 0 <= k < |rs| && d == DrawdownAt(rs, initial, k))
  {
    DrawdownFrom(rs, initial, 0, 0.0);
    assert rs[0..] == rs;
  }

  /** The gain of `final` over `initial`, in percent of `initial`. */
  function ReturnPercent(final: real, initial: real): (r: real)
    requires initial > 0.0
    ensures r * initial == (final - initial) * 100.0
  {
    (final - initial) / initial * 100.0
  }

  /** Winners as a percentage of the closing trades, 0 without any. */
  function WinRate(winners: nat, closing: nat): (r: real)
    requires winners <= closing
    ensures 0.0 <= r <= 100.0
    ensures closing == 0 ==> r == 0.0
    ensures r * closing as real == winners as real * 100.0
  {
    if closing == 0 then 0.0
    else
      assert winners as real / closing as real <= 1.0;
      winners as real / closing as real * 100.0
  }

  /** Net profit per closing trade, 0 without any. */
  function Average(net: real, closing: nat): (a: real)
    ensures closing == 0 ==> a == 0.0
    ensures a * closing as real == (if closing == 0 then 0.0 else net)
  {
    if closing == 0 then 0.0 else net / closing as real
  }

  /** Gross profit over gross loss, 0 when nothing was lost. */
  function ProfitFactor(profit: real, loss: real): (f: real)
    requires profit >= 0.0 && loss >= 0.0
    ensures f >= 0.0
    ensures loss == 0.0 ==> f == 0.0
    ensures loss > 0.0 ==> f * loss == profit
  {
    if loss > 0.0 then profit / loss else 0.0
  }

  /** The derived fields of a metrics record follow from its counts and
      sums: the return in percent of the initial capital, the win rate over
      the closing trades, net profit, the profit factor when something was
      lost (0 otherwise), and the average over the closing trades. */
  predicate Derived(v: Metrics)
  {
    && v.totalReturn * v.initial == (v.finalEquity - v.initial) * 100.0
    && v.winRate * v.closing as real == v.winning as real * 100.0
    && v.netProfit == v.grossProfit - v.grossLoss
    && (v.grossLoss > 0.0 ==> v.profitFactor * v.grossLoss == v.grossProfit)
    && (v.grossLoss == 0.0 ==> v.profitFactor == 0.0)
    && v.averageTrade * v.closing as real == (if v.closing == 0 then 0.0 else v.netProfit)
    && (v.closing == 0 ==> v.winRate == 0.0 && v.averageTrade == 0.0)
  }

  /** The metrics record of the given counts and sums. */
  function Summary(final: real, initial: real, total: nat, closing: nat, winning: nat, losing: nat,
                   profit: real, loss: real, drawdown: real): (v: Metrics)
    requires initial > 0.0 && winning <= closing && profit >= 0.0 && loss >= 0.0
    ensures Derived(v)
    ensures v.initial == initial && v.finalEquity == final && v.total == total && v.closing == closing
    ensures v.winning == winning && v.losing == losing && v.grossProfit == profit && v.grossLoss == loss
    ensures v.maxDrawdown == drawdown
  {
    Metrics(ReturnPercent(final, initial), total, closing, winning, losing, WinRate(winning, closing),
            profit, loss, profit - loss, ProfitFactor(profit, loss), Average(profit - loss, closing), drawdown,
            initial, final)
  }

  /** `calculate_metrics`: nothing for an empty trade list; otherwise the
      return on the initial capital, win rate over the closing trades,
      profit factor (0 when there is no loss) and maximum drawdown against
      a running peak that starts at the initial capital. */
  function CalculateMetrics(rs: seq<Record>, initial: real): (m: Option<Metrics>)
    requires initial > 0.0
    ensures m.None? <==> |rs| == 0
    ensures m.Some? ==> m.value.winning + m.value.losing == m.value.closing && m.value.total == |rs|
    ensures m.Some? ==> 0.0 <= m.value.winRate <= 100.0
    ensures m.Some? ==> m.value.profitFactor >= 0.0 && (m.value.losing == 0 ==> m.value.profitFactor == 0.0)
    ensures m.Some? ==> m.value.netProfit == PnlSum(rs)
    ensures m.Some? ==> m.value.maxDrawdown >= 0.0
    ensures m.Some? && (forall k :: 0 <= k < |rs| ==> rs[k].equity >= 0.0) ==> m.value.maxDrawdown <= 100.0
    ensures m.Some? ==> m.value.finalEquity == rs[|rs| - 1].equity
    ensures m.Some? ==>
              && m.value.initial == initial && Derived(m.value)
              && m.value.closing == Closing(rs) && m.value.winning == Winning(rs) && m.value.losing == Losing(rs)
              && m.value.grossProfit == Profit(rs) && m.value.grossLoss == -Loss(rs)
    ensures m.Some? ==>
              && (forall k :: 0 <= k < |rs| ==> m.value.maxDrawdown >= DrawdownAt(rs, initial, k))
              && (m.value.maxDrawdown == 0.0 || exists k :: 0 <= k < |rs| && m.value.maxDrawdown == DrawdownAt(rs, initial, k))
  {
    if |rs| == 0 then None
    else
      var gp := Profit(rs);
      var gl := Abs(Loss(rs));
      WinLoseSplit(rs);
      NetIsPnlSum(rs);
      MaxDrawdown(rs, initial);
      Some(Summary(rs[|rs| - 1].equity, initial, |rs|, Closing(rs), Winning(rs), Losing(rs), gp, gl,
                   Drawdown(rs, initial, 0.0)))
  }
}

=== FILE: simplepine.dfy ===
/** The loop of `run_simple_backtest` (simple_pine_backtest.py): a
    percentage model without commission or trade sizes. From bar
    lookback + 1 on, a long breakout (priority) or a short breakout at the
    bar's close closes an opposite position and enters at that close; only
    on a bar without a signal is the held position's stop checked, filling
    at the stop level. Every close scales equity by 1 + 0.99·(PnL %). An
    open position is left open at the end. */
module SimplePine {
  import opened Market
  import opened Indicators
  import opened PositionLedger

  /** One line of `trades`: what happened, at which price, and the PnL
      fraction for closes. */
  datatype Note = Note(action: Action, price: real, pnlPct: Option<real>, reason: Reason)

  /** `position` (None when flat), `entry_price`, `equity`, `trades`. */
  datatype State = State(position: Option<Side>, entry: real, equity: real, notes: seq<Note>)

  function Init(cfg: Config): (s: State)
    ensures s.position.None? && s.equity == cfg.initialCapital && s.notes == []
  {
    State(None, 0.0, cfg.initialCapital, [])
  }

  /** The PnL fraction of a `side` position entered at `entry` and closed
      at `exit`. */
  function PnlPct(side: Side, entry: real, exit: real): (p: real)
    requires entry > 0.0
    ensures side == Long ==> p * entry == exit - entry
    ensures side == Short ==> p * entry == entry - exit
  {
    if side == Long then (exit - entry) / entry else (entry - exit) / entry
  }

  /** A close of the held position at `exit`: equity is scaled by
      1 + 0.99·(PnL fraction). */
  function CloseAt(s: State, exit: real, reason: Reason, cfg: Config): (k: State)
    requires s.position.Some? && s.entry > 0.0
    ensures k.position == s.position && k.entry == s.entry
    ensures k.equity == s.equity * (1.0 + PnlPct(s.position.value, s.entry, exit) * (cfg.qtyPercent / 100.0))
    ensures k.notes == s.notes + [Note(if s.position == Some(Long) then CloseLong else CloseShort, exit,
                                       Some(PnlPct(s.position.value, s.entry, exit)), reason)]
  {
    var pct := PnlPct(s.position.value, s.entry, exit);
    s.(equity := s.equity * (1.0 + pct * (cfg.qtyPercent / 100.0)),
       notes := s.notes + [Note(if s.position == Some(Long) then CloseLong else CloseShort, exit, Some(pct), reason)])
  }

  /** The percentage model is the ledger model of a position worth 0.99 of
      equity at entry, without commission: equity moves by the price move
      times that quantity. */
  lemma CloseIsNotionalPnl(s: State, exit: real, reason: Reason, cfg: Config)
    requires s.position.Some? && s.entry > 0.0
    ensures var q := s.equity * (cfg.qtyPercent / 100.0) / s.entry;
            var signed := if s.position == Some(Long) then q else -q;
            CloseAt(s, exit, reason, cfg).equity - s.equity == (exit - s.entry) * signed
  {
    var f := cfg.qtyPercent / 100.0;
    var pct := PnlPct(s.position.value, s.entry, exit);
    var q := s.equity * f / s.entry;
    assert s.equity * (1.0 + pct * f) - s.equity == s.equity * f * pct;
    if s.position == Some(Long) {
      assert pct == (exit - s.entry) / s.entry;
      NotionalStep(s.equity * f, s.entry, exit - s.entry);
    } else {
      assert pct == (s.entry - exit) / s.entry;
      NotionalStep(s.equity * f, s.entry, s.entry - exit);
      assert (exit - s.entry) * -q == (s.entry - exit) * q;
    }
  }

  /** v·(d/e) == d·(v/e). */
  lemma NotionalStep(v: real, e: real, d: real)
    requires e > 0.0
    ensures v * (d / e) == d * (v / e)
  {
  }

  /** A long closed at a non-negative price never loses more than 99% of
      equity, so positive equity stays positive. */
  lemma LongCloseKeepsEquityPositive(s: State, exit: real, reason: Reason, cfg: Config)
    requires s.position == Some(Long) && s.entry > 0.0 && s.equity > 0.0 && exit >= 0.0
    requires 0.0 <= cfg.qtyPercent <= 100.0
    ensures CloseAt(s, exit, reason, cfg).equity >= s.equity * (1.0 - cfg.qtyPercent / 100.0)
  {
    var pct := PnlPct(Long, s.entry, exit);
    assert pct >= -1.0;
    var f := cfg.qtyPercent / 100.0;
    assert pct * f >= -f by {
      MulMono(pct, -1.0, f);
    }
    assert 1.0 + pct * f >= 1.0 - f;
    MulMono(1.0 + pct * f, 1.0 - f, s.equity);
  }

  /** Multiplying both sides of a >= b by c >= 0. */
  lemma MulMono(a: real, b: real, c: real)
    requires a >= b && c >= 0.0
    ensures a * c >= b * c
  {
    MulNonneg(a - b, c);
  }

  /** An entry at the bar's close; an open position in the same direction is
      replaced without realising anything. */
  function Enter(s: State, side: Side, price: real): (k: State)
    ensures k.position == Some(side) && k.entry == price && k.equity == s.equity
    ensures k.notes == s.notes + [Note(if side == Long then EnterLong else EnterShort, price, None,
                                       if side == Long then LongEntry else ShortEntry)]
  {
    State(Some(side), price, s.equity,
          s.notes + [Note(if side == Long then EnterLong else EnterShort, price, None,
                          if side == Long then LongEntry else ShortEntry)])
  }

  /** Bar i's boundaries: the lookback bars i-lookback .. i-1. */
  function Window(bars: seq<Bar>, cfg: Config, i: nat): (b: Bounds)
    requires 0 < cfg.lookback <= i < |bars|
    ensures forall k :: i - cfg.lookback <= k < i ==> bars[k].high <= b.highest && b.lowest <= bars[k].low
    ensures (exists k :: i - cfg.lookback <= k < i && bars[k].high == b.highest)
         && (exists k :: i - cfg.lookback <= k < i && bars[k].low == b.lowest)
    ensures b.upper - bars[i].open == bars[i].open - b.lower == (b.highest - b.lowest) * cfg.rangeMult
  {
    BoundsOver(bars, i - cfg.lookback, i, cfg.rangeMult)
  }

  /** What a bar does. */
  datatype Move = Reverse(side: Side) | Stop | Nothing

  /** The decision of bar i given its boundaries and ATR: a long breakout
      first, then a short breakout, and only otherwise the stop. */
  function Decide(s: State, bar: Bar, b: Bounds, atr: real, cfg: Config): (m: Move)
    ensures m == Reverse(Long) <==> bar.high > b.upper
    ensures m == Reverse(Short) <==> !(bar.high > b.upper) && bar.low < b.lower
    ensures m == Stop <==> (!(bar.high > b.upper) && !(bar.low < b.lower) && s.position.Some?
                           && var stop := SideStop(s.position.value, s.entry, atr, cfg.stopMult);
                              if s.position == Some(Long) then bar.low <= stop else bar.high >= stop)
  {
    if bar.high > b.upper then Reverse(Long)
    else if bar.low < b.lower then Reverse(Short)
    else if s.position.Some? then
      var stop := SideStop(s.position.value, s.entry, atr, cfg.stopMult);
      if s.position == Some(Long) then (if bar.low <= stop then Stop else Nothing)
      else (if bar.high >= stop then Stop else Nothing)
    else Nothing
  }

  /** Bar i's effect once decided. */
  function Apply(s: State, m: Move, bar: Bar, atr: real, cfg: Config): (k: State)
    requires s.position.Some? ==> s.entry > 0.0
    requires m == Stop ==> s.position.Some?
    ensures m.Nothing? ==> k == s
    ensures m.Stop? ==> k.position.None?
                        && k.equity == CloseAt(s, SideStop(s.position.value, s.entry, atr, cfg.stopMult), StopLoss, cfg).equity
                        && k.notes == CloseAt(s, SideStop(s.position.value, s.entry, atr, cfg.stopMult), StopLoss, cfg).notes
    ensures m.Reverse? ==> k.position == Some(m.side) && k.entry == bar.close
    ensures m.Reverse? && s.position == Some(Opposite(m.side)) ==>
              k.equity == CloseAt(s, bar.close, if m.side == Long then ReverseToLong else ReverseToShort, cfg).equity
    ensures m.Reverse? && s.position != Some(Opposite(m.side)) ==> k.equity == s.equity
    ensures |s.notes| <= |k.notes| && k.notes[..|s.notes|] == s.notes
  {
    match m
    case Nothing => s
    case Stop =>
      var c := CloseAt(s, SideStop(s.position.value, s.entry, atr, cfg.stopMult), StopLoss, cfg);
      assert c.notes[..|s.notes|] == s.notes;
      c.(position := None)
    case Reverse(side) =>
      var s1 := if s.position == Some(Opposite(side)) then
                  CloseAt(s, bar.close, if side == Long then ReverseToLong else ReverseToShort, cfg)
                else s;
      var k := Enter(s1, side, bar.close);
      assert k.notes[..|s.notes|] == s.notes by {
        assert k.notes[..|s1.notes|] == s1.notes;
        assert s1.notes[..|s.notes|] == s.notes;
      }
      k
  }

  /** Every held position was entered at a positive close. */
  predicate Sane(s: State)
  {
    s.position.Some? ==> s.entry > 0.0
  }

  /** The factor by which a note scales equity: 1 + pnl_pct·0.99 for a
      close, 1 for an entry. */
  function Factor(n: Note, cfg: Config): real
  {
    if n.pnlPct.Some? then 1.0 + n.pnlPct.value * (cfg.qtyPercent / 100.0) else 1.0
  }

  /** The product of the notes' factors, in order. */
  function Growth(notes: seq<Note>, cfg: Config): real
  {
    if |notes| == 0 then 1.0 else Growth(notes[..|notes| - 1], cfg) * Factor(notes[|notes| - 1], cfg)
  }

  /** Equity is the initial capital compounded by every close in the
      notes: the notes account for every change of equity. */
  predicate Compounded(s: State, initial: real, cfg: Config)
  {
    s.equity == initial * Growth(s.notes, cfg)
  }

  /** Appending a note whose factor scaled equity keeps `Compounded`. */
  lemma {:induction false} CompoundedAppend(s: State, k: State, n: Note, initial: real, cfg: Config)
    requires Compounded(s, initial, cfg)
    requires k.notes == s.notes + [n] && k.equity == s.equity * Factor(n, cfg)
    ensures Compounded(k, initial, cfg)
  {
    assert k.notes[..|s.notes|] == s.notes;
    assert Growth(k.notes, cfg) == Growth(s.notes, cfg) * Factor(n, cfg);
    assert k.equity == initial * (Growth(s.notes, cfg) * Factor(n, cfg));
  }

  /** An entry note has factor 1 and leaves equity alone. */
  lemma EnterCompounds(s: State, side: Side, price: real, initial: real, cfg: Config)
    requires Compounded(s, initial, cfg)
    ensures Compounded(Enter(s, side, price), initial, cfg)
  {
    var k := Enter(s, side, price);
    CompoundedAppend(s, k, k.notes[|s.notes|], initial, cfg);
  }

  /** A bar's effect keeps the notes accounting for equity. */
  lemma ApplyCompounds(s: State, m: Move, bar: Bar, atr: real, cfg: Config, initial: real)
    requires s.position.Some? ==> s.entry > 0.0
    requires m == Stop ==> s.position.Some?
    ensures Compounded(s, initial, cfg) ==> Compounded(Apply(s, m, bar, atr, cfg), initial, cfg)
  {
    if !Compounded(s, initial, cfg) {
      return;
    }
    match m
    case Nothing =>
    case Stop =>
      var c := CloseAt(s, SideStop(s.position.value, s.entry, atr, cfg.stopMult), StopLoss, cfg);
      var k := c.(position := None);
      var n := k.notes[|s.notes|];
      assert k.notes == s.notes + [n];
      CompoundedAppend(s, k, n, initial, cfg);
      assert Apply(s, m, bar, atr, cfg) == k;
    case Reverse(side) =>
      var s1 := s;
      if s.position == Some(Opposite(side)) {
        s1 := CloseAt(s, bar.close, if side == Long then ReverseToLong else ReverseToShort, cfg);
        var n := s1.notes[|s.notes|];
        assert s1.notes == s.notes + [n];
        assert s1.equity == s.equity * Factor(n, cfg);
        CompoundedAppend(s, s1, n, initial, cfg);
      }
      var k := Enter(s1, side, bar.close);
      EnterCompounds(s1, side, bar.close, initial, cfg);
      assert Apply(s, m, bar, atr, cfg) == k;
  }

  /** One loop iteration at bar index i >= lookback + 1. */
  function Step(s: State, bars: seq<Bar>, i: nat, cfg: Config): (k: State)
    requires ValidConfig(cfg) && cfg.lookback + 1 <= i < |bars| && PositiveBars(bars) && Sane(s)
    ensures Sane(k)
    ensures var atr := AtrSimple(bars, cfg.atrPeriod, i);
            k == Apply(s, Decide(s, bars[i], Window(bars, cfg, i), atr, cfg), bars[i], atr, cfg)
    ensures |s.notes| <= |k.notes| && k.notes[..|s.notes|] == s.notes
    ensures Compounded(s, cfg.initialCapital, cfg) ==> Compounded(k, cfg.initialCapital, cfg)
  {
    var atr := AtrSimple(bars, cfg.atrPeriod, i);
    var m := Decide(s, bars[i], Window(bars, cfg, i), atr, cfg);
    ApplyCompounds(s, m, bars[i], atr, cfg, cfg.initialCapital);
    Apply(s, m, bars[i], atr, cfg)
  }

  /** The state before bar index n. */
  function Run(bars: seq<Bar>, cfg: Config, n: nat): (s: State)
    requires ValidConfig(cfg) && n <= |bars| && PositiveBars(bars)
    ensures Sane(s)
    ensures Compounded(s, cfg.initialCapital, cfg)
    ensures n <= cfg.lookback + 1 ==> s == Init(cfg)
  {
    if n <= cfg.lookback + 1 then Init(cfg) else Step(Run(bars, cfg, n - 1), bars, n - 1, cfg)
  }

  /** `run_simple_backtest` on already-filtered bars with the script's
      constants: the final equity and the notes. No final close is made,
      and the final equity is the initial capital compounded by every
      close note: initial · product of (1 + pnl_pct·0.99). */
  function Backtest(bars: seq<Bar>): (r: (real, seq<Note>))
    requires PositiveBars(bars)
    ensures r.0 == DefaultConfig.initialCapital * Growth(r.1, DefaultConfig)
    ensures |bars| <= DefaultConfig.lookback + 1 ==> r == (DefaultConfig.initialCapital, [])
    ensures r.1 == Run(bars, DefaultConfig, |bars|).notes
  {
    var s := Run(bars, DefaultConfig, |bars|);
    (s.equity, s.notes)
  }

  // ---------------------------------------------------------------------
  // Properties of one bar
  // ---------------------------------------------------------------------

  /** A reversal closes at the bar's close and re-enters at that same
      close: one close note then one entry note, both at the close. */
  lemma ReversalAtClose(s: State, bars: seq<Bar>, i: nat, cfg: Config)
    requires ValidConfig(cfg) && cfg.lookback + 1 <= i < |bars| && PositiveBars(bars) && Sane(s)
    requires var m := Decide(s, bars[i], Window(bars, cfg, i), AtrSimple(bars, cfg.atrPeriod, i), cfg);
             m.Reverse? && s.position == Some(Opposite(m.side))
    ensures var k := Step(s, bars, i, cfg);
            && |k.notes| == |s.notes| + 2
            && k.notes[|s.notes|].price == bars[i].close && k.notes[|s.notes|].pnlPct.Some?
            && k.notes[|s.notes| + 1].price == bars[i].close && k.notes[|s.notes| + 1].pnlPct.None?
  {
  }

  /** A signal in the held direction re-enters at the new close without
      touching equity. */
  lemma SameDirectionReenters(s: State, bars: seq<Bar>, i: nat, cfg: Config)
    requires ValidConfig(cfg) && cfg.lookback + 1 <= i < |bars| && PositiveBars(bars) && Sane(s)
    requires var m := Decide(s, bars[i], Window(bars, cfg, i), AtrSimple(bars, cfg.atrPeriod, i), cfg);
             m.Reverse? && s.position == Some(m.side)
    ensures var k := Step(s, bars, i, cfg);
            k.equity == s.equity && k.entry == bars[i].close && |k.notes| == |s.notes| + 1
  {
  }

  /** A bar with a signal never checks the stop, even when its range
      crosses the stop level. */
  lemma SignalSkipsStop(s: State, bars: seq<Bar>, i: nat, cfg: Config)
    requires ValidConfig(cfg) && cfg.lookback + 1 <= i < |bars| && PositiveBars(bars) && Sane(s)
    requires bars[i].high > Window(bars, cfg, i).upper || bars[i].low < Window(bars, cfg, i).lower
    ensures Step(s, bars, i, cfg).position.Some?
  {
  }

  /** On a bar without a signal a held position is stopped iff the bar
      reaches entry ∓ atr·mult; it then closes there with one StopLoss
      note and the bar ends flat, and otherwise nothing changes. */
  lemma QuietBarStop(s: State, bars: seq<Bar>, i: nat, cfg: Config)
    requires ValidConfig(cfg) && cfg.lookback + 1 <= i < |bars| && PositiveBars(bars) && Sane(s)
    requires !(bars[i].high > Window(bars, cfg, i).upper) && !(bars[i].low < Window(bars, cfg, i).lower)
    requires s.position.Some?
    ensures var k := Step(s, bars, i, cfg);
            var stop := SideStop(s.position.value, s.entry, AtrSimple(bars, cfg.atrPeriod, i), cfg.stopMult);
            var reached := if s.position == Some(Long) then bars[i].low <= stop else bars[i].high >= stop;
            && (reached ==>
                  && k.position.None? && |k.notes| == |s.notes| + 1
                  && k.notes[|s.notes|].price == stop && k.notes[|s.notes|].reason == StopLoss)
            && (!reached ==> k == s)
  {
  }
}
